=== FILE: README.md ===
# Budget database layer, modelled in Dafny

This project models the PostgreSQL-backed database layer of a budgeting
server. That layer is the `DbClient` class and its extension methods.

The model covers:
- plans;
- users;
- budgets, with their four root nodes;
- nodes, arranged as a tree of materialised paths;
- transactions and their postings;
- permissions and changesets;
- the query-text builders and the transaction wrapper of `DbClient`;
- the `BudgetChangesetHint` enumeration.

The store is one immutable `State` (`store.dfy`). Each table is a map. The
versioned tables (users, budgets, nodes, transactions, postings) map an
identity to its immutable columns and a chain of version rows
(`versioned.dfy`). Every database method is a pure function from `State` to
`Result<State, Error>`. An `Err` stands for the exception the method throws.
`DbClient.WithDatabaseTransaction` turns an `Err` into a rollback: the
caller keeps the state it started from.

The updates and deletes of users, budgets, nodes and transactions follow
one pattern:
- a permission check (`permissions.dfy`), except for the user operations;
- an existence lock;
- one changeset row with its hint (`utils.dfy`, `hints.dfy`);
- a version append: clear the most-recent flag, then insert version
  `prev + 1`.

The creates differ. They take no lock, since they insert a new identity row
(`Versioned.Insert`) and fail on a duplicate key. `createUser` and
`createBudget` make no permission check. `setPermissions` checks the share
right, then upserts its row with no lock, changeset or version.
`createPlan` only inserts its row.

The `current_*` views are read as "the most recent version, unless it is
deleted" (`Versioned.Current`).

The `Store.Valid` invariant of committed states has five parts:
- every version chain is numbered without gaps, and only its last version is
  most recent;
- every version row is stamped with a recorded changeset of its kind;
- node labels come from the label sequence and never repeat;
- each node's path ends in its own label;
- every budget has exactly its four untouched root nodes in the roots table.

These operations are proved to preserve `Valid`:
- the user writes;
- the budget writes;
- the transaction writes;
- `setPermissions` and `createPlan`;
- `createRootNode` under a recorded changeset, and `createChildNode`;
- the node update and delete confined to the caller's budget (`Nodes.UpdateNodeInBudget`, `Nodes.DeleteNodeInBudget`).

The node update and delete as written (`Nodes.UpdateNode`, `Nodes.DeleteNode`) are the exception. They guard only the roots of the budget named in the call. So they can change or delete another budget's root and break the roots invariant (`Nodes.ForeignRootCanBeUpdated`, `Nodes.ForeignRootCanBeDeleted`; see Findings).

The bodies of the transactions and the node, budget and user mutations are
built from these steps:
- a permission check (`Permissions.AssertUserCan*`);
- `Versioned.Lock`;
- `Utils.CreateBudgetChangeset` or `Utils.CreateUserChangeset`;
- `Versioned.Insert`, `Versioned.UpdateIn` or `Versioned.DeleteIn`.

Each step is an `Outcome`/`Result`, and the steps are chained with `:-`. So
the first failing step decides the error, and the errors come in the same
order as in the source. The statements themselves run in the source's order,
with one exception. `Users.CreateUser` and `Budgets.OpenBudget` record the
changeset before inserting the identity row, whereas users.ts:50-56 and
budgets.ts:46-52 insert the row first. The changeset step cannot fail, and
both writes commit or roll back together, so the outcome is the same.

Conventions used in the model:
- Values the source draws itself are parameters: `uuid.v4()` ids, `NOW()`
  (`now: Date`), and the caller's posting and node ids.
- Changeset ids are chosen fresh by construction, one above the largest id
  in use. That stands for the uniqueness of a v4 uuid.
- The label sequence `node_label_seq` is the `lastLabel` counter of the
  state.

## Model

| member | source | states |
|---|---|---|
| Hints.HintFor | src/server/models/BudgetChangesetHint.ts:2-10 | the member chosen for an (action, entity) pair has that action and that entity |
| Hints.Decode | src/server/models/BudgetChangesetHint.ts:1-11 | a stored hint string that decodes to a member is that member's string |
| Hints.NineMembers | src/server/models/BudgetChangesetHint.ts:1-11 | the enumeration has exactly nine members, each listed once |
| Hints.EncodeShape | src/server/models/BudgetChangesetHint.ts:2-10 | each member's string is "<action>-<entity>", with action create/update/delete and entity budget/node/transaction |
| Hints.OneMemberPerPair | src/server/models/BudgetChangesetHint.ts:2-10 | a member has action a and entity e exactly when it is the one member for (a, e) |
| Hints.DecodeEncode | src/server/models/BudgetChangesetHint.ts:2-10 | decoding a member's string gives that member back |
| Hints.EncodeInjective | src/server/models/BudgetChangesetHint.ts:2-10 | no two members share a string |
| Failures.LockAndRootTexts | src/server/database/extensions/nodes.ts:226 | a failed lock throws "Cannot find matching" with its entity: node here, and likewise user (users.ts:118), budget (budgets.ts:170) and budget transaction (transactions.ts:159); the root guard throws "Cannot update a root node" or "Cannot delete a root node" (nodes.ts:127 and 152) |
| Failures.ReadWriteTexts | src/server/database/extensions/permissions.ts:53-78 | a failed read or write check throws "User u cannot read budget b" or "User u cannot write to budget b" with the user and budget of the call |
| Failures.ShareDeleteTexts | src/server/database/extensions/permissions.ts:81-106 | a failed share or delete check throws "User u cannot share budget b" or "User u cannot delete budget b" with the user and budget of the call |
| Utils.NextUserChangeset | src/server/database/extensions/utils.ts:13 | the id drawn for a user changeset is used by no existing user changeset |
| Utils.NextBudgetChangeset | src/server/database/extensions/utils.ts:27 | the id drawn for a budget changeset is used by no existing budget changeset |
| Utils.CreateUserChangeset | src/server/database/extensions/utils.ts:8-19 | appends exactly one row (fresh id, user, hint), returns that id, and changes nothing else |
| Utils.CreateBudgetChangeset | src/server/database/extensions/utils.ts:21-33 | appends exactly one row (fresh id, user, budget, hint), returns that id, and changes nothing else |
| Utils.ChangesetsAppendOnly | src/server/database/extensions/changesets.ts:20-32 | two successive changesets get different ids, and the earlier rows keep their order and contents |
| Utils.SingleRow | src/server/database/extensions/utils.ts:35-42 | succeeds exactly when there is one row, and then returns it; otherwise the error names the row count |
| Utils.FirstRowIfSeveral | src/server/database/extensions/plans.ts:31 | yields the first row exactly when there are at least two rows |
| Utils.FirstRowIfAny | src/server/database/extensions/nodes.ts:178 | yields the first row exactly when there is any row |
| Decimal.ValueOfText | src/server/database/DbClient.ts:74 | the decimal text of a placeholder index reads back as that index |
| Decimal.TextInjective | src/server/database/DbClient.ts:74 | different indices get different decimal texts |
| Decimal.TextHasNoDot | src/server/database/extensions/nodes.ts:104 | a label's text never contains the '.' that separates path segments |
| Paths.RootPathParts | src/server/database/extensions/nodes.ts:70-77 | a root path, which is just the label, has no parent and ends in its own label |
| Paths.ChildPathParts | src/server/database/extensions/nodes.ts:104 | a child path splits back into the parent's path and the child's label, so the parent path plus '.' is a proper prefix |
| Paths.DistinctLabelsDistinctPaths | src/server/database/extensions/nodes.ts:101-109 | paths that end in different labels are different |
| Versioned.MostRecent | src/server/database/extensions/users.ts:95-99 | `prev` is a flagged version of the chain, and it is absent exactly when no version is flagged |
| Versioned.Current | src/server/database/extensions/budgets.ts:138-143 | a current row is a most-recent, non-deleted version of the chain |
| Versioned.UpdateChain | src/server/database/extensions/nodes.ts:130-140 | keeps every old version with its flag cleared, and appends version prev+1 with the new content, not deleted and most recent |
| Versioned.DeleteChain | src/server/database/extensions/postings.ts:145-155 | keeps every old version with its flag cleared, and appends version prev+1 carrying prev's content, flagged deleted |
| Versioned.NumbersWithoutGaps | src/server/database/extensions/nodes.ts:130-140 | in a valid chain, version i is numbered first + i |
| Versioned.ExactlyOneMostRecent | src/server/database/extensions/users.ts:95-99 | a valid chain has exactly one flagged version, its last, so `prev` is that version |
| Versioned.ReadAfterCreate | src/server/database/extensions/postings.ts:115-119 | a freshly inserted chain is valid and reads back with its content, not deleted |
| Versioned.ReadAfterUpdate | src/server/database/extensions/postings.ts:127-137 | after an update the view shows the new content at version prev+1 |
| Versioned.ReadAfterDelete | src/server/database/extensions/postings.ts:145-155 | after a delete the view is empty, and the most recent row carries prev's content at prev+1, flagged deleted |
| Versioned.Insert | src/server/database/extensions/postings.ts:109-119 | succeeds exactly when the key is new, and then adds the identity with one initial version; otherwise the primary key of the named table is violated |
| Versioned.Lock | src/server/database/extensions/transactions.ts:149-161 | passes exactly when the identity row exists, and otherwise fails with "Cannot find matching ..." |
| Versioned.UpdateIn | src/server/database/extensions/postings.ts:122-138 | only the key's chain changes, by an update append; the key set stays the same |
| Versioned.DeleteIn | src/server/database/extensions/postings.ts:140-156 | only the key's chain changes, by a delete append; the key set stays the same |
| Versioned.InsertExtends | src/server/database/extensions/postings.ts:109-119 | an insert only adds history stamped with the call's changeset |
| Versioned.UpdateInExtends | src/server/database/extensions/nodes.ts:130-140 | an update append only adds history stamped with the changeset, and keeps every chain valid |
| Versioned.DeleteInExtends | src/server/database/extensions/nodes.ts:155-165 | a delete append only adds history stamped with the changeset, and keeps every chain valid |
| Permissions.PermissionRows | src/server/database/extensions/permissions.ts:57-60 | at most one row matches a (user, budget) pair, and one does exactly when the pair has a row |
| Permissions.AssertUserCanReadBudget | src/server/database/extensions/permissions.ts:53-65 | passes exactly when a row exists and can_read is set; otherwise fails naming the user, the budget and the right |
| Permissions.AssertUserCanWriteToBudget | src/server/database/extensions/permissions.ts:67-79 | passes exactly when a row exists and can_write is set; otherwise fails naming the user, the budget and the right |
| Permissions.AssertUserCanShareBudget | src/server/database/extensions/permissions.ts:81-92 | passes exactly when a row exists and can_share is set; otherwise fails naming the user, the budget and the right |
| Permissions.AssertUserCanDeleteBudget | src/server/database/extensions/permissions.ts:94-106 | passes exactly when a row exists and can_delete is set; otherwise fails naming the user, the budget and the right |
| Permissions.ChecksAreIndependent | src/server/database/extensions/permissions.ts:53-106 | whatever the other rows, each check on a pair with a row passes exactly when that row's own flag is set, so for example can_write does not satisfy the read check |
| Permissions.NoRowNoAccess | src/server/database/extensions/permissions.ts:53-106 | without a row, all four checks fail |
| Permissions.SetPermissions | src/server/database/extensions/permissions.ts:20-34 | succeeds exactly when the sharing user can share; then the (target, budget) row holds the given flags, whether it was inserted or updated, and nothing else changes |
| Permissions.LastWriteWins | src/server/database/extensions/permissions.ts:26-33 | after two grants to the same target, the second grant's flags remain |
| Permissions.ReadWriteGrantDoesNotAllowSharing | src/server/database/extensions/permissions.ts:25-33 | a target granted read and write can read, and its own attempt to grant permissions is refused |
| Permissions.SetPermissionsPreservesValid | src/server/database/extensions/permissions.ts:20-34 | a grant keeps the store invariant |
| Permissions.GetPermissionsAlwaysNull | src/server/database/extensions/permissions.ts:50 | as written, the read returns null for every pair, including pairs that have a row |
| Permissions.GetPermissionsByUserAndBudget | src/server/database/extensions/permissions.ts:36-51 | as written, a row is returned only when more than one row matches, and then it is the pair's row |
| Permissions.GetPermissions | src/server/database/extensions/permissions.ts:36-51 | the corrected read returns the pair's row exactly when it exists |
| Permissions.GetAfterSet | src/server/database/extensions/permissions.ts:26-51 | after a grant, the corrected read returns exactly the flags granted |
| Plans.CreatePlan | src/server/database/extensions/plans.ts:12-21 | inserts exactly one row with the given name and cost when the id is new, with no version, changeset or permission check; otherwise a duplicate key |
| Plans.PlanRows | src/server/database/extensions/plans.ts:27-30 | at most one row matches an id, and one does exactly when the plan exists |
| Plans.ReadPlanByIdAlwaysNull | src/server/database/extensions/plans.ts:31 | as written, the read returns null for every id, even right after the plan is created |
| Plans.ReadPlanById | src/server/database/extensions/plans.ts:23-32 | as written, a plan is returned only when more than one row matches, and then it is the plan stored under the id |
| Plans.ReadPlan | src/server/database/extensions/plans.ts:23-32 | the corrected read returns the plan exactly when it exists |
| Plans.ReadAfterCreatePlan | src/server/database/extensions/plans.ts:12-32 | a created plan reads back with its name and cost |
| Plans.CreatePlanPreservesValid | src/server/database/extensions/plans.ts:12-21 | creating a plan keeps the store invariant |
| Users.CreateUser | src/server/database/extensions/users.ts:45-64 | succeeds exactly when the user is new; adds one CreateUser changeset and version 0, not deleted and most recent; touches no other table |
| Users.UpdateUser | src/server/database/extensions/users.ts:66-85 | fails with NotFound when the user is absent; otherwise adds one UpdateUser changeset and appends version prev+1 with the new fields to this user's chain only |
| Users.DeleteUser | src/server/database/extensions/users.ts:87-106 | fails with NotFound when the user is absent; otherwise appends version prev+1 that carries all four fields forward, flagged deleted, to this user's chain only |
| Users.UserOperationsIgnorePermissions | src/server/database/extensions/users.ts:45-106 | changing the permission table changes no user operation's result: the same error, or the same resulting store apart from the permission table |
| Users.CreateUserPreservesValid | src/server/database/extensions/users.ts:45-64 | creating a user keeps the store invariant |
| Users.UpdateUserPreservesValid | src/server/database/extensions/users.ts:66-85 | updating a user keeps the store invariant |
| Users.DeleteUserPreservesValid | src/server/database/extensions/users.ts:87-106 | deleting a user keeps the store invariant |
| Nodes.CurrentNodeRows | src/server/database/extensions/nodes.ts:174-177 | at most one current row matches a node id, and it is the node's current version |
| Nodes.CreateRootNode | src/server/database/extensions/nodes.ts:65-85 | succeeds exactly when the id is new; draws the next label, stores it as both path and label, and writes version 1 under the caller's changeset |
| Nodes.CreateRootNodeMakesRoot | src/server/database/extensions/nodes.ts:70-84 | the new node is a root row of its budget: path equals its fresh label, one version numbered 1, not deleted, most recent |
| Nodes.CreateRootNodePreservesValid | src/server/database/extensions/nodes.ts:70-84 | under a recorded changeset, creating a root node keeps every store invariant |
| Nodes.RootRowIsRoot | src/server/database/extensions/nodes.ts:73-84 | every row the root insert writes has a valid one-version chain and a path that is its own label |
| Nodes.CreateChildNode | src/server/database/extensions/nodes.ts:87-117 | succeeds exactly when the user can write, the parent has a current row and the id is new, with errors in that order; writes path = parent path + "." + fresh label and version 0 under one CreateNode changeset |
| Nodes.ChildPathNamesParent | src/server/database/extensions/nodes.ts:96-109 | a child's path splits back into the parent's current path and the child's own label |
| Nodes.NewLabelIsFresh | src/server/database/extensions/nodes.ts:101-102 | the label a new node draws is larger than every label in use, so labels never repeat |
| Nodes.PathsAreUnique | src/server/database/extensions/nodes.ts:101-109 | in a valid store no two nodes share a path |
| Nodes.CreateChildNodePreservesValid | src/server/database/extensions/nodes.ts:87-117 | creating a child keeps the store invariant |
| Nodes.ThrowErrorIfIsRootNode | src/server/database/extensions/nodes.ts:230-244 | fails exactly when a roots row of the given budget names the node, with the caller's message |
| Nodes.UpdateNode | src/server/database/extensions/nodes.ts:119-142 | succeeds exactly when the user can write, the node exists and it is not a root of the given budget, with errors in that order; then appends version prev+1 with the new name and dates under one UpdateNode changeset |
| Nodes.DeleteNode | src/server/database/extensions/nodes.ts:144-167 | as the update, but the new version carries name and dates forward, flagged deleted, under one DeleteNode changeset |
| Nodes.RootsOfTheGivenBudgetAreProtected | src/server/database/extensions/nodes.ts:127-152 | a root of the given budget is refused by both update and delete |
| Nodes.ForeignRootIsNotGuarded | src/server/database/extensions/nodes.ts:236-239 | the guard's query does not see a root that belongs to another budget |
| Nodes.ForeignRootCanBeUpdated | src/server/database/extensions/nodes.ts:119-142 | as written, write access to one budget lets a user update a root node of another budget, which then stops being an untouched root |
| Nodes.ForeignRootCanBeDeleted | src/server/database/extensions/nodes.ts:144-167 | as written, write access to one budget lets a user delete a root node of another budget |
| Nodes.LockInBudget | src/server/database/extensions/nodes.ts:216-228 | the corrected lock passes exactly when the node exists in the given budget |
| Nodes.UpdateNodeInBudget | src/server/database/extensions/nodes.ts:119-142 | the corrected update also refuses nodes of other budgets, and otherwise behaves as the update as written |
| Nodes.DeleteNodeInBudget | src/server/database/extensions/nodes.ts:144-167 | the corrected delete also refuses nodes of other budgets, and otherwise behaves as the delete as written |
| Nodes.ConfinedNodeIsNoRoot | src/server/database/extensions/nodes.ts:230-244 | in a valid store, a node the corrected lock and the guard let through is named by no roots row at all |
| Nodes.UpdateNodeInBudgetPreservesValid | src/server/database/extensions/nodes.ts:119-142 | the corrected update keeps the store invariant, roots included |
| Nodes.DeleteNodeInBudgetPreservesValid | src/server/database/extensions/nodes.ts:144-167 | the corrected delete keeps the store invariant, roots included |
| Nodes.GetNodeById | src/server/database/extensions/nodes.ts:169-179 | fails without read access; otherwise returns null exactly when the node has no current row, else that row |
| Nodes.GetNodesForBudget | src/server/database/extensions/nodes.ts:181-192 | fails without read access; otherwise every node listed is a current node of that budget |
| Nodes.GetNodesForBudgetIsComplete | src/server/database/extensions/nodes.ts:185-191 | every current node of the budget is listed |
| Nodes.RootNodeRows | src/server/database/extensions/nodes.ts:199-207 | at most one row joins the roots row of (budget, domain, layer), and it is that root's node |
| Nodes.GetRootNode | src/server/database/extensions/nodes.ts:194-211 | succeeds exactly when the user can read and the root has a current row, else fails with the permission error or a row count of 0; returns that root node with its budget and its current version |
| Nodes.RootNodesReadable | src/server/database/extensions/nodes.ts:194-211 | in a valid store each of an existing budget's four roots reads back as a version-1 node of that budget |
| Budgets.OpenBudget | src/server/database/extensions/budgets.ts:45-64 | inserts the budget, its CreateBudget changeset, the creator's row with all four flags and version 0 with the name; a duplicate budget or permission key fails |
| Budgets.CreateRootNodes | src/server/database/extensions/budgets.ts:66-74 | the four root inserts succeed exactly when the four drawn ids are distinct and new; they draw four successive labels |
| Budgets.CreateBudget | src/server/database/extensions/budgets.ts:41-85 | succeeds exactly when the budget, permission pair and four root ids are all new; the result is the opened budget with four root nodes and four roots rows, all under one changeset |
| Budgets.RootsOfSlot | src/server/database/extensions/budgets.ts:76-83 | the roots insert has one row per (domain, layer) pair, naming that pair's id, all for the new budget |
| Budgets.RootIdOfInjective | src/server/database/extensions/budgets.ts:66-69 | fresh root ids name four different nodes |
| Budgets.CreateBudgetMakesFourRoots | src/server/database/extensions/budgets.ts:66-83 | a new budget has a root node for each (domain, layer) pair, with the pair's name, a fresh label and version 1 |
| Budgets.CreateBudgetRootAt | src/server/database/extensions/budgets.ts:71-83 | the roots row of each pair names the node created for it, a root row of the budget |
| Budgets.CreateBudgetHasOnlyFourRoots | src/server/database/extensions/budgets.ts:76-83 | the new budget has no roots rows besides its four, and they name four different nodes |
| Budgets.CreatorHoldsEveryRight | src/server/database/extensions/budgets.ts:54-58 | the creator holds read, write, share and delete on the new budget |
| Budgets.UpdateBudget | src/server/database/extensions/budgets.ts:87-109 | succeeds exactly when the user can write and the budget exists; appends version prev+1 with the new name under one UpdateBudget changeset |
| Budgets.DeleteBudget | src/server/database/extensions/budgets.ts:111-132 | needs the delete right, not write; appends version prev+1 carrying the name forward, flagged deleted |
| Budgets.WriteDoesNotGrantDelete | src/server/database/extensions/budgets.ts:117 | a user whose row grants read, write and share but not delete is refused, whatever other rows exist |
| Budgets.GetBudgetById | src/server/database/extensions/budgets.ts:134-144 | fails without read access; otherwise returns null exactly when the budget has no current row, else that row |
| Budgets.GetReadableBudgetsByUser | src/server/database/extensions/budgets.ts:146-158 | with no permission check, lists exactly the current budgets whose row for the user has can_read |
| Budgets.ReadAfterCreateBudget | src/server/database/extensions/budgets.ts:60-64 | the creator reads a new budget back with its name at version 0 |
| Budgets.DeletedBudgetReadsNull | src/server/database/extensions/budgets.ts:124-130 | after a delete the budget reads back as null and leaves the reader's list of readable budgets |
| Budgets.CreateBudgetPreservesValid | src/server/database/extensions/budgets.ts:41-85 | creating a budget keeps the store invariant, including its four roots |
| Budgets.UpdateBudgetPreservesValid | src/server/database/extensions/budgets.ts:87-109 | updating a budget keeps the store invariant |
| Budgets.DeleteBudgetPreservesValid | src/server/database/extensions/budgets.ts:111-132 | deleting a budget keeps the store invariant |
| Postings.CreatePosting | src/server/database/extensions/postings.ts:103-120 | succeeds exactly when the posting id is new; writes version 0 under the transaction |
| Postings.PostingReadsBack | src/server/database/extensions/postings.ts:122-156 | an updated posting reads back at prev+1 with the new node, amount and description; a deleted one reads back as absent, carrying its values forward at prev+1 |
| Postings.UpdatePosting | src/server/database/extensions/postings.ts:122-138 | only the named posting's row changes; no key is added or removed and the posting keeps its transaction |
| Postings.DeletePosting | src/server/database/extensions/postings.ts:140-156 | only the named posting's row changes; no key is added or removed and the posting keeps its transaction |
| Postings.GetPostingsByTransactionId | src/server/database/extensions/postings.ts:89-98 | returns exactly the current postings of the transaction, each with its current version |
| Postings.FetchedRowIds | src/server/database/extensions/postings.ts:89-98 | the ids fetched are exactly the ids of the transaction's current postings |
| Postings.CreatePostings | src/server/database/extensions/postings.ts:43-52 | succeeds exactly when the input ids are distinct and new; creates one posting per input at version 0 under the transaction, touching no other row |
| Postings.CreatePostingsExtends | src/server/database/extensions/postings.ts:43-52 | creating postings only adds history stamped with the changeset, and keeps chains valid |
| Postings.CreatePostingsReadBack | src/server/database/extensions/postings.ts:43-52 | each created posting reads back at version 0 with its input, and the transaction's postings grow by exactly the input ids |
| Postings.DeletePostingsIn | src/server/database/extensions/postings.ts:84-86 | soft-deletes the listed postings and keeps the key set |
| Postings.DeleteEachIsBulk | src/server/database/extensions/postings.ts:84-86 | deleting one posting after another equals deleting the whole set at once |
| Postings.DeletePostingsInExtends | src/server/database/extensions/postings.ts:84-86 | the deletes only add history stamped with the changeset |
| Postings.UpdatePostings | src/server/database/extensions/postings.ts:73-75 | each listed existing posting gets an update append, and unlisted postings are unchanged |
| Postings.UpdatePostingsExtends | src/server/database/extensions/postings.ts:73-75 | the updates only add history stamped with the changeset, and keep chains valid |
| Postings.DeletePostingsForTransactionEmpties | src/server/database/extensions/postings.ts:78-87 | exactly the transaction's current postings are soft-deleted: each gets one deleted version prev+1 carrying its values, stamped with the changeset, on top of its history; afterwards the transaction has no current posting, and every other row, including its already-deleted postings, is unchanged |
| Postings.DeletePostingsForTransaction | src/server/database/extensions/postings.ts:78-87 | no key is added or removed, no row changes owner, and every row that is not a current posting of the transaction is exactly as before |
| Postings.Gone | src/server/database/extensions/postings.ts:63-65 | the delete group holds exactly the old postings with no partner among the new ones |
| Postings.Created | src/server/database/extensions/postings.ts:68-70 | the create group holds exactly the new postings with no partner among the old ones, in input order |
| Postings.Kept | src/server/database/extensions/postings.ts:73-75 | the update group holds exactly the new postings with a partner among the old ones, in input order |
| Postings.SplitIsPartition | src/server/database/extensions/postings.ts:60-75 | the create and update groups are disjoint and cover the new postings; an old posting is deleted exactly when no kept posting matches it |
| Postings.ReconcileWith | src/server/database/extensions/postings.ts:54-76 | for any notion of sameness, the update fails exactly when a posting to create already exists, with a duplicate key |
| Postings.UpdatePostingsForTransaction | src/server/database/extensions/postings.ts:54-76 | as written, with reference comparison, succeeds exactly when every input id is distinct and new; it leaves every other transaction's postings as they were and adds only rows of this transaction |
| Postings.ReferenceSplit | src/server/database/extensions/postings.ts:63-75 | under reference comparison every old posting is deleted, every input is created, and none is updated |
| Postings.EditedPostingAbortsUpdate | src/server/database/extensions/postings.ts:68-70 | as written, resubmitting an existing posting of the transaction fails with a duplicate key |
| Postings.UpdatePostingsById | src/server/database/extensions/postings.ts:54-76 | the corrected reconcile matches old and new postings by id; it fails only when a posting to create already exists, and it leaves every other transaction's postings as they were, changes no row's owner, and adds only rows of this transaction |
| Postings.ByIdGroups | src/server/database/extensions/postings.ts:60-75 | matched by id, a posting is kept exactly when its id is current, and the deleted ids are the current ids not resubmitted |
| Postings.EditedPostingIsUpdated | src/server/database/extensions/postings.ts:73-75 | matched by id, resubmitting an existing posting succeeds and appends version prev+1 with its new values |
| Postings.UpdatePostingsByIdReadBack | src/server/database/extensions/postings.ts:54-76 | matched by id, the transaction's current postings afterwards are exactly the inputs, each with its values |
| Postings.ByIdListed | src/server/database/extensions/postings.ts:68-75 | matched by id, each input is current under the transaction with its values; one that was current moves to prev+1 on top of its history |
| Postings.KeptPostingUpdated | src/server/database/extensions/postings.ts:73-75 | a kept posting gets an update append on top of its old history |
| Postings.NewPostingCreated | src/server/database/extensions/postings.ts:68-70 | a posting in the create group is written at version 0 |
| Postings.ByIdUnlisted | src/server/database/extensions/postings.ts:54-76 | matched by id, a posting id that is not resubmitted is no longer a current posting of the transaction |
| Postings.ReconcileExtends | src/server/database/extensions/postings.ts:54-76 | the reconcile only adds history stamped with the changeset, and keeps chains valid |
| Postings.ReconcileFrame | src/server/database/extensions/postings.ts:54-76 | when no kept posting names another transaction's row, the reconcile leaves every other transaction's rows exactly as they were, changes no row's owner, and adds only rows of this transaction |
| Postings.UpdatePostingsForTransactionReadBack | src/server/database/extensions/postings.ts:54-76 | when the update as written succeeds, the transaction's current postings are exactly the inputs |
| Transactions.CreateTransaction | src/server/database/extensions/transactions.ts:51-73 | succeeds exactly when the user can write, the transaction id is new and the posting ids are distinct and new, with errors in that order; writes version 0 and the postings under one CreateTransaction changeset |
| Transactions.UpdateTransactionWith | src/server/database/extensions/transactions.ts:75-98 | write access, then the lock, then one UpdateTransaction changeset, version prev+1 with the new date and description, and the posting reconcile |
| Transactions.UpdateTransaction | src/server/database/extensions/transactions.ts:75-98 | as written, succeeds exactly when the user can write, the transaction exists and every posting id is distinct and new |
| Transactions.UpdateTransactionById | src/server/database/extensions/transactions.ts:75-98 | the update with postings matched by id |
| Transactions.DeleteTransaction | src/server/database/extensions/transactions.ts:100-123 | needs write (not delete) and the lock; carries date and description forward at prev+1, flagged deleted, and soft-deletes the transaction's current postings under one DeleteTransaction changeset |
| Transactions.GetTransactionById | src/server/database/extensions/transactions.ts:125-144 | fails without read access; otherwise returns null exactly when there is no current row, else that row with exactly its current postings |
| Transactions.DeniedCallWritesNothing | src/server/database/extensions/transactions.ts:79-82 | the permission check comes first, so a denied create, update or delete rolls back to the untouched store and rethrows the permission error |
| Transactions.WriteSufficesToDelete | src/server/database/extensions/transactions.ts:105 | any row with the write flag lets its user delete an existing transaction, whatever its delete flag |
| Transactions.UpdateTransactionFrame | src/server/database/extensions/transactions.ts:75-98 | an update as written leaves every other transaction and every posting of another transaction exactly as before |
| Transactions.UpdateTransactionByIdFrame | src/server/database/extensions/transactions.ts:75-98 | an update matched by id leaves every other transaction and every posting of another transaction exactly as before |
| Transactions.ReadAfterCreateTransaction | src/server/database/extensions/transactions.ts:51-73 | a reader sees a new transaction at version 0 in its budget, with exactly the postings created |
| Transactions.ReadAfterUpdateTransactionById | src/server/database/extensions/transactions.ts:75-98 | with postings matched by id, a reader sees version prev+1 with exactly the resubmitted postings |
| Transactions.DeletedTransactionReadsNull | src/server/database/extensions/transactions.ts:100-123 | after a delete the transaction reads back as null and has no current postings |
| Transactions.EditingAPostingAbortsUpdate | src/server/database/extensions/transactions.ts:96 | as written, an update that resubmits one of the transaction's postings fails with a duplicate key |
| Transactions.EditingAPostingById | src/server/database/extensions/transactions.ts:96 | with postings matched by id, the same update succeeds |
| Transactions.CreateTransactionPreservesValid | src/server/database/extensions/transactions.ts:51-73 | creating a transaction keeps the store invariant |
| Transactions.UpdateTransactionWithPreservesValid | src/server/database/extensions/transactions.ts:75-98 | updating a transaction keeps the store invariant, whatever the posting comparison |
| Transactions.DeleteTransactionPreservesValid | src/server/database/extensions/transactions.ts:100-123 | deleting a transaction keeps the store invariant |
| DbClient.LiteralQueryText | src/server/database/DbClient.ts:57-61 | the literal query text is the interleaving t0 v1 t1 ... vk tk |
| DbClient.PlaceholdersNumbered | src/server/database/DbClient.ts:73-74 | placeholder i is "$" followed by i+1 in decimal, and no two placeholders are alike |
| DbClient.ParameterisedQuery | src/server/database/DbClient.ts:71-78 | the text interleaves the string parts with $1 .. $k, and the values travel beside the text unchanged |
| DbClient.PadEnd | src/server/database/DbClient.ts:81 | the padded text keeps its prefix and is filled with spaces up to the width |
| DbClient.ValueLineShape | src/server/database/DbClient.ts:80-82 | for the first 999 values, a value line is a tab, "$i:" padded to five columns, the value, and a newline |
| DbClient.FailureDescription | src/server/database/DbClient.ts:80-83 | the logged text is the header, the query text, "with values:", the value lines, and a closing newline, in that order |
| DbClient.FirstFailure | src/server/database/DbClient.ts:89-101 | a failed callback failed at one statement, after every earlier statement succeeded |
| DbClient.AllOrNothing | src/server/database/DbClient.ts:89-101 | the wrapper either commits the state after every statement, or keeps the starting state and rethrows the first statement's error |
| DbClient.WithDatabaseTransaction | src/server/database/DbClient.ts:89-101 | no error exactly when every statement succeeds, and then the state after the last one is committed; on an error the starting state is kept and the error rethrown |
| DbClient.LateFailureRollsBack | src/server/database/DbClient.ts:92-100 | a failure after successful statements undoes them all |

## Left out

- Concurrency: row locks (`FOR UPDATE`) are modelled only as "the identity row exists, else fail". Interleavings of concurrent callers are not modelled.
- `nextval('node_label_seq')` is not transactional in PostgreSQL: a rolled-back call still consumes labels. The model restores `lastLabel` on rollback. Labels stay strictly increasing either way.
- SQL defects are modelled as their evident intent, not as the runtime errors they would raise. These are:
  - filters on camel-case columns that do not exist (`userId`/`budgetId` in permissions.ts:60, 74, 88 and 101; `transactionId` in transactions.ts:134 and postings.ts:96);
  - `budget_id` against `current_budgets` in budgets.ts:142;
  - `node_id` against `current_nodes` in nodes.ts:177;
  - `RETURNING prev` in transactions.ts:89;
  - the stray comma before `FROM` in permissions.ts:47;
  - `prev.version_number` used in a `VALUES` list without `FROM prev`.
- `prev` with no flagged row: in the model an append to a chain with no most-recent version writes nothing (`Versioned.Append`). The source's CTE-based appends for users, nodes, transactions and postings likewise insert no row. `updateBudget` and `deleteBudget` differ (budgets.ts:97-107 and 121-130): they destructure `prev` from the returned rows and read `prev.version_number`, so there an empty result throws a TypeError and the call rolls back. The model's `Budgets.UpdateBudget` and `Budgets.DeleteBudget` write nothing in that case instead. No valid store contains such a chain (`Versioned.ExactlyOneMostRecent`), so neither path is reachable from one.
- Users.UpdateUser: the flag-clearing filter in users.ts:77 is `user_id = id`, which compares the row with the `id` column of the same row rather than the bound user id. It is modelled as the intended "this user's rows".
- `_.intersection` drops repeated entries of its first argument. The model's update group keeps input order and repeats. The two agree whenever posting ids are distinct, which every lemma about the groups assumes.
- The `current_*` views, the schema, and the `Domain`, `Layer` and `UserChangesetHint` enumerations are not part of this model. The views are read as "most recent and not deleted", which is what makes a deleted budget read back as null. The enumerations are small datatypes, and a user hint carries no string encoding.
- src/server/database/extensions/changesets.ts duplicates the two changeset functions of utils.ts line for line. Both are modelled once, in `Utils`.
- Logging is not modelled: `Logger`, and the text `literalQuery` logs on failure. `parameterisedQuery`'s failure text is modelled (`DbClient.FailureDescription`) but never logged. `executeFile` (file I/O) and the `client.query` call itself are not modelled either.
- Amounts, plan costs and dates are plain `int`s (`Store.Plan.cost`, `PostingContent.amount`, `Ids.Date`). In the source, `cost` and `amount` are TypeScript `number`s, which are IEEE doubles (plans.ts:9, postings.ts:13 and 31), and the transaction date is a JavaScript `Date` (transactions.ts:21 and 38). The model only stores and reads these values back and never computes with them. So fractional amounts such as 12.50, NaN, and timestamp precision are outside the model, and no proved property depends on them.
- JavaScript's conversion of bound values to text is not modelled: query values are taken in their text form.
- `uuid.v4()` and `NOW()` are parameters. Changeset ids are one above the largest id in use rather than random.
- Budget membership is not checked where the source does not check it. The model does not compare the node's or transaction's budget with `budgetId` in these calls:
  - `createChildNode` (the parent's budget);
  - `getNodeById`;
  - `updateTransaction` and `deleteTransaction`;
  - `getTransactionById`.

  The corrected node mutations are listed under Findings. The transaction calls are modelled as written.
- DbClient.ValueLineShape: states the five-column layout only for the first 999 values. From the 1000th value on, `padEnd` leaves "$1000:" six columns wide, so those lines are one column wider and no longer align; the model's `DbClient.ValueLine` writes them the same way.
- Postings.ReconcileExtends: for an arbitrary notion of sameness it states only that history grows under the changeset. It does not state that other transactions' postings are untouched, since a kept posting may then name any row. `Postings.ReconcileFrame` states that frame for sameness relations whose kept postings belong to the transaction. Both comparisons in the model meet that condition, and `Postings.UpdatePostingsForTransaction` and `Postings.UpdatePostingsById` state the frame in their contracts.
- Postings.UpdatePosting and Postings.DeletePosting on an id with no row write nothing, as the source's CTE inserts no row when `prev` is empty. The reconciler only calls them on existing ids.
- Transactions.GetTransactionById, Transactions.ReadAfterCreateTransaction and Transactions.ReadAfterUpdateTransactionById: posting entities carry the posting id, transaction id and current version. The read-back lemmas compare posting ids, not whole entities.
- Budgets.CreateBudget: the source makes no permission check before creating a budget. The model makes none either.
- src/server/database/extensions/transactionAndPostings.ts and the older client under src/server/database/DbClient/ are not part of this model. No live code path reaches them.

## Findings

| source | as written | input that shows it | evidently intended | confidence | as-written member | corrected member |
|---|---|---|---|---|---|---|
| src/server/database/extensions/plans.ts:31 | `(rowCount > 1) ? rows[0] : null` | `createPlan` with a new id, then `readPlanById` with that id: one row matches and null is returned | return the row when one matches (`rowCount > 0`) | high; not executed | Plans.ReadPlanByIdAlwaysNull | Plans.ReadAfterCreatePlan |
| src/server/database/extensions/permissions.ts:50 | `(rowCount > 1) ? rows[0] : null` | `setPermissions` for a pair, then `getPermissionsByUserAndBudget` for it: null | return the pair's row when it exists | high; not executed | Permissions.GetPermissionsAlwaysNull | Permissions.GetAfterSet |
| src/server/database/extensions/postings.ts:63-75 | `_.difference` and `_.intersection` compare posting objects by reference, and the rows just fetched are never the caller's objects | `updateTransaction` that resubmits an existing posting p1 with a new amount: p1 falls in the create group and its insert violates the postings key | match old and new postings by posting id: update p1 to version prev+1 | medium; not executed | Transactions.EditingAPostingAbortsUpdate | Transactions.EditingAPostingById |
| src/server/database/extensions/nodes.ts:119-142 | the lock (216-228) and the root guard (230-244) never compare the node's budget with `budgetId` | a user with write access to budget A calls `updateNode` with budget A and the Internal Location root of budget B: the root is rewritten | confine the lock to nodes of `budgetId`, so B's root is not found | medium; not executed | Nodes.ForeignRootCanBeUpdated | Nodes.UpdateNodeInBudgetPreservesValid |
| src/server/database/extensions/nodes.ts:144-167 | the same lock and guard in `deleteNode` | the same call to `deleteNode`: B's root is soft-deleted, and budget B loses a current root | confine the lock to nodes of `budgetId` | medium; not executed | Nodes.ForeignRootCanBeDeleted | Nodes.DeleteNodeInBudgetPreservesValid |

=== FILE: budgets.dfy ===
/** Budgets: creating a budget grants its creator every right and bootstraps
    its four root nodes under the same changeset; update and delete are the
    versioned pattern, behind the write and the delete right respectively. */
module Budgets {
  import opened Wrappers
  import opened Ids
  import opened Hints
  import opened Decimal
  import opened Failures
  import opened Versioned
  import opened Store
  import opened Utils
  import opened Permissions
  import opened Paths
  import opened Nodes

  /** `IBudgetEntity`: a budget's id with one of its versions. */
  datatype BudgetEntity = BudgetEntity(budget: BudgetId, version: Version<BudgetContent>)

  /** The ids `createBudget` draws for its four root nodes. */
  datatype RootIds = RootIds(internalLocation: NodeId, internalPurpose: NodeId, externalLocation: NodeId, externalPurpose: NodeId)

  /** The id drawn for the (domain, layer) slot. */
  function RootIdOf(ids: RootIds, d: Domain, l: Layer): NodeId {
    match (d, l)
    case (Internal, Location) => ids.internalLocation
    case (Internal, Purpose) => ids.internalPurpose
    case (External, Location) => ids.externalLocation
    case (External, Purpose) => ids.externalPurpose
  }

  /** The name each root node is created with. */
  function RootName(d: Domain, l: Layer): string {
    match (d, l)
    case (Internal, Location) => "Internal Location"
    case (Internal, Purpose) => "Internal Purpose"
    case (External, Location) => "External Location"
    case (External, Purpose) => "External Purpose"
  }

  /** The position of the slot's `createRootNode` call, counting from 0. */
  function Slot(d: Domain, l: Layer): nat {
    match (d, l)
    case (Internal, Location) => 0
    case (Internal, Purpose) => 1
    case (External, Location) => 2
    case (External, Purpose) => 3
  }

  /** The four ids are pairwise different and none names an existing node:
      exactly when the four successive inserts all succeed. */
  predicate FreshRootIds(nodes: NodeTable, ids: RootIds) {
    && ids.internalLocation !in nodes
    && ids.internalPurpose !in nodes && ids.internalPurpose != ids.internalLocation
    && ids.externalLocation !in nodes && ids.externalLocation != ids.internalLocation
    && ids.externalLocation != ids.internalPurpose
    && ids.externalPurpose !in nodes && ids.externalPurpose != ids.internalLocation
    && ids.externalPurpose != ids.internalPurpose && ids.externalPurpose != ids.externalLocation
  }

  /** The four rows of the `INSERT INTO roots` statement. */
  function RootsOf(budget: BudgetId, ids: RootIds): map<RootKey, NodeId> {
    map[RootKey(budget, Internal, Location) := ids.internalLocation,
        RootKey(budget, Internal, Purpose) := ids.internalPurpose,
        RootKey(budget, External, Location) := ids.externalLocation,
        RootKey(budget, External, Purpose) := ids.externalPurpose]
  }

  /** `nodes` with the rows the four `createRootNode` calls add, in call
      order, drawing the labels after `base`. */
  function AddRootRows(nodes: NodeTable, budget: BudgetId, ids: RootIds, base: nat, now: Date, cs: ChangesetId): NodeTable {
    var l1 := base + 1;
    var l2 := l1 + 1;
    var l3 := l2 + 1;
    var l4 := l3 + 1;
    nodes[ids.internalLocation := RootRow(budget, l1, RootName(Internal, Location), now, cs)]
         [ids.internalPurpose := RootRow(budget, l2, RootName(Internal, Purpose), now, cs)]
         [ids.externalLocation := RootRow(budget, l3, RootName(External, Location), now, cs)]
         [ids.externalPurpose := RootRow(budget, l4, RootName(External, Purpose), now, cs)]
  }

  /** All four flags: what the creator of a budget is granted. */
  const AllRights := Permission(true, true, true, true)

  /** The first half of `createBudget`: the budget row and its CreateBudget
      changeset, every right for the creator, and version 0 with the given
      name. */
  function OpenBudget(s: State, budget: BudgetId, user: UserId, name: string): (r: Result<State, Error>)
    ensures r.Ok? <==> budget !in s.budgets && (user, budget) !in s.permissions
    ensures r.Err? ==> r.error == (if budget in s.budgets then DuplicateKey(Budgets) else DuplicateKey(Permissions))
    ensures r.Ok? ==>
      var cs := NextBudgetChangeset(s);
      r.value == s.(budgetChangesets := s.budgetChangesets + [BudgetChangeset(cs, user, budget, BudgetHint.CreateBudget)],
                    budgets := s.budgets[budget := Identity((), [Version(0, BudgetContent(name), false, true, cs)])],
                    permissions := s.permissions[(user, budget) := AllRights])
  {
    var (s1, cs) := CreateBudgetChangeset(s, user, budget, BudgetHint.CreateBudget);
    var budgets :- Insert(s1.budgets, budget, (), BudgetContent(name), 0, cs, Budgets);
    :- Need((user, budget) !in s1.permissions, DuplicateKey(Permissions));
    Ok(s1.(budgets := budgets, permissions := s1.permissions[(user, budget) := AllRights]))
  }

  /** The four `createRootNode` calls of `createBudget`, in source order. */
  function CreateRootNodes(s: State, cs: ChangesetId, budget: BudgetId, ids: RootIds, now: Date): (r: Result<State, Error>)
    ensures r.Ok? <==> FreshRootIds(s.nodes, ids)
    ensures r.Err? ==> r.error == DuplicateKey(Nodes)
    ensures r.Ok? ==> r.value == s.(nodes := AddRootRows(s.nodes, budget, ids, s.lastLabel, now, cs), lastLabel := s.lastLabel + 4)
  {
    var s1 :- CreateRootNode(s, cs, budget, ids.internalLocation, RootName(Internal, Location), now);
    var s2 :- CreateRootNode(s1, cs, budget, ids.internalPurpose, RootName(Internal, Purpose), now);
    var s3 :- CreateRootNode(s2, cs, budget, ids.externalLocation, RootName(External, Location), now);
    CreateRootNode(s3, cs, budget, ids.externalPurpose, RootName(External, Purpose), now)
  }

  /** `createBudget`: the budget row and its CreateBudget changeset, every
      right for the creator, version 0 with the given name, four root nodes
      and the four roots rows pointing at them. */
  function CreateBudget(s: State, budget: BudgetId, user: UserId, name: string, ids: RootIds, now: Date): (r: Result<State, Error>)
    ensures r.Ok? <==> && budget !in s.budgets
                       && (user, budget) !in s.permissions
                       && FreshRootIds(s.nodes, ids)
                       && RootsOf(budget, ids).Keys !! s.roots.Keys
    ensures r.Err? ==> r.error == (if budget in s.budgets then DuplicateKey(Budgets)
                                   else if (user, budget) in s.permissions then DuplicateKey(Permissions)
                                   else if !FreshRootIds(s.nodes, ids) then DuplicateKey(Nodes)
                                   else DuplicateKey(Roots))
    ensures r.Ok? ==>
      var cs := NextBudgetChangeset(s);
      && r.value.budgetChangesets == s.budgetChangesets + [BudgetChangeset(cs, user, budget, BudgetHint.CreateBudget)]
      && r.value.budgets == s.budgets[budget := Identity((), [Version(0, BudgetContent(name), false, true, cs)])]
      && r.value.permissions == s.permissions[(user, budget) := AllRights]
      && r.value.nodes == AddRootRows(s.nodes, budget, ids, s.lastLabel, now, cs)
      && r.value.roots == s.roots + RootsOf(budget, ids)
      && r.value.lastLabel == s.lastLabel + 4
      && r.value == s.(budgets := r.value.budgets, permissions := r.value.permissions,
                       nodes := r.value.nodes, roots := r.value.roots,
                       budgetChangesets := r.value.budgetChangesets, lastLabel := r.value.lastLabel)
  {
    var s1 :- OpenBudget(s, budget, user, name);
    var s2 :- CreateRootNodes(s1, NextBudgetChangeset(s), budget, ids, now);
    :- Need(RootsOf(budget, ids).Keys !! s2.roots.Keys, DuplicateKey(Roots));
    Ok(s2.(roots := s2.roots + RootsOf(budget, ids)))
  }

  /** The roots row of each slot names the slot's id, and all four rows
      belong to the budget. */
  lemma RootsOfSlot(budget: BudgetId, ids: RootIds, d: Domain, l: Layer)
    ensures RootKey(budget, d, l) in RootsOf(budget, ids)
    ensures RootsOf(budget, ids)[RootKey(budget, d, l)] == RootIdOf(ids, d, l)
    ensures forall k :: k in RootsOf(budget, ids) ==> k.budget == budget
  {
    match (d, l)
    case (Internal, Location) =>
    case (Internal, Purpose) =>
    case (External, Location) =>
    case (External, Purpose) =>
  }

  /** Fresh root ids name four different nodes. */
  lemma RootIdOfInjective(nodes: NodeTable, ids: RootIds, d: Domain, l: Layer, d': Domain, l': Layer)
    requires FreshRootIds(nodes, ids)
    requires RootIdOf(ids, d, l) == RootIdOf(ids, d', l')
    ensures d == d' && l == l'
  {
    match (d, l)
    case (Internal, Location) =>
    case (Internal, Purpose) =>
    case (External, Location) =>
    case (External, Purpose) =>
  }

  /** The label `AddRootRows` gives node `n`, when `n` is one of the four ids. */
  function NewLabel(ids: RootIds, base: nat, n: NodeId): nat {
    if n == ids.internalLocation then base + 1
    else if n == ids.internalPurpose then base + 2
    else if n == ids.externalLocation then base + 3
    else base + 4
  }

  /** Each slot's id holds the root row its call wrote, with the slot's name
      and the label its call drew. */
  lemma AddRootRowsAt(nodes: NodeTable, budget: BudgetId, ids: RootIds, base: nat, now: Date, cs: ChangesetId, d: Domain, l: Layer)
    requires FreshRootIds(nodes, ids)
    ensures var r := AddRootRows(nodes, budget, ids, base, now, cs);
            && RootIdOf(ids, d, l) in r
            && r[RootIdOf(ids, d, l)] == RootRow(budget, base + Slot(d, l) + 1, RootName(d, l), now, cs)
  {
    match (d, l)
    case (Internal, Location) =>
    case (Internal, Purpose) =>
    case (External, Location) =>
    case (External, Purpose) =>
  }

  /** The rows added are root rows of the budget whose paths end in their
      labels; each takes a different label from `base + 1` to `base + 4`;
      every other node is as before. */
  lemma AddRootRowsNew(nodes: NodeTable, budget: BudgetId, ids: RootIds, base: nat, now: Date, cs: ChangesetId)
    requires FreshRootIds(nodes, ids)
    ensures var r := AddRootRows(nodes, budget, ids, base, now, cs);
            forall n :: n in r && n !in nodes ==>
              && IsRootRow(r[n], budget)
              && ChainValid(r[n].chain)
              && LabelOf(r[n].fixed.path) == Text(r[n].fixed.nodeLabel)
              && r[n].fixed.nodeLabel == NewLabel(ids, base, n)
              && base < r[n].fixed.nodeLabel <= base + 4
              && IsRootId(ids, n)
    ensures var r := AddRootRows(nodes, budget, ids, base, now, cs);
            forall n :: n in nodes ==> n in r && r[n] == nodes[n]
  {
    var r := AddRootRows(nodes, budget, ids, base, now, cs);
    forall n | n in r && n !in nodes
      ensures && IsRootRow(r[n], budget)
              && ChainValid(r[n].chain)
              && LabelOf(r[n].fixed.path) == Text(r[n].fixed.nodeLabel)
              && r[n].fixed.nodeLabel == NewLabel(ids, base, n)
              && base < r[n].fixed.nodeLabel <= base + 4
              && IsRootId(ids, n)
    {
      AddRootRowsNewAt(nodes, budget, ids, base, now, cs, n);
    }
  }

  lemma AddRootRowsNewAt(nodes: NodeTable, budget: BudgetId, ids: RootIds, base: nat, now: Date, cs: ChangesetId, n: NodeId)
    requires FreshRootIds(nodes, ids)
    requires n in AddRootRows(nodes, budget, ids, base, now, cs) && n !in nodes
    ensures var r := AddRootRows(nodes, budget, ids, base, now, cs);
            && IsRootRow(r[n], budget)
            && ChainValid(r[n].chain)
            && LabelOf(r[n].fixed.path) == Text(r[n].fixed.nodeLabel)
            && r[n].fixed.nodeLabel == NewLabel(ids, base, n)
            && base < r[n].fixed.nodeLabel <= base + 4
            && IsRootId(ids, n)
  {
    if n == ids.internalLocation {
      RootRowIsRoot(budget, base + 1, RootName(Internal, Location), now, cs);
    } else if n == ids.internalPurpose {
      RootRowIsRoot(budget, base + 2, RootName(Internal, Purpose), now, cs);
    } else if n == ids.externalLocation {
      RootRowIsRoot(budget, base + 3, RootName(External, Location), now, cs);
    } else {
      RootRowIsRoot(budget, base + 4, RootName(External, Purpose), now, cs);
    }
  }

  /** One of the four ids drawn for the roots. */
  predicate IsRootId(ids: RootIds, n: NodeId) {
    n == ids.internalLocation || n == ids.internalPurpose || n == ids.externalLocation || n == ids.externalPurpose
  }

  /** The four new labels are pairwise different. */
  lemma NewLabelsDistinct(nodes: NodeTable, ids: RootIds, base: nat, a: NodeId, b: NodeId)
    requires FreshRootIds(nodes, ids)
    requires IsRootId(ids, a) && IsRootId(ids, b) && a != b
    ensures NewLabel(ids, base, a) != NewLabel(ids, base, b)
  {
  }

  /** Adding the root rows only adds history stamped with `cs`. */
  lemma AddRootRowsExtends(nodes: NodeTable, budget: BudgetId, ids: RootIds, base: nat, now: Date, cs: ChangesetId)
    requires FreshRootIds(nodes, ids)
    ensures Extends(nodes, AddRootRows(nodes, budget, ids, base, now, cs), cs)
  {
    var r := AddRootRows(nodes, budget, ids, base, now, cs);
    AddRootRowsNew(nodes, budget, ids, base, now, cs);
    forall k | k in r && k !in nodes
      ensures forall i :: 0 <= i < |r[k].chain| ==> r[k].chain[i].changeset == cs
    {
    }
  }

  /** A new budget has a roots row for each (domain, layer) pair, naming the
      slot's id; each such node did not exist before and is now an untouched
      root node of the budget with its slot's name and the label its call
      drew. */
  lemma CreateBudgetMakesFourRoots(s: State, budget: BudgetId, user: UserId, name: string, ids: RootIds, now: Date)
    requires CreateBudget(s, budget, user, name, ids, now).Ok?
    ensures var s' := CreateBudget(s, budget, user, name, ids, now).value;
            forall d, l :: && RootKey(budget, d, l) in s'.roots
                           && s'.roots[RootKey(budget, d, l)] == RootIdOf(ids, d, l)
                           && RootIdOf(ids, d, l) !in s.nodes
                           && RootIdOf(ids, d, l) in s'.nodes
                           && IsRootRow(s'.nodes[RootIdOf(ids, d, l)], budget)
                           && s'.nodes[RootIdOf(ids, d, l)].fixed.nodeLabel == s.lastLabel + Slot(d, l) + 1
                           && s'.nodes[RootIdOf(ids, d, l)].chain[0].content.name == RootName(d, l)
  {
    forall d, l
      ensures var s' := CreateBudget(s, budget, user, name, ids, now).value;
              && RootKey(budget, d, l) in s'.roots
              && s'.roots[RootKey(budget, d, l)] == RootIdOf(ids, d, l)
              && RootIdOf(ids, d, l) !in s.nodes
              && RootIdOf(ids, d, l) in s'.nodes
              && IsRootRow(s'.nodes[RootIdOf(ids, d, l)], budget)
              && s'.nodes[RootIdOf(ids, d, l)].fixed.nodeLabel == s.lastLabel + Slot(d, l) + 1
              && s'.nodes[RootIdOf(ids, d, l)].chain[0].content.name == RootName(d, l)
    {
      CreateBudgetRootAt(s, budget, user, name, ids, now, d, l);
    }
  }

  /** The roots row of one slot after `createBudget`. */
  lemma CreateBudgetRootAt(s: State, budget: BudgetId, user: UserId, name: string, ids: RootIds, now: Date, d: Domain, l: Layer)
    requires CreateBudget(s, budget, user, name, ids, now).Ok?
    ensures var s' := CreateBudget(s, budget, user, name, ids, now).value;
            && RootKey(budget, d, l) in s'.roots
            && s'.roots[RootKey(budget, d, l)] == RootIdOf(ids, d, l)
            && RootIdOf(ids, d, l) !in s.nodes
            && RootIdOf(ids, d, l) in s'.nodes
            && s'.nodes[RootIdOf(ids, d, l)] == RootRow(budget, s.lastLabel + Slot(d, l) + 1, RootName(d, l), now, NextBudgetChangeset(s))
            && IsRootRow(s'.nodes[RootIdOf(ids, d, l)], budget)
  {
    var cs := NextBudgetChangeset(s);
    RootsOfSlot(budget, ids, d, l);
    AddRootRowsAt(s.nodes, budget, ids, s.lastLabel, now, cs, d, l);
    RootRowIsRoot(budget, s.lastLabel + Slot(d, l) + 1, RootName(d, l), now, cs);
    match (d, l)
    case (Internal, Location) =>
    case (Internal, Purpose) =>
    case (External, Location) =>
    case (External, Purpose) =>
  }

  /** The new budget has no roots rows besides its four, and they name four
      different nodes. */
  lemma CreateBudgetHasOnlyFourRoots(s: State, budget: BudgetId, user: UserId, name: string, ids: RootIds, now: Date)
    requires CreateBudget(s, budget, user, name, ids, now).Ok?
    ensures var s' := CreateBudget(s, budget, user, name, ids, now).value;
            forall k :: k in s'.roots && k.budget == budget ==> k in RootsOf(budget, ids)
    ensures forall d, l, d', l' :: RootIdOf(ids, d, l) == RootIdOf(ids, d', l') ==> d == d' && l == l'
  {
    var s' := CreateBudget(s, budget, user, name, ids, now).value;
    forall k | k in s'.roots && k.budget == budget
      ensures k in RootsOf(budget, ids)
    {
      assert k == RootKey(budget, k.domain, k.layer);
      RootsOfSlot(budget, ids, k.domain, k.layer);
    }
    assert FreshRootIds(s.nodes, ids);
    forall d, l, d', l' | RootIdOf(ids, d, l) == RootIdOf(ids, d', l')
      ensures d == d' && l == l'
    {
      RootIdOfInjective(s.nodes, ids, d, l, d', l');
    }
  }

  /** The creator of a budget holds all four rights on it. */
  lemma CreatorHoldsEveryRight(s: State, budget: BudgetId, user: UserId, name: string, ids: RootIds, now: Date)
    requires CreateBudget(s, budget, user, name, ids, now).Ok?
    ensures var s' := CreateBudget(s, budget, user, name, ids, now).value;
            && Holds(s', user, budget, Read) && Holds(s', user, budget, Write)
            && Holds(s', user, budget, Share) && Holds(s', user, budget, Right.Delete)
  {
  }

  //// Update and delete

  /** `updateBudget`: write access, the budget lock, an UpdateBudget
      changeset, then version `prev + 1` with the new name. */
  function UpdateBudget(s: State, budget: BudgetId, user: UserId, name: string): (r: Result<State, Error>)
    ensures r.Ok? <==> Holds(s, user, budget, Write) && budget in s.budgets
    ensures r.Err? ==> r.error == (if !Holds(s, user, budget, Write) then PermissionDenied(user, budget, Write)
                                   else NotFound(Budgets))
    ensures r.Ok? ==>
      var cs := NextBudgetChangeset(s);
      && r.value.budgetChangesets == s.budgetChangesets + [BudgetChangeset(cs, user, budget, BudgetHint.UpdateBudget)]
      && r.value.budgets.Keys == s.budgets.Keys
      && (forall b :: b in s.budgets && b != budget ==> r.value.budgets[b] == s.budgets[b])
      && (ChainValid(s.budgets[budget].chain) ==>
            && AppendedTo(s.budgets[budget].chain, r.value.budgets[budget].chain)
            && CurrentIn(r.value.budgets, budget)
               == Some(Version(Last(s.budgets[budget].chain).number + 1, BudgetContent(name), false, true, cs)))
      && r.value == s.(budgets := r.value.budgets, budgetChangesets := r.value.budgetChangesets)
  {
    var permitted := AssertUserCanWriteToBudget(s, user, budget);
    :- permitted;
    :- Lock(s.budgets, budget, Budgets);
    var (s1, cs) := CreateBudgetChangeset(s, user, budget, BudgetHint.UpdateBudget);
    Ok(s1.(budgets := UpdateIn(s1.budgets, budget, BudgetContent(name), cs)))
  }

  /** `deleteBudget`: the delete right (not write), the budget lock, a
      DeleteBudget changeset, then version `prev + 1` carrying the name
      forward, flagged deleted. */
  function DeleteBudget(s: State, budget: BudgetId, user: UserId): (r: Result<State, Error>)
    ensures r.Ok? <==> Holds(s, user, budget, Right.Delete) && budget in s.budgets
    ensures r.Err? ==> r.error == (if !Holds(s, user, budget, Right.Delete) then PermissionDenied(user, budget, Right.Delete)
                                   else NotFound(Budgets))
    ensures r.Ok? ==>
      var cs := NextBudgetChangeset(s);
      && r.value.budgetChangesets == s.budgetChangesets + [BudgetChangeset(cs, user, budget, BudgetHint.DeleteBudget)]
      && r.value.budgets.Keys == s.budgets.Keys
      && (forall b :: b in s.budgets && b != budget ==> r.value.budgets[b] == s.budgets[b])
      && (ChainValid(s.budgets[budget].chain) ==>
            var prev := Last(s.budgets[budget].chain);
            && AppendedTo(s.budgets[budget].chain, r.value.budgets[budget].chain)
            && MostRecent(r.value.budgets[budget].chain) == Some(Version(prev.number + 1, prev.content, true, true, cs))
            && CurrentIn(r.value.budgets, budget) == None)
      && r.value == s.(budgets := r.value.budgets, budgetChangesets := r.value.budgetChangesets)
  {
    var permitted := AssertUserCanDeleteBudget(s, user, budget);
    :- permitted;
    :- Lock(s.budgets, budget, Budgets);
    var (s1, cs) := CreateBudgetChangeset(s, user, budget, BudgetHint.DeleteBudget);
    Ok(s1.(budgets := DeleteIn(s1.budgets, budget, cs)))
  }

  /** Write access alone does not let a user delete a budget. */
  lemma WriteDoesNotGrantDelete(s: State, budget: BudgetId, user: UserId)
    requires (user, budget) in s.permissions && s.permissions[(user, budget)] == Permission(true, true, true, false)
    ensures DeleteBudget(s, budget, user) == Err(PermissionDenied(user, budget, Right.Delete))
  {
  }

  //// Reads

  /** `getBudgetById`: read access, then the budget's current row or null. */
  function GetBudgetById(s: State, user: UserId, budget: BudgetId): (r: Result<Option<BudgetEntity>, Error>)
    ensures r.Ok? <==> Holds(s, user, budget, Read)
    ensures r.Err? ==> r.error == PermissionDenied(user, budget, Read)
    ensures r.Ok? ==> (r.value.None? <==> CurrentIn(s.budgets, budget).None?)
    ensures r.Ok? && r.value.Some? ==>
      && r.value.value.budget == budget
      && r.value.value.version == CurrentIn(s.budgets, budget).value
      && !r.value.value.version.isDeleted
  {
    var permitted := AssertUserCanReadBudget(s, user, budget);
    :- permitted;
    Ok(match CurrentIn(s.budgets, budget)
       case None => None
       case Some(v) => Some(BudgetEntity(budget, v)))
  }

  /** `getReadableBudgetsByUser`: the current budgets on whose permission row
      for `user` the read flag is set. No permission check is made first. */
  function GetReadableBudgetsByUser(s: State, user: UserId): (r: set<BudgetEntity>)
    ensures forall e :: e in r ==> Holds(s, user, e.budget, Read) && CurrentIn(s.budgets, e.budget) == Some(e.version)
    ensures forall b :: Holds(s, user, b, Read) && CurrentIn(s.budgets, b).Some? ==>
              BudgetEntity(b, CurrentIn(s.budgets, b).value) in r
  {
    set b | b in s.budgets && Holds(s, user, b, Read) && CurrentIn(s.budgets, b).Some?
          :: BudgetEntity(b, CurrentIn(s.budgets, b).value)
  }

  /** A new budget reads back with its name at version 0, for its creator. */
  lemma ReadAfterCreateBudget(s: State, budget: BudgetId, user: UserId, name: string, ids: RootIds, now: Date)
    requires CreateBudget(s, budget, user, name, ids, now).Ok?
    ensures var s' := CreateBudget(s, budget, user, name, ids, now).value;
            GetBudgetById(s', user, budget)
            == Ok(Some(BudgetEntity(budget, Version(0, BudgetContent(name), false, true, NextBudgetChangeset(s)))))
  {
  }

  /** After a delete, the budget reads back as null, and it leaves the list
      of readable budgets. */
  lemma DeletedBudgetReadsNull(s: State, budget: BudgetId, user: UserId, reader: UserId)
    requires ChainsValid(s)
    requires DeleteBudget(s, budget, user).Ok?
    requires Holds(s, reader, budget, Read)
    ensures var s' := DeleteBudget(s, budget, user).value;
            && GetBudgetById(s', reader, budget) == Ok(None)
            && forall e :: e in GetReadableBudgetsByUser(s', reader) ==> e.budget != budget
  {
  }

  //// Invariant preservation

  /** Adding the four root rows keeps labels drawn from the sequence and
      distinct, paths ending in labels, and every chain valid. */
  lemma AddRootRowsKeepsNodes(s: State, s': State, budget: BudgetId, ids: RootIds, now: Date, cs: ChangesetId)
    requires LabelsFresh(s) && PathsEndInLabels(s) && TableValid(s.nodes)
    requires FreshRootIds(s.nodes, ids)
    requires s'.nodes == AddRootRows(s.nodes, budget, ids, s.lastLabel, now, cs)
    requires s'.lastLabel == s.lastLabel + 4
    ensures LabelsFresh(s') && PathsEndInLabels(s') && TableValid(s'.nodes)
  {
    AddRootRowsNew(s.nodes, budget, ids, s.lastLabel, now, cs);
    forall a, b | a in s'.nodes && b in s'.nodes && a != b && a !in s.nodes && b !in s.nodes
      ensures s'.nodes[a].fixed.nodeLabel != s'.nodes[b].fixed.nodeLabel
    {
      NewLabelsDistinct(s.nodes, ids, s.lastLabel, a, b);
    }
  }

  /** After adding a budget with its four roots rows, every roots row still
      names an untouched root node of its budget. */
  lemma AddBudgetKeepsRootRows(s: State, s': State, budget: BudgetId, ids: RootIds, now: Date, cs: ChangesetId)
    requires RootsValid(s)
    requires FreshRootIds(s.nodes, ids)
    requires s'.budgets.Keys == s.budgets.Keys + {budget}
    requires s'.nodes == AddRootRows(s.nodes, budget, ids, s.lastLabel, now, cs)
    requires s'.roots == s.roots + RootsOf(budget, ids)
    ensures forall k :: k in s'.roots ==>
              && k.budget in s'.budgets
              && s'.roots[k] in s'.nodes
              && IsRootRow(s'.nodes[s'.roots[k]], k.budget)
  {
    forall k | k in s'.roots
      ensures k.budget in s'.budgets && s'.roots[k] in s'.nodes && IsRootRow(s'.nodes[s'.roots[k]], k.budget)
    {
      RootsOfSlot(budget, ids, k.domain, k.layer);
      if k in RootsOf(budget, ids) {
        AddedRootRow(s, s', budget, ids, now, cs, k);
      } else {
        AddRootRowsNew(s.nodes, budget, ids, s.lastLabel, now, cs);
      }
    }
  }

  lemma AddedRootRow(s: State, s': State, budget: BudgetId, ids: RootIds, now: Date, cs: ChangesetId, k: RootKey)
    requires FreshRootIds(s.nodes, ids)
    requires s'.nodes == AddRootRows(s.nodes, budget, ids, s.lastLabel, now, cs)
    requires s'.roots == s.roots + RootsOf(budget, ids)
    requires k in RootsOf(budget, ids)
    ensures k.budget == budget && s'.roots[k] in s'.nodes && IsRootRow(s'.nodes[s'.roots[k]], budget)
  {
    RootsOfSlot(budget, ids, k.domain, k.layer);
    assert k == RootKey(budget, k.domain, k.layer);
    AddRootRowsAt(s.nodes, budget, ids, s.lastLabel, now, cs, k.domain, k.layer);
    RootRowIsRoot(budget, s.lastLabel + Slot(k.domain, k.layer) + 1, RootName(k.domain, k.layer), now, cs);
  }

  /** Adding a budget with its four roots rows keeps the roots invariant. */
  lemma AddBudgetKeepsRoots(s: State, s': State, budget: BudgetId, ids: RootIds, now: Date, cs: ChangesetId)
    requires RootsValid(s)
    requires FreshRootIds(s.nodes, ids)
    requires s'.budgets.Keys == s.budgets.Keys + {budget}
    requires s'.nodes == AddRootRows(s.nodes, budget, ids, s.lastLabel, now, cs)
    requires s'.roots == s.roots + RootsOf(budget, ids)
    ensures RootsValid(s')
  {
    AddBudgetKeepsRootRows(s, s', budget, ids, now, cs);
    AddBudgetKeepsRootSlots(s, s', budget, ids);
  }

  /** After adding a budget with its four roots rows, every budget has a
      roots row for each (domain, layer) pair. */
  lemma AddBudgetKeepsRootSlots(s: State, s': State, budget: BudgetId, ids: RootIds)
    requires RootsValid(s)
    requires s'.budgets.Keys == s.budgets.Keys + {budget}
    requires s'.roots == s.roots + RootsOf(budget, ids)
    ensures forall b, d, l :: b in s'.budgets ==> RootKey(b, d, l) in s'.roots
  {
    forall b, d, l | b in s'.budgets
      ensures RootKey(b, d, l) in s'.roots
    {
      if b != budget {
        assert RootKey(b, d, l) in s.roots;
      } else {
        RootsOfSlot(budget, ids, d, l);
      }
    }
  }

  lemma CreateBudgetKeepsLabels(s: State, budget: BudgetId, user: UserId, name: string, ids: RootIds, now: Date)
    requires LabelsFresh(s) && PathsEndInLabels(s) && TableValid(s.nodes)
    requires CreateBudget(s, budget, user, name, ids, now).Ok?
    ensures LabelsFresh(CreateBudget(s, budget, user, name, ids, now).value)
    ensures PathsEndInLabels(CreateBudget(s, budget, user, name, ids, now).value)
  {
    var s' := CreateBudget(s, budget, user, name, ids, now).value;
    AddRootRowsKeepsNodes(s, s', budget, ids, now, NextBudgetChangeset(s));
  }

  lemma CreateBudgetKeepsProvenance(s: State, budget: BudgetId, user: UserId, name: string, ids: RootIds, now: Date)
    requires Provenance(s)
    requires CreateBudget(s, budget, user, name, ids, now).Ok?
    ensures Provenance(CreateBudget(s, budget, user, name, ids, now).value)
  {
    var s' := CreateBudget(s, budget, user, name, ids, now).value;
    var cs := NextBudgetChangeset(s);
    AddRootRowsExtends(s.nodes, budget, ids, s.lastLabel, now, cs);
    InsertExtends(s.budgets, budget, (), BudgetContent(name), 0, cs, Budgets);
    ExtendsReflexive(s.transactions, cs);
    ExtendsReflexive(s.postings, cs);
    StampedFromExtends(s.nodes, s'.nodes, cs, BudgetChangesetIds(s), BudgetChangesetIds(s'));
    StampedFromExtends(s.budgets, s'.budgets, cs, BudgetChangesetIds(s), BudgetChangesetIds(s'));
    StampedFromExtends(s.transactions, s'.transactions, cs, BudgetChangesetIds(s), BudgetChangesetIds(s'));
    StampedFromExtends(s.postings, s'.postings, cs, BudgetChangesetIds(s), BudgetChangesetIds(s'));
  }

  lemma CreateBudgetKeepsChains(s: State, budget: BudgetId, user: UserId, name: string, ids: RootIds, now: Date)
    requires ChainsValid(s) && LabelsFresh(s) && PathsEndInLabels(s)
    requires CreateBudget(s, budget, user, name, ids, now).Ok?
    ensures ChainsValid(CreateBudget(s, budget, user, name, ids, now).value)
  {
    var s' := CreateBudget(s, budget, user, name, ids, now).value;
    var cs := NextBudgetChangeset(s);
    AddRootRowsKeepsNodes(s, s', budget, ids, now, cs);
    InsertKeepsTableValid(s.budgets, budget, (), BudgetContent(name), 0, cs, Budgets);
  }

  lemma CreateBudgetKeepsRoots(s: State, budget: BudgetId, user: UserId, name: string, ids: RootIds, now: Date)
    requires RootsValid(s)
    requires CreateBudget(s, budget, user, name, ids, now).Ok?
    ensures RootsValid(CreateBudget(s, budget, user, name, ids, now).value)
  {
    var s' := CreateBudget(s, budget, user, name, ids, now).value;
    AddBudgetKeepsRoots(s, s', budget, ids, now, NextBudgetChangeset(s));
  }

  lemma CreateBudgetPreservesValid(s: State, budget: BudgetId, user: UserId, name: string, ids: RootIds, now: Date)
    requires Valid(s)
    requires CreateBudget(s, budget, user, name, ids, now).Ok?
    ensures Valid(CreateBudget(s, budget, user, name, ids, now).value)
  {
    CreateBudgetKeepsChains(s, budget, user, name, ids, now);
    CreateBudgetKeepsRoots(s, budget, user, name, ids, now);
    CreateBudgetKeepsProvenance(s, budget, user, name, ids, now);
    CreateBudgetKeepsLabels(s, budget, user, name, ids, now);
  }

  lemma UpdateBudgetPreservesValid(s: State, budget: BudgetId, user: UserId, name: string)
    requires Valid(s)
    requires UpdateBudget(s, budget, user, name).Ok?
    ensures Valid(UpdateBudget(s, budget, user, name).value)
  {
    var s' := UpdateBudget(s, budget, user, name).value;
    var cs := NextBudgetChangeset(s);
    UpdateInExtends(s.budgets, budget, BudgetContent(name), cs);
    StampedFromExtends(s.nodes, s'.nodes, cs, BudgetChangesetIds(s), BudgetChangesetIds(s'));
    StampedFromExtends(s.budgets, s'.budgets, cs, BudgetChangesetIds(s), BudgetChangesetIds(s'));
    StampedFromExtends(s.transactions, s'.transactions, cs, BudgetChangesetIds(s), BudgetChangesetIds(s'));
    StampedFromExtends(s.postings, s'.postings, cs, BudgetChangesetIds(s), BudgetChangesetIds(s'));
  }

  lemma DeleteBudgetPreservesValid(s: State, budget: BudgetId, user: UserId)
    requires Valid(s)
    requires DeleteBudget(s, budget, user).Ok?
    ensures Valid(DeleteBudget(s, budget, user).value)
  {
    var s' := DeleteBudget(s, budget, user).value;
    var cs := NextBudgetChangeset(s);
    DeleteInExtends(s.budgets, budget, cs);
    StampedFromExtends(s.nodes, s'.nodes, cs, BudgetChangesetIds(s), BudgetChangesetIds(s'));
    StampedFromExtends(s.budgets, s'.budgets, cs, BudgetChangesetIds(s), BudgetChangesetIds(s'));
    StampedFromExtends(s.transactions, s'.transactions, cs, BudgetChangesetIds(s), BudgetChangesetIds(s'));
    StampedFromExtends(s.postings, s'.postings, cs, BudgetChangesetIds(s), BudgetChangesetIds(s'));
  }
}

=== FILE: dbclient.dfy ===
/** The query layer of `DbClient`: the text a tagged template turns into,
    literally or with `$n` placeholders, the description logged when a
    parameterised query fails, and the transaction wrapper that commits a
    callback's writes or none of them. Values are taken in their text form. */
module DbClient {
  import opened Wrappers
  import opened Decimal
  import opened Failures
  import opened Store

  //// Query text

  /** A tagged template with its holes filled: `t0 v1 t1 ... vk tk`. A
      template always has one more string part than holes. */
  function Interleave(ts: seq<string>, vs: seq<string>): string
    requires |ts| == |vs| + 1
    decreases |vs|
  {
    if |vs| == 0 then ts[0] else ts[0] + vs[0] + Interleave(ts[1..], vs[1..])
  }

  /** Filling one more hole appends its value and the string after it. */
  lemma {:induction false} InterleaveSnoc(ts: seq<string>, vs: seq<string>, v: string, t: string)
    requires |ts| == |vs| + 1
    ensures Interleave(ts + [t], vs + [v]) == Interleave(ts, vs) + v + t
    decreases |vs|
  {
    if |vs| > 0 {
      assert (ts + [t])[1..] == ts[1..] + [t];
      assert (vs + [v])[1..] == vs[1..] + [v];
      InterleaveSnoc(ts[1..], vs[1..], v, t);
    }
  }

  /** `literalQuery`: the values are spliced into the text by a left fold
      that starts from the first string part. */
  method LiteralQueryText(ts: seq<string>, vs: seq<string>) returns (text: string)
    requires |ts| == |vs| + 1
    ensures text == Interleave(ts, vs)
  {
    text := ts[0];
    var i := 0;
    while i < |vs|
      invariant 0 <= i <= |vs|
      invariant text == Interleave(ts[..i + 1], vs[..i])
    {
      InterleaveSnoc(ts[..i + 1], vs[..i], vs[i], ts[i + 1]);
      assert ts[..i + 2] == ts[..i + 1] + [ts[i + 1]];
      assert vs[..i + 1] == vs[..i] + [vs[i]];
      text := text + vs[i] + ts[i + 1];
      i := i + 1;
    }
    assert ts[..|vs| + 1] == ts && vs[..|vs|] == vs;
  }

  /** The placeholder of the `n`-th bound value, counting from 1. */
  function Placeholder(n: nat): string {
    "$" + Text(n)
  }

  /** `$1`, `$2`, ..., `$k`. */
  function Placeholders(k: nat): (r: seq<string>)
    ensures |r| == k
  {
    seq(k, i requires 0 <= i < k => Placeholder(i + 1))
  }

  /** Placeholders are numbered from 1 in order, and no two are alike, so
      each names exactly one value. */
  lemma PlaceholdersNumbered(k: nat, i: nat, j: nat)
    requires i < k && j < k
    ensures Placeholders(k)[i] == "$" + Text(i + 1)
    ensures i != j ==> Placeholders(k)[i] != Placeholders(k)[j]
  {
    if Placeholders(k)[i] == Placeholders(k)[j] {
      assert Text(i + 1) == Placeholders(k)[i][1..];
      assert Text(j + 1) == Placeholders(k)[j][1..];
      TextInjective(i + 1, j + 1);
    }
  }

  /** What is sent to the server: the text and, separately, the values. */
  datatype Query = Query(text: string, values: seq<string>)

  /** `parameterisedQuery`: the string parts joined by `$1 .. $k`; the values
      travel beside the text and never become part of it. */
  method ParameterisedQuery(ts: seq<string>, vs: seq<string>) returns (q: Query)
    requires |ts| == |vs| + 1
    ensures q.text == Interleave(ts, Placeholders(|vs|))
    ensures q.values == vs
  {
    var text := ts[0];
    var i := 1;
    while i < |ts|
      invariant 1 <= i <= |ts|
      invariant text == Interleave(ts[..i], Placeholders(i - 1))
    {
      InterleaveSnoc(ts[..i], Placeholders(i - 1), Placeholder(i), ts[i]);
      assert ts[..i + 1] == ts[..i] + [ts[i]];
      assert Placeholders(i) == Placeholders(i - 1) + [Placeholder(i)];
      text := text + (Placeholder(i) + ts[i]);
      i := i + 1;
    }
    assert ts[..|ts|] == ts;
    q := Query(text, vs);
  }

  //// Failure description

  function Spaces(n: nat): (r: string)
    ensures |r| == n
    ensures forall i :: 0 <= i < n ==> r[i] == ' '
  {
    seq(n, i => ' ')
  }

  /** `_.padEnd(s, width)`: `s` followed by spaces up to `width`. */
  function PadEnd(s: string, width: nat): (r: string)
    ensures |r| == if |s| < width then width else |s|
    ensures r[..|s|] == s
    ensures forall i :: |s| <= i < |r| ==> r[i] == ' '
  {
    if |s| < width then s + Spaces(width - |s|) else s
  }

  /** One line of the value listing: a tab, `$n:` padded to five columns,
      the value, and a newline. */
  function ValueLine(index: nat, value: string): string {
    "\t" + PadEnd(Placeholder(index + 1) + ":", 5) + value + "\n"
  }

  /** The value lines joined with no separator. */
  function ValueLines(vs: seq<string>, from: nat): string
    requires from <= |vs|
    decreases |vs| - from
  {
    if from == |vs| then "" else ValueLine(from, vs[from]) + ValueLines(vs, from + 1)
  }

  /** The description logged before the original error is rethrown. */
  function FailureDescription(text: string, vs: seq<string>): (r: string)
    ensures var lines := ValueLines(vs, 0);
            && |r| == |text| + |lines| + 39
            && r[..24] == "Failed to execute query:"
            && r[24..24 + |text|] == text
            && r[24 + |text|..38 + |text|] == "\nwith values:\n"
            && r[38 + |text|..38 + |text| + |lines|] == lines
            && r[|r| - 1] == '\n'
  {
    "Failed to execute query:" + text + "\nwith values:\n" + ValueLines(vs, 0) + "\n"
  }

  function Pow10(k: nat): nat {
    if k == 0 then 1 else 10 * Pow10(k - 1)
  }

  /** A number below `10^k` takes at most `k` digits. */
  lemma {:induction false} TextWidth(n: nat, k: nat)
    requires k >= 1 && n < Pow10(k)
    ensures |Text(n)| <= k
    decreases n
  {
    if n >= 10 {
      TextWidth(n / 10, k - 1);
    }
  }

  /** For the first 999 values the `$n:` column is exactly five wide, so
      the values line up: a tab, the column, the value, and a newline. */
  lemma ValueLineShape(index: nat, value: string)
    requires index + 1 < 1000
    ensures var line := ValueLine(index, value);
            && |line| == 7 + |value|
            && line[0] == '\t'
            && line[1..3 + |Text(index + 1)|] == Placeholder(index + 1) + ":"
            && line[6..6 + |value|] == value
            && line[|line| - 1] == '\n'
  {
    TextWidth(index + 1, 3);
    var field := PadEnd(Placeholder(index + 1) + ":", 5);
    var line := ValueLine(index, value);
    assert line == "\t" + field + value + "\n";
    assert |field| == 5;
    assert line[1..6] == field;
    assert line[1..3 + |Text(index + 1)|] == field[..2 + |Text(index + 1)|];
  }

  //// Transactions

  /** One statement a callback issues against the store. */
  type Statement = State -> Result<State, Error>

  /** The callback's statements in order; the first failure ends the callback. */
  function RunAll(s: State, body: seq<Statement>): Result<State, Error>
    decreases |body|
  {
    if |body| == 0 then Ok(s)
    else
      var s1 :- body[0](s);
      RunAll(s1, body[1..])
  }

  /** `withDatabaseTransaction`: BEGIN, the callback, then COMMIT; on any
      failure ROLLBACK and rethrow. The result is the committed state and
      the error rethrown, if any. */
  function WithDatabaseTransaction(s: State, body: seq<Statement>): (r: (State, Option<Error>))
    ensures r.1.None? <==> RunAll(s, body).Ok?
    ensures r.1.None? ==> RunAll(s, body) == Ok(r.0)
    ensures r.1.Some? ==> r.0 == s && RunAll(s, body) == Err(r.1.value)
  {
    match RunAll(s, body)
    case Ok(s') => (s', None)
    case Err(e) => (s, Some(e))
  }

  /** Running one more statement continues from where the others left off. */
  lemma {:induction false} RunAllSnoc(s: State, body: seq<Statement>, st: Statement)
    ensures RunAll(s, body + [st]) == match RunAll(s, body)
                                      case Ok(s1) => st(s1)
                                      case Err(e) => Err(e)
    decreases |body|
  {
    if |body| > 0 {
      assert (body + [st])[1..] == body[1..] + [st];
      match body[0](s)
      case Ok(s1) => RunAllSnoc(s1, body[1..], st);
      case Err(_) =>
    }
  }

  /** A failed callback failed at a definite statement: every statement
      before it succeeded, and its error is the one rethrown. */
  lemma {:induction false} FirstFailure(s: State, body: seq<Statement>)
    requires RunAll(s, body).Err?
    ensures exists i :: 0 <= i < |body| && RunAll(s, body[..i]).Ok?
                        && body[i](RunAll(s, body[..i]).value) == Err(RunAll(s, body).error)
    decreases |body|
  {
    if body[0](s).Err? {
      assert body[..0] == [];
    } else {
      var s1 := body[0](s).value;
      FirstFailure(s1, body[1..]);
      var j :| 0 <= j < |body[1..]| && RunAll(s1, body[1..][..j]).Ok?
               && body[1..][j](RunAll(s1, body[1..][..j]).value) == Err(RunAll(s1, body[1..]).error);
      assert body[..j + 1][0] == body[0] && body[..j + 1][1..] == body[1..][..j];
      assert RunAll(s, body[..j + 1]) == RunAll(s1, body[1..][..j]);
      assert body[j + 1] == body[1..][j];
    }
  }

  /** All or nothing: the transaction either commits the state after every
      statement, or leaves the state it started from and rethrows the error
      of the first statement that failed, whatever the earlier ones wrote. */
  lemma AllOrNothing(s: State, body: seq<Statement>)
    ensures var (s', e) := WithDatabaseTransaction(s, body);
            || (e.None? && RunAll(s, body) == Ok(s'))
            || (&& s' == s && e.Some?
                && exists i :: 0 <= i < |body| && RunAll(s, body[..i]).Ok?
                               && body[i](RunAll(s, body[..i]).value) == Err(e.value))
  {
    if RunAll(s, body).Err? {
      FirstFailure(s, body);
    }
  }

  /** Appending a statement that fails rolls back everything before it. */
  lemma LateFailureRollsBack(s: State, body: seq<Statement>, st: Statement)
    requires RunAll(s, body).Ok? && st(RunAll(s, body).value).Err?
    ensures WithDatabaseTransaction(s, body + [st]) == (s, Some(st(RunAll(s, body).value).error))
  {
    RunAllSnoc(s, body, st);
  }
}

=== FILE: decimal.dfy ===
/** Decimal text of natural numbers: how PostgreSQL renders a `bigint` such as
    a `node_label_seq` value when it is spliced into a path, and how the
    `$<n>` placeholders of a parameterised query are spelled. */
module Decimal {

  predicate IsDigit(c: char) {
    '0' <= c <= '9'
  }

  function Digit(d: nat): (c: char)
    requires d < 10
    ensures IsDigit(c)
    ensures c as int - '0' as int == d
  {
    ('0' as int + d) as char
  }

  /** The decimal numeral of `n`, most significant digit first, no leading zeros. */
  function Text(n: nat): (r: string)
    ensures |r| > 0
    ensures forall i :: 0 <= i < |r| ==> IsDigit(r[i])
    ensures n >= 10 ==> r[0] != '0'
    decreases n
  {
    if n < 10 then [Digit(n)] else Text(n / 10) + [Digit(n % 10)]
  }

  /** The value denoted by a string of digits. */
  function Value(s: string): nat
    requires forall i :: 0 <= i < |s| ==> IsDigit(s[i])
    decreases |s|
  {
    if |s| == 0 then 0
    else
      assert IsDigit(s[|s| - 1]);
      10 * Value(s[..|s| - 1]) + (s[|s| - 1] as int - '0' as int)
  }

  /** Reading back the numeral gives the number: decimal text is a faithful encoding. */
  lemma {:induction false} ValueOfText(n: nat)
    ensures Value(Text(n)) == n
    decreases n
  {
    if n >= 10 {
      var t := Text(n / 10) + [Digit(n % 10)];
      assert t[..|t| - 1] == Text(n / 10);
      ValueOfText(n / 10);
    }
  }

  /** Distinct numbers have distinct numerals. */
  lemma TextInjective(a: nat, b: nat)
    ensures Text(a) == Text(b) ==> a == b
  {
    ValueOfText(a);
    ValueOfText(b);
  }

  /** No numeral contains the '.' that separates the labels of a node path. */
  lemma TextHasNoDot(n: nat)
    ensures '.' !in Text(n)
  {
  }
}

=== FILE: failures.dfy ===
/** The errors a store operation can end with. Every one of them aborts the
    enclosing database transaction. */
module Failures {
  import opened Ids
  import opened Decimal

  /** The tables whose primary keys the store enforces. */
  datatype TableName = Plans | Users | Budgets | Nodes | Transactions | Postings | Permissions | Roots

  /** The capability a permission check asks for. */
  datatype Right = Read | Write | Share | Delete

  /** Which mutation a root node refused. */
  datatype RootMutation = UpdateRoot | DeleteRoot

  datatype Error =
    /** A permission check failed: there is no row for the pair, or its flag is false. */
    | PermissionDenied(user: UserId, budget: BudgetId, right: Right)
    /** The row lock found no identity row. */
    | NotFound(table: TableName)
    /** `updateNode`/`deleteNode` on a node listed in the roots table. */
    | RootNodeProtected(mutation: RootMutation)
    /** An insert collided with an existing primary key. */
    | DuplicateKey(table: TableName)
    /** `singleRow` saw a row count other than one. */
    | UnexpectedRowCount(count: nat)

  function Verb(r: Right): string {
    match r
    case Read => "read"
    case Write => "write to"
    case Share => "share"
    case Delete => "delete"
  }

  function EntityName(t: TableName): string {
    match t
    case Plans => "plan"
    case Users => "user"
    case Budgets => "budget"
    case Nodes => "node"
    case Transactions => "budget transaction"
    case Postings => "posting"
    case Permissions => "permission"
    case Roots => "root"
  }

  /** The message text the thrown `Error` carries. */
  function Message(e: Error): string {
    match e
    case PermissionDenied(u, b, r) => "User " + u + " cannot " + Verb(r) + " budget " + b
    case NotFound(t) => "Cannot find matching " + EntityName(t)
    case RootNodeProtected(UpdateRoot) => "Cannot update a root node"
    case RootNodeProtected(DeleteRoot) => "Cannot delete a root node"
    case DuplicateKey(t) => "duplicate key in " + EntityName(t) + " table"
    case UnexpectedRowCount(n) => "Expected a single row, but got " + Text(n) + " rows instead"
  }

  /** The texts the lock failures and the root guard throw. */
  lemma LockAndRootTexts()
    ensures Message(NotFound(Users)) == "Cannot find matching user"
    ensures Message(NotFound(Budgets)) == "Cannot find matching budget"
    ensures Message(NotFound(Nodes)) == "Cannot find matching node"
    ensures Message(NotFound(Transactions)) == "Cannot find matching budget transaction"
    ensures Message(RootNodeProtected(UpdateRoot)) == "Cannot update a root node"
    ensures Message(RootNodeProtected(DeleteRoot)) == "Cannot delete a root node"
  {
  }

  /** A failed read or write check names the user, the right and the budget. */
  lemma ReadWriteTexts(u: UserId, b: BudgetId)
    ensures Message(PermissionDenied(u, b, Read)) == "User " + u + " cannot read budget " + b
    ensures Message(PermissionDenied(u, b, Write)) == "User " + u + " cannot write to budget " + b
  {
    Joined(u, b, "read", " cannot read budget ");
    Joined(u, b, "write to", " cannot write to budget ");
  }

  /** A failed share or delete check names the user, the right and the budget. */
  lemma ShareDeleteTexts(u: UserId, b: BudgetId)
    ensures Message(PermissionDenied(u, b, Share)) == "User " + u + " cannot share budget " + b
    ensures Message(PermissionDenied(u, b, Delete)) == "User " + u + " cannot delete budget " + b
  {
    Joined(u, b, "share", " cannot share budget ");
    Joined(u, b, "delete", " cannot delete budget ");
  }

  lemma Joined(u: UserId, b: BudgetId, verb: string, middle: string)
    requires middle == " cannot " + verb + " budget "
    ensures "User " + u + " cannot " + verb + " budget " + b == "User " + u + middle + b
  {
  }
}

=== FILE: hints.dfy ===
/** The closed enumerations the store writes into its rows: the budget
    changeset hint (`BudgetChangesetHint`, the only one whose definition is part
    of this model), the user changeset hint, and the domain and layer that
    classify the four root nodes of a budget. */
module Hints {
  import opened Wrappers

  /** The action half of a budget changeset hint. */
  datatype Action = Create | Update | Delete

  /** The entity half of a budget changeset hint. */
  datatype Subject = BudgetSubject | NodeSubject | TransactionSubject

  /** The nine members of `BudgetChangesetHint`, in declaration order. */
  datatype BudgetHint =
    | CreateBudget | UpdateBudget | DeleteBudget
    | CreateNode | UpdateNode | DeleteNode
    | CreateTransaction | UpdateTransaction | DeleteTransaction

  /** `UserChangesetHint`; its definition is not part of this model, the three
      members are the ones the user operations name. */
  datatype UserHint = CreateUser | UpdateUser | DeleteUser

  /** The two domains and two layers of a root node. */
  datatype Domain = Internal | External
  datatype Layer = Location | Purpose

  const AllBudgetHints: seq<BudgetHint> := [
    CreateBudget, UpdateBudget, DeleteBudget,
    CreateNode, UpdateNode, DeleteNode,
    CreateTransaction, UpdateTransaction, DeleteTransaction
  ]

  function ActionOf(h: BudgetHint): Action {
    match h
    case CreateBudget | CreateNode | CreateTransaction => Create
    case UpdateBudget | UpdateNode | UpdateTransaction => Update
    case DeleteBudget | DeleteNode | DeleteTransaction => Delete
  }

  function SubjectOf(h: BudgetHint): Subject {
    match h
    case CreateBudget | UpdateBudget | DeleteBudget => BudgetSubject
    case CreateNode | UpdateNode | DeleteNode => NodeSubject
    case CreateTransaction | UpdateTransaction | DeleteTransaction => TransactionSubject
  }

  /** The member for an (action, entity) pair. */
  function HintFor(a: Action, e: Subject): (h: BudgetHint)
    ensures ActionOf(h) == a && SubjectOf(h) == e
  {
    match (a, e)
    case (Create, BudgetSubject) => CreateBudget
    case (Update, BudgetSubject) => UpdateBudget
    case (Delete, BudgetSubject) => DeleteBudget
    case (Create, NodeSubject) => CreateNode
    case (Update, NodeSubject) => UpdateNode
    case (Delete, NodeSubject) => DeleteNode
    case (Create, TransactionSubject) => CreateTransaction
    case (Update, TransactionSubject) => UpdateTransaction
    case (Delete, TransactionSubject) => DeleteTransaction
  }

  function ActionText(a: Action): string {
    match a
    case Create => "create"
    case Update => "update"
    case Delete => "delete"
  }

  function SubjectText(e: Subject): string {
    match e
    case BudgetSubject => "budget"
    case NodeSubject => "node"
    case TransactionSubject => "transaction"
  }

  /** The string value each enum member is declared with. */
  function Encode(h: BudgetHint): string
  {
    match h
    case CreateBudget => "create-budget"
    case UpdateBudget => "update-budget"
    case DeleteBudget => "delete-budget"
    case CreateNode => "create-node"
    case UpdateNode => "update-node"
    case DeleteNode => "delete-node"
    case CreateTransaction => "create-transaction"
    case UpdateTransaction => "update-transaction"
    case DeleteTransaction => "delete-transaction"
  }

  /** Maps a stored hint string back to its member. */
  function Decode(s: string): (r: Option<BudgetHint>)
    ensures r.Some? ==> Encode(r.value) == s
  {
    if s == "create-budget" then Some(CreateBudget)
    else if s == "update-budget" then Some(UpdateBudget)
    else if s == "delete-budget" then Some(DeleteBudget)
    else if s == "create-node" then Some(CreateNode)
    else if s == "update-node" then Some(UpdateNode)
    else if s == "delete-node" then Some(DeleteNode)
    else if s == "create-transaction" then Some(CreateTransaction)
    else if s == "update-transaction" then Some(UpdateTransaction)
    else if s == "delete-transaction" then Some(DeleteTransaction)
    else None
  }

  /** The enumeration has exactly nine members, all listed once. */
  lemma NineMembers()
    ensures |AllBudgetHints| == 9
    ensures forall h: BudgetHint :: h in AllBudgetHints
    ensures forall i, j :: 0 <= i < j < |AllBudgetHints| ==> AllBudgetHints[i] != AllBudgetHints[j]
  {
    forall h: BudgetHint
      ensures h in AllBudgetHints
    {
      match h
      case CreateBudget => assert AllBudgetHints[0] == h;
      case UpdateBudget => assert AllBudgetHints[1] == h;
      case DeleteBudget => assert AllBudgetHints[2] == h;
      case CreateNode => assert AllBudgetHints[3] == h;
      case UpdateNode => assert AllBudgetHints[4] == h;
      case DeleteNode => assert AllBudgetHints[5] == h;
      case CreateTransaction => assert AllBudgetHints[6] == h;
      case UpdateTransaction => assert AllBudgetHints[7] == h;
      case DeleteTransaction => assert AllBudgetHints[8] == h;
    }
  }

  /** Each member's string is its action, a hyphen, then its entity. */
  lemma EncodeShape(h: BudgetHint)
    ensures Encode(h) == ActionText(ActionOf(h)) + "-" + SubjectText(SubjectOf(h))
  {
    match h
    case CreateBudget => assert "create" + "-" + "budget" == "create-budget";
    case UpdateBudget => assert "update" + "-" + "budget" == "update-budget";
    case DeleteBudget => assert "delete" + "-" + "budget" == "delete-budget";
    case CreateNode => assert "create" + "-" + "node" == "create-node";
    case UpdateNode => assert "update" + "-" + "node" == "update-node";
    case DeleteNode => assert "delete" + "-" + "node" == "delete-node";
    case CreateTransaction => assert "create" + "-" + "transaction" == "create-transaction";
    case UpdateTransaction => assert "update" + "-" + "transaction" == "update-transaction";
    case DeleteTransaction => assert "delete" + "-" + "transaction" == "delete-transaction";
  }

  /** Each (action, entity) pair has exactly one member. */
  lemma OneMemberPerPair(h: BudgetHint, a: Action, e: Subject)
    ensures ActionOf(h) == a && SubjectOf(h) == e <==> h == HintFor(a, e)
  {
  }

  /** Decoding the encoding gives the member back. */
  lemma DecodeEncode(h: BudgetHint)
    ensures Decode(Encode(h)) == Some(h)
  {
  }

  /** No two members share a string. */
  lemma EncodeInjective(h1: BudgetHint, h2: BudgetHint)
    ensures Encode(h1) == Encode(h2) ==> h1 == h2
  {
    DecodeEncode(h1);
    DecodeEncode(h2);
  }
}

=== FILE: ids.dfy ===
/** Identifiers and opaque values. Entity identifiers are the uuid strings the
    callers supply (the model never generates them); changeset identifiers are
    drawn by the changeset ledger; dates are opaque instants (`NOW()` becomes a
    parameter). */
module Ids {
  type UserId = string
  type PlanId = string
  type BudgetId = string
  type NodeId = string
  type TransactionId = string
  type PostingId = string
  type ChangesetId = nat

  /** An instant as the store keeps it; the core never does date arithmetic. */
  type Date = int
}

=== FILE: nodes.dfy ===
/** The node hierarchy of a budget: root nodes created with the budget,
    child nodes under a current parent, and the guarded update and delete
    that refuse root nodes. Paths are materialized; `parent_id` is never
    written. */
module Nodes {
  import opened Wrappers
  import opened Ids
  import opened Hints
  import opened Decimal
  import opened Failures
  import opened Versioned
  import opened Store
  import opened Utils
  import opened Permissions
  import opened Paths

  /** A row of `current_nodes`: the identity columns and the current version. */
  datatype NodeRow = NodeRow(node: NodeId, fixed: NodeFixed, version: Version<NodeContent>)

  /** `INodeEntity`, the shape a read returns: path and label are dropped. */
  datatype NodeEntity = NodeEntity(node: NodeId, budget: BudgetId, parent: Option<NodeId>, version: Version<NodeContent>)

  function EntityOf(row: NodeRow): NodeEntity {
    NodeEntity(row.node, row.fixed.budget, row.fixed.parent, row.version)
  }

  /** The rows of `SELECT * FROM current_nodes WHERE id = node`. */
  function CurrentNodeRows(s: State, node: NodeId): (rows: seq<NodeRow>)
    ensures |rows| <= 1
    ensures |rows| == 1 <==> CurrentIn(s.nodes, node).Some?
    ensures |rows| == 1 ==> rows[0] == NodeRow(node, s.nodes[node].fixed, CurrentIn(s.nodes, node).value)
  {
    match CurrentIn(s.nodes, node)
    case None => []
    case Some(v) => [NodeRow(node, s.nodes[node].fixed, v)]
  }

  //// Creating nodes

  /** The single row `createRootNode` writes: label `lab`, path `lab`, no
      parent, and version 1 stamped with the caller's changeset. */
  function RootRow(budget: BudgetId, lab: nat, name: string, now: Date, cs: ChangesetId): Identity<NodeFixed, NodeContent> {
    Identity(NodeFixed(budget, RootPath(lab), lab, None), [Version(1, NodeContent(name, now, None), false, true, cs)])
  }

  /** `createRootNode`: draw the next label, store it as both path and label,
      and write version 1 opened at `now`. It runs inside the caller's
      transaction under the caller's changeset. */
  function CreateRootNode(s: State, cs: ChangesetId, budget: BudgetId, node: NodeId, name: string, now: Date): (r: Result<State, Error>)
    ensures r.Ok? <==> node !in s.nodes
    ensures r.Err? ==> r.error == DuplicateKey(Nodes)
    ensures r.Ok? ==> r.value == s.(nodes := s.nodes[node := RootRow(budget, s.lastLabel + 1, name, now, cs)],
                                     lastLabel := s.lastLabel + 1)
  {
    var lab := s.lastLabel + 1;
    var nodes :- Insert(s.nodes, node, NodeFixed(budget, RootPath(lab), lab, None), NodeContent(name, now, None), 1, cs, Nodes);
    Ok(s.(nodes := nodes, lastLabel := lab))
  }

  /** A root node is a root row of its budget whose path is its own, fresh,
      label; creating it only adds history stamped with the changeset. */
  lemma CreateRootNodeMakesRoot(s: State, cs: ChangesetId, budget: BudgetId, node: NodeId, name: string, now: Date)
    requires CreateRootNode(s, cs, budget, node, name, now).Ok?
    ensures var s' := CreateRootNode(s, cs, budget, node, name, now).value;
            && IsRootRow(s'.nodes[node], budget)
            && LabelOf(s'.nodes[node].fixed.path) == Text(s'.nodes[node].fixed.nodeLabel)
            && s'.nodes[node].fixed.nodeLabel > s.lastLabel
            && Extends(s.nodes, s'.nodes, cs)
  {
    RootPathParts(s.lastLabel + 1);
  }

  /** Under a recorded changeset, creating a root node keeps the store
      valid: the new node is not yet named by a roots row, so the roots
      stay as they were, and its label is the freshly drawn one. */
  lemma CreateRootNodePreservesValid(s: State, cs: ChangesetId, budget: BudgetId, node: NodeId, name: string, now: Date)
    requires Valid(s) && cs in BudgetChangesetIds(s)
    requires CreateRootNode(s, cs, budget, node, name, now).Ok?
    ensures Valid(CreateRootNode(s, cs, budget, node, name, now).value)
  {
    var s' := CreateRootNode(s, cs, budget, node, name, now).value;
    CreateRootNodeMakesRoot(s, cs, budget, node, name, now);
    assert forall n :: n in s.nodes ==> s'.nodes[n] == s.nodes[n];
    StampedFromExtends(s.nodes, s'.nodes, cs, BudgetChangesetIds(s), BudgetChangesetIds(s'));
    AddNodeKeepsLabels(s, s', node, s'.nodes[node]);
  }

  /** Every row `createRootNode` can write is a root row whose path ends in
      its label. */
  lemma RootRowIsRoot(budget: BudgetId, lab: nat, name: string, now: Date, cs: ChangesetId)
    ensures IsRootRow(RootRow(budget, lab, name, now, cs), budget)
    ensures LabelOf(RootRow(budget, lab, name, now, cs).fixed.path) == Text(lab)
    ensures ChainValid(RootRow(budget, lab, name, now, cs).chain)
  {
    RootPathParts(lab);
  }

  /** `createChildNode`: check write access, record a CreateNode changeset,
      read the parent's single current row, draw the next label, and insert
      the child at version 0 under path `parentPath.label`. The parent's
      budget is not compared with `budget`. */
  function CreateChildNode(s: State, user: UserId, budget: BudgetId, node: NodeId, parent: NodeId, content: NodeContent): (r: Result<State, Error>)
    ensures r.Ok? <==> Holds(s, user, budget, Write) && CurrentIn(s.nodes, parent).Some? && node !in s.nodes
    ensures r.Err? ==> r.error == (if !Holds(s, user, budget, Write) then PermissionDenied(user, budget, Write)
                                   else if CurrentIn(s.nodes, parent).None? then UnexpectedRowCount(0)
                                   else DuplicateKey(Nodes))
    ensures r.Ok? ==>
      var lab := s.lastLabel + 1;
      var cs := NextBudgetChangeset(s);
      && r.value.budgetChangesets == s.budgetChangesets + [BudgetChangeset(cs, user, budget, BudgetHint.CreateNode)]
      && r.value.nodes == s.nodes[node := Identity(NodeFixed(budget, ChildPath(s.nodes[parent].fixed.path, lab), lab, None),
                                                   [Version(0, content, false, true, cs)])]
      && r.value == s.(nodes := r.value.nodes, budgetChangesets := r.value.budgetChangesets, lastLabel := lab)
  {
    var permitted := AssertUserCanWriteToBudget(s, user, budget);
    :- permitted;
    var (s1, cs) := CreateBudgetChangeset(s, user, budget, BudgetHint.CreateNode);
    var parentRow :- SingleRow(CurrentNodeRows(s1, parent));
    var lab := s1.lastLabel + 1;
    var nodes :- Insert(s1.nodes, node, NodeFixed(budget, ChildPath(parentRow.fixed.path, lab), lab, None), content, 0, cs, Nodes);
    Ok(s1.(nodes := nodes, lastLabel := lab))
  }

  /** A child's path splits back into its parent's current path and its own
      label, the parent's path being a proper prefix: the parent relation is
      recoverable from the path alone. */
  lemma ChildPathNamesParent(s: State, user: UserId, budget: BudgetId, node: NodeId, parent: NodeId, content: NodeContent)
    requires CreateChildNode(s, user, budget, node, parent, content).Ok?
    ensures var child := CreateChildNode(s, user, budget, node, parent, content).value.nodes[node].fixed;
            && ParentPathOf(child.path) == Some(s.nodes[parent].fixed.path)
            && LabelOf(child.path) == Text(child.nodeLabel)
            && child.path[..|s.nodes[parent].fixed.path| + 1] == s.nodes[parent].fixed.path + "."
            && child.parent == None
  {
    ChildPathParts(s.nodes[parent].fixed.path, s.lastLabel + 1);
  }

  /** The label a new node draws is above every label already in use, so it
      is never a repeat. */
  lemma NewLabelIsFresh(s: State, user: UserId, budget: BudgetId, node: NodeId, parent: NodeId, content: NodeContent)
    requires Valid(s)
    requires CreateChildNode(s, user, budget, node, parent, content).Ok?
    ensures var s' := CreateChildNode(s, user, budget, node, parent, content).value;
            forall n :: n in s.nodes ==> s.nodes[n].fixed.nodeLabel < s'.nodes[node].fixed.nodeLabel
  {
  }

  /** In a valid state no two nodes share a path. */
  lemma PathsAreUnique(s: State, a: NodeId, b: NodeId)
    requires Valid(s)
    requires a in s.nodes && b in s.nodes && a != b
    ensures s.nodes[a].fixed.path != s.nodes[b].fixed.path
  {
    DistinctLabelsDistinctPaths(s.nodes[a].fixed.path, s.nodes[a].fixed.nodeLabel, s.nodes[b].fixed.path, s.nodes[b].fixed.nodeLabel);
  }

  lemma CreateChildNodePreservesValid(s: State, user: UserId, budget: BudgetId, node: NodeId, parent: NodeId, content: NodeContent)
    requires Valid(s)
    requires CreateChildNode(s, user, budget, node, parent, content).Ok?
    ensures Valid(CreateChildNode(s, user, budget, node, parent, content).value)
  {
    ChildKeepsChainsAndRoots(s, user, budget, node, parent, content);
    ChildKeepsProvenance(s, user, budget, node, parent, content);
    ChildKeepsLabels(s, user, budget, node, parent, content);
  }

  lemma ChildKeepsChainsAndRoots(s: State, user: UserId, budget: BudgetId, node: NodeId, parent: NodeId, content: NodeContent)
    requires ChainsValid(s) && RootsValid(s)
    requires CreateChildNode(s, user, budget, node, parent, content).Ok?
    ensures ChainsValid(CreateChildNode(s, user, budget, node, parent, content).value)
    ensures RootsValid(CreateChildNode(s, user, budget, node, parent, content).value)
  {
    var s' := CreateChildNode(s, user, budget, node, parent, content).value;
    assert forall n :: n in s.nodes ==> s'.nodes[n] == s.nodes[n];
  }

  lemma ChildKeepsProvenance(s: State, user: UserId, budget: BudgetId, node: NodeId, parent: NodeId, content: NodeContent)
    requires Provenance(s)
    requires CreateChildNode(s, user, budget, node, parent, content).Ok?
    ensures Provenance(CreateChildNode(s, user, budget, node, parent, content).value)
  {
    var s' := CreateChildNode(s, user, budget, node, parent, content).value;
    var cs := NextBudgetChangeset(s);
    var lab := s.lastLabel + 1;
    InsertExtends(s.nodes, node, NodeFixed(budget, ChildPath(s.nodes[parent].fixed.path, lab), lab, None), content, 0, cs, Nodes);
    ExtendsReflexive(s.budgets, cs);
    ExtendsReflexive(s.transactions, cs);
    ExtendsReflexive(s.postings, cs);
    StampedFromExtends(s.nodes, s'.nodes, cs, BudgetChangesetIds(s), BudgetChangesetIds(s'));
    StampedFromExtends(s.budgets, s'.budgets, cs, BudgetChangesetIds(s), BudgetChangesetIds(s'));
    StampedFromExtends(s.transactions, s'.transactions, cs, BudgetChangesetIds(s), BudgetChangesetIds(s'));
    StampedFromExtends(s.postings, s'.postings, cs, BudgetChangesetIds(s), BudgetChangesetIds(s'));
  }

  lemma ChildKeepsLabels(s: State, user: UserId, budget: BudgetId, node: NodeId, parent: NodeId, content: NodeContent)
    requires LabelsFresh(s) && PathsEndInLabels(s)
    requires CreateChildNode(s, user, budget, node, parent, content).Ok?
    ensures LabelsFresh(CreateChildNode(s, user, budget, node, parent, content).value)
    ensures PathsEndInLabels(CreateChildNode(s, user, budget, node, parent, content).value)
  {
    var s' := CreateChildNode(s, user, budget, node, parent, content).value;
    ChildPathNamesParent(s, user, budget, node, parent, content);
    AddNodeKeepsLabels(s, s', node, s'.nodes[node]);
  }

  /** Adding one node that carries the freshly drawn label and a path ending
      in it keeps labels drawn and distinct, and paths ending in labels. */
  lemma AddNodeKeepsLabels(s: State, s': State, node: NodeId, row: Identity<NodeFixed, NodeContent>)
    requires LabelsFresh(s) && PathsEndInLabels(s)
    requires node !in s.nodes
    requires s'.nodes == s.nodes[node := row] && s'.lastLabel == s.lastLabel + 1
    requires row.fixed.nodeLabel == s'.lastLabel && LabelOf(row.fixed.path) == Text(row.fixed.nodeLabel)
    ensures LabelsFresh(s') && PathsEndInLabels(s')
  {
  }

  //// Guarded update and delete

  /** `throwErrorIfIsRootNode`'s query: a roots row of `budget` names `node`. */
  predicate IsRootNode(s: State, budget: BudgetId, node: NodeId) {
    exists k | k in s.roots :: k.budget == budget && s.roots[k] == node
  }

  function ThrowErrorIfIsRootNode(s: State, budget: BudgetId, node: NodeId, m: RootMutation): (o: Outcome<Error>)
    ensures o.Pass? <==> !IsRootNode(s, budget, node)
    ensures o.Fail? ==> o.error == RootNodeProtected(m)
  {
    Need(!IsRootNode(s, budget, node), RootNodeProtected(m))
  }

  /** `updateNode`: write access, the node lock, the root guard, an UpdateNode
      changeset, then version `prev + 1` with the new name and dates. */
  function UpdateNode(s: State, user: UserId, budget: BudgetId, node: NodeId, content: NodeContent): (r: Result<State, Error>)
    ensures r.Ok? <==> Holds(s, user, budget, Write) && node in s.nodes && !IsRootNode(s, budget, node)
    ensures r.Err? ==> r.error == (if !Holds(s, user, budget, Write) then PermissionDenied(user, budget, Write)
                                   else if node !in s.nodes then NotFound(Nodes)
                                   else RootNodeProtected(UpdateRoot))
    ensures r.Ok? ==>
      var cs := NextBudgetChangeset(s);
      && r.value.budgetChangesets == s.budgetChangesets + [BudgetChangeset(cs, user, budget, BudgetHint.UpdateNode)]
      && r.value.nodes.Keys == s.nodes.Keys
      && (forall n :: n in s.nodes && n != node ==> r.value.nodes[n] == s.nodes[n])
      && r.value.nodes[node].fixed == s.nodes[node].fixed
      && (ChainValid(s.nodes[node].chain) ==>
            && AppendedTo(s.nodes[node].chain, r.value.nodes[node].chain)
            && CurrentIn(r.value.nodes, node)
               == Some(Version(Last(s.nodes[node].chain).number + 1, content, false, true, cs)))
      && r.value == s.(nodes := r.value.nodes, budgetChangesets := r.value.budgetChangesets)
  {
    var permitted := AssertUserCanWriteToBudget(s, user, budget);
    :- permitted;
    :- Lock(s.nodes, node, Nodes);
    :- ThrowErrorIfIsRootNode(s, budget, node, UpdateRoot);
    var (s1, cs) := CreateBudgetChangeset(s, user, budget, BudgetHint.UpdateNode);
    Ok(s1.(nodes := UpdateIn(s1.nodes, node, content, cs)))
  }

  /** `deleteNode`: as `updateNode`, but the new version carries the name and
      dates forward and is flagged deleted. */
  function DeleteNode(s: State, user: UserId, budget: BudgetId, node: NodeId): (r: Result<State, Error>)
    ensures r.Ok? <==> Holds(s, user, budget, Write) && node in s.nodes && !IsRootNode(s, budget, node)
    ensures r.Err? ==> r.error == (if !Holds(s, user, budget, Write) then PermissionDenied(user, budget, Write)
                                   else if node !in s.nodes then NotFound(Nodes)
                                   else RootNodeProtected(DeleteRoot))
    ensures r.Ok? ==>
      var cs := NextBudgetChangeset(s);
      && r.value.budgetChangesets == s.budgetChangesets + [BudgetChangeset(cs, user, budget, BudgetHint.DeleteNode)]
      && r.value.nodes.Keys == s.nodes.Keys
      && (forall n :: n in s.nodes && n != node ==> r.value.nodes[n] == s.nodes[n])
      && r.value.nodes[node].fixed == s.nodes[node].fixed
      && (ChainValid(s.nodes[node].chain) ==>
            var prev := Last(s.nodes[node].chain);
            && AppendedTo(s.nodes[node].chain, r.value.nodes[node].chain)
            && MostRecent(r.value.nodes[node].chain) == Some(Version(prev.number + 1, prev.content, true, true, cs))
            && CurrentIn(r.value.nodes, node) == None)
      && r.value == s.(nodes := r.value.nodes, budgetChangesets := r.value.budgetChangesets)
  {
    var permitted := AssertUserCanWriteToBudget(s, user, budget);
    :- permitted;
    :- Lock(s.nodes, node, Nodes);
    :- ThrowErrorIfIsRootNode(s, budget, node, DeleteRoot);
    var (s1, cs) := CreateBudgetChangeset(s, user, budget, BudgetHint.DeleteNode);
    Ok(s1.(nodes := DeleteIn(s1.nodes, node, cs)))
  }

  /** A root of its own budget is refused by both mutations. */
  lemma RootsOfTheGivenBudgetAreProtected(s: State, user: UserId, budget: BudgetId, d: Domain, l: Layer, content: NodeContent)
    requires Holds(s, user, budget, Write)
    requires RootKey(budget, d, l) in s.roots && s.roots[RootKey(budget, d, l)] in s.nodes
    ensures UpdateNode(s, user, budget, s.roots[RootKey(budget, d, l)], content) == Err(RootNodeProtected(UpdateRoot))
    ensures DeleteNode(s, user, budget, s.roots[RootKey(budget, d, l)]) == Err(RootNodeProtected(DeleteRoot))
  {
    assert IsRootNode(s, budget, s.roots[RootKey(budget, d, l)]);
  }

  /** A roots row of a budget other than `other` names a node of that budget,
      so the guard, which only looks at `other`'s roots, lets it through. */
  lemma ForeignRootIsNotGuarded(s: State, budget: BudgetId, other: BudgetId, d: Domain, l: Layer)
    requires Valid(s)
    requires RootKey(budget, d, l) in s.roots && budget != other
    ensures !IsRootNode(s, other, s.roots[RootKey(budget, d, l)])
  {
    var n := s.roots[RootKey(budget, d, l)];
    forall k | k in s.roots && k.budget == other
      ensures s.roots[k] != n
    {
      assert s.nodes[s.roots[k]].fixed.budget == other;
    }
  }

  /** As written, `updateNode` with write access to one budget rewrites a
      root node of another budget: the guard is keyed on the given budget and
      the node's own budget is never compared with it. Afterwards that node
      is no longer an untouched root. */
  lemma ForeignRootCanBeUpdated(s: State, user: UserId, budget: BudgetId, other: BudgetId, d: Domain, l: Layer, content: NodeContent)
    requires Valid(s)
    requires RootKey(other, d, l) in s.roots && budget != other
    requires Holds(s, user, budget, Write)
    ensures var r := UpdateNode(s, user, budget, s.roots[RootKey(other, d, l)], content);
            && r.Ok?
            && !IsRootRow(r.value.nodes[s.roots[RootKey(other, d, l)]], other)
            && !RootsValid(r.value)
  {
    ForeignRootIsNotGuarded(s, other, budget, d, l);
    var n := s.roots[RootKey(other, d, l)];
    var r := UpdateNode(s, user, budget, n, content).value;
    assert |r.nodes[n].chain| == 2;
  }

  /** The same for `deleteNode`: a root of another budget is deleted. */
  lemma ForeignRootCanBeDeleted(s: State, user: UserId, budget: BudgetId, other: BudgetId, d: Domain, l: Layer)
    requires Valid(s)
    requires RootKey(other, d, l) in s.roots && budget != other
    requires Holds(s, user, budget, Write)
    ensures var r := DeleteNode(s, user, budget, s.roots[RootKey(other, d, l)]);
            && r.Ok?
            && CurrentIn(r.value.nodes, s.roots[RootKey(other, d, l)]) == None
            && !RootsValid(r.value)
  {
    ForeignRootIsNotGuarded(s, other, budget, d, l);
    var n := s.roots[RootKey(other, d, l)];
    var r := DeleteNode(s, user, budget, n).value;
    assert |r.nodes[n].chain| == 2;
  }

  /** The evidently intended lock: `SELECT ... FROM nodes WHERE id = node AND
      budget_id = budget FOR UPDATE`. A node of another budget is not found. */
  function LockInBudget(s: State, budget: BudgetId, node: NodeId): (o: Outcome<Error>)
    ensures o.Pass? <==> node in s.nodes && s.nodes[node].fixed.budget == budget
    ensures o.Fail? ==> o.error == NotFound(Nodes)
  {
    Need(node in s.nodes && s.nodes[node].fixed.budget == budget, NotFound(Nodes))
  }

  /** `updateNode` with the lock confined to the given budget. */
  function UpdateNodeInBudget(s: State, user: UserId, budget: BudgetId, node: NodeId, content: NodeContent): (r: Result<State, Error>)
    ensures r.Ok? <==> Holds(s, user, budget, Write) && node in s.nodes
                       && s.nodes[node].fixed.budget == budget && !IsRootNode(s, budget, node)
    ensures r.Err? ==> r.error == (if !Holds(s, user, budget, Write) then PermissionDenied(user, budget, Write)
                                   else if node !in s.nodes || s.nodes[node].fixed.budget != budget then NotFound(Nodes)
                                   else RootNodeProtected(UpdateRoot))
    ensures r.Ok? ==> r == UpdateNode(s, user, budget, node, content)
  {
    var permitted := AssertUserCanWriteToBudget(s, user, budget);
    :- permitted;
    :- LockInBudget(s, budget, node);
    :- ThrowErrorIfIsRootNode(s, budget, node, UpdateRoot);
    var (s1, cs) := CreateBudgetChangeset(s, user, budget, BudgetHint.UpdateNode);
    Ok(s1.(nodes := UpdateIn(s1.nodes, node, content, cs)))
  }

  /** `deleteNode` with the lock confined to the given budget. */
  function DeleteNodeInBudget(s: State, user: UserId, budget: BudgetId, node: NodeId): (r: Result<State, Error>)
    ensures r.Ok? <==> Holds(s, user, budget, Write) && node in s.nodes
                       && s.nodes[node].fixed.budget == budget && !IsRootNode(s, budget, node)
    ensures r.Err? ==> r.error == (if !Holds(s, user, budget, Write) then PermissionDenied(user, budget, Write)
                                   else if node !in s.nodes || s.nodes[node].fixed.budget != budget then NotFound(Nodes)
                                   else RootNodeProtected(DeleteRoot))
    ensures r.Ok? ==> r == DeleteNode(s, user, budget, node)
  {
    var permitted := AssertUserCanWriteToBudget(s, user, budget);
    :- permitted;
    :- LockInBudget(s, budget, node);
    :- ThrowErrorIfIsRootNode(s, budget, node, DeleteRoot);
    var (s1, cs) := CreateBudgetChangeset(s, user, budget, BudgetHint.DeleteNode);
    Ok(s1.(nodes := DeleteIn(s1.nodes, node, cs)))
  }

  /** In a valid state, the node the confined lock lets through is not named
      by any roots row at all. */
  lemma ConfinedNodeIsNoRoot(s: State, budget: BudgetId, node: NodeId)
    requires Valid(s)
    requires node in s.nodes && s.nodes[node].fixed.budget == budget && !IsRootNode(s, budget, node)
    ensures forall k :: k in s.roots ==> s.roots[k] != node
  {
    forall k | k in s.roots
      ensures s.roots[k] != node
    {
      if k.budget != budget {
        assert s.nodes[s.roots[k]].fixed.budget == k.budget;
      }
    }
  }

  /** With the lock confined to the budget, no root node is ever touched, so
      the update keeps every invariant. */
  lemma UpdateNodeInBudgetPreservesValid(s: State, user: UserId, budget: BudgetId, node: NodeId, content: NodeContent)
    requires Valid(s)
    requires UpdateNodeInBudget(s, user, budget, node, content).Ok?
    ensures Valid(UpdateNodeInBudget(s, user, budget, node, content).value)
  {
    var s' := UpdateNodeInBudget(s, user, budget, node, content).value;
    var cs := NextBudgetChangeset(s);
    ConfinedNodeIsNoRoot(s, budget, node);
    UpdateInExtends(s.nodes, node, content, cs);
    StampedFromExtends(s.nodes, s'.nodes, cs, BudgetChangesetIds(s), BudgetChangesetIds(s'));
    StampedFromExtends(s.budgets, s'.budgets, cs, BudgetChangesetIds(s), BudgetChangesetIds(s'));
    StampedFromExtends(s.transactions, s'.transactions, cs, BudgetChangesetIds(s), BudgetChangesetIds(s'));
    StampedFromExtends(s.postings, s'.postings, cs, BudgetChangesetIds(s), BudgetChangesetIds(s'));
  }

  lemma DeleteNodeInBudgetPreservesValid(s: State, user: UserId, budget: BudgetId, node: NodeId)
    requires Valid(s)
    requires DeleteNodeInBudget(s, user, budget, node).Ok?
    ensures Valid(DeleteNodeInBudget(s, user, budget, node).value)
  {
    var s' := DeleteNodeInBudget(s, user, budget, node).value;
    var cs := NextBudgetChangeset(s);
    ConfinedNodeIsNoRoot(s, budget, node);
    DeleteInExtends(s.nodes, node, cs);
    StampedFromExtends(s.nodes, s'.nodes, cs, BudgetChangesetIds(s), BudgetChangesetIds(s'));
    StampedFromExtends(s.budgets, s'.budgets, cs, BudgetChangesetIds(s), BudgetChangesetIds(s'));
    StampedFromExtends(s.transactions, s'.transactions, cs, BudgetChangesetIds(s), BudgetChangesetIds(s'));
    StampedFromExtends(s.postings, s'.postings, cs, BudgetChangesetIds(s), BudgetChangesetIds(s'));
  }

  //// Reads

  /** `getNodeById`: read access, then the node's current row or null. The
      node's budget is not compared with `budget`. */
  function GetNodeById(s: State, user: UserId, budget: BudgetId, node: NodeId): (r: Result<Option<NodeEntity>, Error>)
    ensures r.Ok? <==> Holds(s, user, budget, Read)
    ensures r.Err? ==> r.error == PermissionDenied(user, budget, Read)
    ensures r.Ok? ==> (r.value.None? <==> CurrentIn(s.nodes, node).None?)
    ensures r.Ok? && r.value.Some? ==>
      && r.value.value.node == node
      && r.value.value.budget == s.nodes[node].fixed.budget
      && r.value.value.version == CurrentIn(s.nodes, node).value
      && !r.value.value.version.isDeleted
  {
    var permitted := AssertUserCanReadBudget(s, user, budget);
    :- permitted;
    var rows := CurrentNodeRows(s, node);
    Ok(if |rows| == 0 then None else Some(EntityOf(rows[0])))
  }

  /** `getNodesForBudget`: read access, then every current node of the budget. */
  function GetNodesForBudget(s: State, user: UserId, budget: BudgetId): (r: Result<set<NodeEntity>, Error>)
    ensures r.Ok? <==> Holds(s, user, budget, Read)
    ensures r.Err? ==> r.error == PermissionDenied(user, budget, Read)
    ensures r.Ok? ==> forall e :: e in r.value ==>
      && e.budget == budget
      && e.node in s.nodes
      && s.nodes[e.node].fixed.budget == budget
      && CurrentIn(s.nodes, e.node) == Some(e.version)
  {
    var permitted := AssertUserCanReadBudget(s, user, budget);
    :- permitted;
    Ok(set n | n in s.nodes && s.nodes[n].fixed.budget == budget && CurrentIn(s.nodes, n).Some?
             :: EntityOf(NodeRow(n, s.nodes[n].fixed, CurrentIn(s.nodes, n).value)))
  }

  /** Conversely, every current node of the budget is listed. */
  lemma GetNodesForBudgetIsComplete(s: State, user: UserId, budget: BudgetId, n: NodeId)
    requires Holds(s, user, budget, Read)
    requires n in s.nodes && s.nodes[n].fixed.budget == budget && CurrentIn(s.nodes, n).Some?
    ensures exists e :: e in GetNodesForBudget(s, user, budget).value && e.node == n
  {
    var e := EntityOf(NodeRow(n, s.nodes[n].fixed, CurrentIn(s.nodes, n).value));
    assert e in GetNodesForBudget(s, user, budget).value;
  }

  /** The rows of `current_nodes` joined with the roots row (budget, d, l). */
  function RootNodeRows(s: State, budget: BudgetId, d: Domain, l: Layer): (rows: seq<NodeRow>)
    ensures |rows| <= 1
    ensures |rows| == 1 <==> RootKey(budget, d, l) in s.roots && CurrentIn(s.nodes, s.roots[RootKey(budget, d, l)]).Some?
    ensures |rows| == 1 ==> rows[0] == CurrentNodeRows(s, s.roots[RootKey(budget, d, l)])[0]
  {
    var k := RootKey(budget, d, l);
    if k in s.roots then CurrentNodeRows(s, s.roots[k]) else []
  }

  /** `getRootNode`: read access, then the single current root row. */
  function GetRootNode(s: State, user: UserId, budget: BudgetId, d: Domain, l: Layer): (r: Result<NodeEntity, Error>)
    ensures r.Ok? <==> Holds(s, user, budget, Read) && RootKey(budget, d, l) in s.roots
                       && CurrentIn(s.nodes, s.roots[RootKey(budget, d, l)]).Some?
    ensures r.Err? ==> r.error == (if !Holds(s, user, budget, Read) then PermissionDenied(user, budget, Read)
                                   else UnexpectedRowCount(0))
    ensures r.Ok? ==>
      && r.value.node == s.roots[RootKey(budget, d, l)]
      && r.value.budget == s.nodes[r.value.node].fixed.budget
      && r.value.version == CurrentIn(s.nodes, r.value.node).value
      && !r.value.version.isDeleted
  {
    var permitted := AssertUserCanReadBudget(s, user, budget);
    :- permitted;
    var row :- SingleRow(RootNodeRows(s, budget, d, l));
    Ok(EntityOf(row))
  }

  /** In a valid state each existing budget's four roots can be read back by
      a reader of the budget, each as a version-1 node of that budget. */
  lemma RootNodesReadable(s: State, user: UserId, budget: BudgetId, d: Domain, l: Layer)
    requires Valid(s)
    requires budget in s.budgets && Holds(s, user, budget, Read)
    ensures var r := GetRootNode(s, user, budget, d, l);
            && r.Ok?
            && r.value.budget == budget
            && r.value.version.number == 1
  {
    var n := s.roots[RootKey(budget, d, l)];
    assert MostRecent(s.nodes[n].chain) == Some(s.nodes[n].chain[0]);
  }
}

=== FILE: paths.dfy ===
/** Materialized node paths. A root's path is its own label; a child's path is
    its parent's path, a '.', and its own label. Labels are decimal numerals,
    so they contain no '.', and the last '.' of a path separates the parent's
    path from the node's own label. Since `parent_id` is never written, this
    is the only place the parent relation is recorded. */
module Paths {
  import opened Wrappers
  import opened Decimal

  function RootPath(lab: nat): string {
    Text(lab)
  }

  function ChildPath(parentPath: string, lab: nat): string {
    parentPath + "." + Text(lab)
  }

  /** The position of the last '.' in `path`, if there is one. */
  function LastDot(path: string): (r: Option<nat>)
    ensures r.Some? ==> r.value < |path| && path[r.value] == '.' && '.' !in path[r.value + 1..]
    ensures r.None? ==> '.' !in path
    decreases |path|
  {
    if |path| == 0 then None
    else if path[|path| - 1] == '.' then Some(|path| - 1)
    else
      var r := LastDot(path[..|path| - 1]);
      assert path == path[..|path| - 1] + [path[|path| - 1]];
      assert r.Some? ==> path[r.value + 1..] == path[..|path| - 1][r.value + 1..] + [path[|path| - 1]];
      r
  }

  /** The path of the parent, recovered from a node's own path; roots have none. */
  function ParentPathOf(path: string): Option<string> {
    match LastDot(path)
    case None => None
    case Some(i) => Some(path[..i])
  }

  /** The last segment of a path: the node's own label. */
  function LabelOf(path: string): string {
    match LastDot(path)
    case None => path
    case Some(i) => path[i + 1..]
  }

  /** Appending a dot-free segment after a '.' moves the last dot there. */
  lemma {:induction false} LastDotOfSegment(p: string, t: string)
    requires '.' !in t
    ensures LastDot(p + "." + t) == Some(|p|)
    decreases |t|
  {
    var q := p + "." + t;
    if |t| > 0 {
      assert q[..|q| - 1] == p + "." + t[..|t| - 1];
      assert t[|t| - 1] in t;
      LastDotOfSegment(p, t[..|t| - 1]);
    }
  }

  /** A root path has no parent and is its own label. */
  lemma RootPathParts(lab: nat)
    ensures ParentPathOf(RootPath(lab)) == None
    ensures LabelOf(RootPath(lab)) == Text(lab)
  {
    TextHasNoDot(lab);
  }

  /** A child path splits back into the parent's path and the child's label:
      the parent's path is a proper prefix, followed by '.'. */
  lemma ChildPathParts(parentPath: string, lab: nat)
    ensures ParentPathOf(ChildPath(parentPath, lab)) == Some(parentPath)
    ensures LabelOf(ChildPath(parentPath, lab)) == Text(lab)
    ensures |parentPath| < |ChildPath(parentPath, lab)|
    ensures ChildPath(parentPath, lab)[..|parentPath| + 1] == parentPath + "."
  {
    TextHasNoDot(lab);
    LastDotOfSegment(parentPath, Text(lab));
    var q := ChildPath(parentPath, lab);
    assert q[..|parentPath|] == parentPath;
    assert q[|parentPath| + 1..] == Text(lab);
  }

  /** Paths that end in different labels differ. */
  lemma DistinctLabelsDistinctPaths(p1: string, lab1: nat, p2: string, lab2: nat)
    requires LabelOf(p1) == Text(lab1) && LabelOf(p2) == Text(lab2)
    requires lab1 != lab2
    ensures p1 != p2
  {
    TextInjective(lab1, lab2);
  }
}

=== FILE: permissions.dfy ===
/** The permission gate: one row of four flags per (user, budget), four
    independent checks, and a share-gated upsert. */
module Permissions {
  import opened Wrappers
  import opened Ids
  import opened Failures
  import opened Store
  import opened Utils

  /** The flag a right asks for. */
  function Flag(p: Permission, r: Right): bool {
    match r
    case Read => p.canRead
    case Write => p.canWrite
    case Share => p.canShare
    case Delete => p.canDelete
  }

  /** `user` holds right `r` on `budget`: a row exists and its flag is set. */
  predicate Holds(s: State, user: UserId, budget: BudgetId, r: Right) {
    (user, budget) in s.permissions && Flag(s.permissions[(user, budget)], r)
  }

  /** The rows of `SELECT ... FROM permissions WHERE user and budget match`;
      (user, budget) is the table's key, so there is at most one. */
  function PermissionRows(s: State, user: UserId, budget: BudgetId): (rows: seq<Permission>)
    ensures |rows| <= 1
    ensures |rows| == 1 <==> (user, budget) in s.permissions
  {
    if (user, budget) in s.permissions then [s.permissions[(user, budget)]] else []
  }

  function AssertUserCanReadBudget(s: State, user: UserId, budget: BudgetId): (o: Outcome<Error>)
    ensures o.Pass? <==> (user, budget) in s.permissions && s.permissions[(user, budget)].canRead
    ensures o.Fail? ==> o.error == PermissionDenied(user, budget, Read)
  {
    var rows := PermissionRows(s, user, budget);
    if |rows| == 0 || !rows[0].canRead then Fail(PermissionDenied(user, budget, Read)) else Pass
  }

  function AssertUserCanWriteToBudget(s: State, user: UserId, budget: BudgetId): (o: Outcome<Error>)
    ensures o.Pass? <==> (user, budget) in s.permissions && s.permissions[(user, budget)].canWrite
    ensures o.Fail? ==> o.error == PermissionDenied(user, budget, Write)
  {
    var rows := PermissionRows(s, user, budget);
    if |rows| == 0 || !rows[0].canWrite then Fail(PermissionDenied(user, budget, Write)) else Pass
  }

  function AssertUserCanShareBudget(s: State, user: UserId, budget: BudgetId): (o: Outcome<Error>)
    ensures o.Pass? <==> (user, budget) in s.permissions && s.permissions[(user, budget)].canShare
    ensures o.Fail? ==> o.error == PermissionDenied(user, budget, Share)
  {
    var rows := PermissionRows(s, user, budget);
    if |rows| == 0 || !rows[0].canShare then Fail(PermissionDenied(user, budget, Share)) else Pass
  }

  function AssertUserCanDeleteBudget(s: State, user: UserId, budget: BudgetId): (o: Outcome<Error>)
    ensures o.Pass? <==> (user, budget) in s.permissions && s.permissions[(user, budget)].canDelete
    ensures o.Fail? ==> o.error == PermissionDenied(user, budget, Delete)
  {
    var rows := PermissionRows(s, user, budget);
    if |rows| == 0 || !rows[0].canDelete then Fail(PermissionDenied(user, budget, Delete)) else Pass
  }

  /** Each check consults its own flag and nothing else: for any row, each
      check passes exactly when that row's own flag is set, so no flag stands
      in for another (in particular `canWrite` does not grant reading). */
  lemma ChecksAreIndependent(s: State, user: UserId, budget: BudgetId, p: Permission)
    requires (user, budget) in s.permissions && s.permissions[(user, budget)] == p
    ensures AssertUserCanReadBudget(s, user, budget).Pass? == p.canRead
    ensures AssertUserCanWriteToBudget(s, user, budget).Pass? == p.canWrite
    ensures AssertUserCanShareBudget(s, user, budget).Pass? == p.canShare
    ensures AssertUserCanDeleteBudget(s, user, budget).Pass? == p.canDelete
  {
  }

  /** Without a row every check fails. */
  lemma NoRowNoAccess(s: State, user: UserId, budget: BudgetId)
    requires (user, budget) !in s.permissions
    ensures AssertUserCanReadBudget(s, user, budget) == Fail(PermissionDenied(user, budget, Read))
    ensures AssertUserCanWriteToBudget(s, user, budget) == Fail(PermissionDenied(user, budget, Write))
    ensures AssertUserCanShareBudget(s, user, budget) == Fail(PermissionDenied(user, budget, Share))
    ensures AssertUserCanDeleteBudget(s, user, budget) == Fail(PermissionDenied(user, budget, Delete))
  {
  }

  /** `setPermissions`: the sharing user must hold `canShare`; then the
      target's row is inserted or overwritten with exactly the given flags. */
  function SetPermissions(s: State, sharingUser: UserId, target: UserId, budget: BudgetId, p: Permission): (r: Result<State, Error>)
    ensures r.Ok? <==> Holds(s, sharingUser, budget, Share)
    ensures r.Err? ==> r.error == PermissionDenied(sharingUser, budget, Share)
    ensures r.Ok? ==> r.value.permissions.Keys == s.permissions.Keys + {(target, budget)}
    ensures r.Ok? ==> r.value.permissions[(target, budget)] == p
    ensures r.Ok? ==> forall key :: key in s.permissions && key != (target, budget) ==>
                        r.value.permissions[key] == s.permissions[key]
    ensures r.Ok? ==> r.value == s.(permissions := r.value.permissions)
  {
    var permitted := AssertUserCanShareBudget(s, sharingUser, budget);
    :- permitted;
    Ok(s.(permissions := s.permissions[(target, budget) := p]))
  }

  /** Two grants to the same target: the second one's flags are what remain. */
  lemma LastWriteWins(s: State, sharingUser: UserId, target: UserId, budget: BudgetId, p1: Permission, p2: Permission)
    requires SetPermissions(s, sharingUser, target, budget, p1).Ok?
    requires SetPermissions(SetPermissions(s, sharingUser, target, budget, p1).value, sharingUser, target, budget, p2).Ok?
    ensures SetPermissions(SetPermissions(s, sharingUser, target, budget, p1).value, sharingUser, target, budget, p2).value
            == SetPermissions(s, sharingUser, target, budget, p2).value
  {
  }

  /** Granting read and write but not share: the target can read, and its own
      attempt to share the budget is refused. */
  lemma ReadWriteGrantDoesNotAllowSharing(s: State, owner: UserId, other: UserId, budget: BudgetId, third: UserId, q: Permission)
    requires Holds(s, owner, budget, Share)
    requires owner != other
    ensures var g := SetPermissions(s, owner, other, budget, Permission(true, true, false, false));
            && g.Ok?
            && AssertUserCanReadBudget(g.value, other, budget).Pass?
            && SetPermissions(g.value, other, third, budget, q) == Err(PermissionDenied(other, budget, Share))
  {
  }

  lemma SetPermissionsPreservesValid(s: State, sharingUser: UserId, target: UserId, budget: BudgetId, p: Permission)
    requires Valid(s)
    requires SetPermissions(s, sharingUser, target, budget, p).Ok?
    ensures Valid(SetPermissions(s, sharingUser, target, budget, p).value)
  {
  }

  //// Reading a permission row

  /** `getPermissionsByUserAndBudget` as written: it returns the row only
      when more than one row matches. */
  function GetPermissionsByUserAndBudget(s: State, user: UserId, budget: BudgetId): (r: Option<Permission>)
    ensures r.Some? <==> |PermissionRows(s, user, budget)| > 1
    ensures r.Some? ==> r == GetPermissions(s, user, budget)
  {
    FirstRowIfSeveral(PermissionRows(s, user, budget))
  }

  /** Since (user, budget) is the key, at most one row matches: as written the
      read never returns a row, even for a pair that has one. */
  lemma GetPermissionsAlwaysNull(s: State, user: UserId, budget: BudgetId)
    ensures GetPermissionsByUserAndBudget(s, user, budget) == None
  {
  }

  /** The evidently intended read: the row when there is one. */
  function GetPermissions(s: State, user: UserId, budget: BudgetId): (r: Option<Permission>)
    ensures r.Some? <==> (user, budget) in s.permissions
    ensures r.Some? ==> r.value == s.permissions[(user, budget)]
  {
    FirstRowIfAny(PermissionRows(s, user, budget))
  }

  /** Reading back a grant returns the flags just written. */
  lemma GetAfterSet(s: State, sharingUser: UserId, target: UserId, budget: BudgetId, p: Permission)
    requires SetPermissions(s, sharingUser, target, budget, p).Ok?
    ensures GetPermissions(SetPermissions(s, sharingUser, target, budget, p).value, target, budget) == Some(p)
  {
  }
}

=== FILE: plans.dfy ===
/** Plans: a flat reference table with no versions, no changeset and no
    permission check. */
module Plans {
  import opened Wrappers
  import opened Ids
  import opened Failures
  import opened Store
  import opened Utils

  /** `createPlan`: inserts exactly one row; an existing id violates the key. */
  function CreatePlan(s: State, id: PlanId, name: string, cost: int): (r: Result<State, Error>)
    ensures r.Ok? <==> id !in s.plans
    ensures r.Err? ==> r.error == DuplicateKey(Plans)
    ensures r.Ok? ==> r.value.plans.Keys == s.plans.Keys + {id}
    ensures r.Ok? ==> r.value.plans[id] == Plan(name, cost)
    ensures r.Ok? ==> forall p :: p in s.plans ==> r.value.plans[p] == s.plans[p]
    ensures r.Ok? ==> r.value == s.(plans := r.value.plans)
  {
    if id in s.plans then Err(DuplicateKey(Plans))
    else Ok(s.(plans := s.plans[id := Plan(name, cost)]))
  }

  /** The rows of `SELECT id, name, cost FROM plans WHERE id = ...`. */
  function PlanRows(s: State, id: PlanId): (rows: seq<Plan>)
    ensures |rows| <= 1
    ensures |rows| == 1 <==> id in s.plans
  {
    if id in s.plans then [s.plans[id]] else []
  }

  /** `readPlanById` as written: `(rowCount > 1) ? rows[0] : null`. */
  function ReadPlanById(s: State, id: PlanId): (r: Option<Plan>)
    ensures r.Some? <==> |PlanRows(s, id)| > 1
    ensures r.Some? ==> r == ReadPlan(s, id)
  {
    FirstRowIfSeveral(PlanRows(s, id))
  }

  /** The id is the key, so at most one row matches and the read as written
      returns null for every plan, including one just created. */
  lemma ReadPlanByIdAlwaysNull(s: State, id: PlanId, name: string, cost: int)
    ensures ReadPlanById(s, id) == None
    ensures CreatePlan(s, id, name, cost).Ok? ==> ReadPlanById(CreatePlan(s, id, name, cost).value, id) == None
  {
  }

  /** The evidently intended read: the row when one matches. */
  function ReadPlan(s: State, id: PlanId): (r: Option<Plan>)
    ensures r.Some? <==> id in s.plans
    ensures r.Some? ==> r.value == s.plans[id]
  {
    FirstRowIfAny(PlanRows(s, id))
  }

  /** Reading back a created plan returns its name and cost. */
  lemma ReadAfterCreatePlan(s: State, id: PlanId, name: string, cost: int)
    requires id !in s.plans
    ensures ReadPlan(CreatePlan(s, id, name, cost).value, id) == Some(Plan(name, cost))
  {
  }

  lemma CreatePlanPreservesValid(s: State, id: PlanId, name: string, cost: int)
    requires Valid(s)
    requires CreatePlan(s, id, name, cost).Ok?
    ensures Valid(CreatePlan(s, id, name, cost).value)
  {
  }
}

=== FILE: postings.dfy ===
/** The postings of a budget transaction. They are written only inside a
    transaction operation, under that operation's changeset, so every
    function here works on the postings table alone. */
module Postings {
  import opened Wrappers
  import opened Ids
  import opened Failures
  import opened Versioned
  import opened Store

  /** `IPostingVersion`: what a caller supplies for one posting. */
  datatype PostingInput = PostingInput(posting: PostingId, node: NodeId, amount: int, description: string)

  /** `IPostingEntity`: a row of `current_postings`. */
  datatype PostingEntity = PostingEntity(posting: PostingId, transaction: TransactionId, version: Version<PostingContent>)

  function ContentOf(p: PostingInput): PostingContent {
    PostingContent(p.node, p.amount, p.description)
  }

  /** The identity row and version 0 that `createPosting` writes. */
  function PostingRow(tid: TransactionId, p: PostingInput, cs: ChangesetId): Identity<TransactionId, PostingContent> {
    Identity(tid, [Initial(0, ContentOf(p), cs)])
  }

  function IdsOf(ps: seq<PostingInput>): set<PostingId> {
    set p | p in ps :: p.posting
  }

  predicate DistinctIds(ps: seq<PostingInput>) {
    forall i, j :: 0 <= i < j < |ps| ==> ps[i].posting != ps[j].posting
  }

  /** Every posting can be inserted: no two share an id and none is taken. */
  predicate FreshIds(t: PostingTable, ps: seq<PostingInput>) {
    && DistinctIds(ps)
    && forall p :: p in ps ==> p.posting !in t
  }

  //// Single postings

  /** `createPosting`: the identity row under the transaction, then version 0. */
  function CreatePosting(t: PostingTable, cs: ChangesetId, tid: TransactionId, p: PostingInput): (r: Result<PostingTable, Error>)
    ensures r.Ok? <==> p.posting !in t
    ensures r.Err? ==> r.error == DuplicateKey(Postings)
    ensures r.Ok? ==> r.value == t[p.posting := PostingRow(tid, p, cs)]
  {
    Insert(t, p.posting, tid, ContentOf(p), 0, cs, Postings)
  }

  /** `updatePosting`: version `prev + 1` with the new node, amount and description. */
  function UpdatePosting(t: PostingTable, cs: ChangesetId, p: PostingInput): (r: PostingTable)
    ensures r.Keys == t.Keys
    ensures forall k :: k in t && k != p.posting ==> r[k] == t[k]
    ensures p.posting in t ==> r[p.posting].fixed == t[p.posting].fixed
  {
    UpdateIn(t, p.posting, ContentOf(p), cs)
  }

  /** `deletePosting`: version `prev + 1` carrying the content forward, flagged deleted. */
  function DeletePosting(t: PostingTable, cs: ChangesetId, posting: PostingId): (r: PostingTable)
    ensures r.Keys == t.Keys
    ensures forall k :: k in t && k != posting ==> r[k] == t[k]
    ensures posting in t ==> r[posting].fixed == t[posting].fixed
  {
    DeleteIn(t, posting, cs)
  }

  /** A posting reads back with what was written, one version later, and
      reads as absent once deleted. */
  lemma PostingReadsBack(t: PostingTable, cs: ChangesetId, p: PostingInput)
    requires TableValid(t) && p.posting in t
    ensures CurrentIn(UpdatePosting(t, cs, p), p.posting)
            == Some(Version(Last(t[p.posting].chain).number + 1, ContentOf(p), false, true, cs))
    ensures CurrentIn(DeletePosting(t, cs, p.posting), p.posting) == None
    ensures MostRecent(DeletePosting(t, cs, p.posting)[p.posting].chain)
            == Some(Last(t[p.posting].chain).(number := Last(t[p.posting].chain).number + 1,
                                               isDeleted := true, changeset := cs))
  {
    ReadAfterUpdate(t[p.posting].chain, ContentOf(p), cs);
    ReadAfterDelete(t[p.posting].chain, cs);
  }

  //// Reads

  /** The ids `SELECT * FROM current_postings WHERE transaction_id = tid` returns. */
  function CurrentPostingIds(t: PostingTable, tid: TransactionId): set<PostingId> {
    set k | k in t && t[k].fixed == tid && Current(t[k].chain).Some?
  }

  /** `getPostingsByTransactionId`: every current posting of the transaction, and nothing else. */
  function GetPostingsByTransactionId(t: PostingTable, tid: TransactionId): (r: set<PostingEntity>)
    ensures forall e :: e in r ==>
              && e.transaction == tid
              && e.posting in t
              && t[e.posting].fixed == tid
              && Current(t[e.posting].chain) == Some(e.version)
    ensures forall k :: k in CurrentPostingIds(t, tid) ==>
              PostingEntity(k, tid, Current(t[k].chain).value) in r
  {
    set k | k in CurrentPostingIds(t, tid) :: PostingEntity(k, tid, Current(t[k].chain).value)
  }

  /** The ids of the fetched rows are the transaction's current postings. */
  lemma FetchedRowIds(t: PostingTable, tid: TransactionId)
    ensures RowIds(GetPostingsByTransactionId(t, tid)) == CurrentPostingIds(t, tid)
  {
    var rows := GetPostingsByTransactionId(t, tid);
    forall k | k in CurrentPostingIds(t, tid)
      ensures k in RowIds(rows)
    {
      assert PostingEntity(k, tid, Current(t[k].chain).value) in rows;
    }
  }

  function RowIds(rows: set<PostingEntity>): set<PostingId> {
    set e | e in rows :: e.posting
  }

  //// Creating several postings

  /** `createPostingsForTransaction`: `createPosting` for each posting in turn.
      The first id that is already taken aborts the whole call. */
  function CreatePostings(t: PostingTable, cs: ChangesetId, tid: TransactionId, ps: seq<PostingInput>): (r: Result<PostingTable, Error>)
    ensures r.Ok? <==> FreshIds(t, ps)
    ensures r.Err? ==> r.error == DuplicateKey(Postings)
    ensures r.Ok? ==> r.value.Keys == t.Keys + IdsOf(ps)
    ensures r.Ok? ==> forall k :: k in t ==> r.value[k] == t[k]
    ensures r.Ok? ==> forall p :: p in ps ==> r.value[p.posting] == PostingRow(tid, p, cs)
    decreases |ps|
  {
    if |ps| == 0 then Ok(t)
    else
      var p := ps[0];
      FreshIdsCons(t, ps, PostingRow(tid, p, cs));
      var t1 :- CreatePosting(t, cs, tid, p);
      var r := CreatePostings(t1, cs, tid, ps[1..]);
      assert forall q :: q in ps ==> q == p || q in ps[1..];
      assert IdsOf(ps) == {p.posting} + IdsOf(ps[1..]);
      r
  }

  /** Freshness of a non-empty list splits into its head and its tail,
      the tail checked against the table the head's insert produced. */
  lemma FreshIdsCons(t: PostingTable, ps: seq<PostingInput>, row: Identity<TransactionId, PostingContent>)
    requires |ps| > 0
    ensures FreshIds(t, ps) <==> ps[0].posting !in t && FreshIds(t[ps[0].posting := row], ps[1..])
  {
    var t1 := t[ps[0].posting := row];
    if ps[0].posting !in t && FreshIds(t1, ps[1..]) {
      forall i, j | 0 <= i < j < |ps|
        ensures ps[i].posting != ps[j].posting
      {
        assert ps[j] == ps[1..][j - 1];
        if i > 0 {
          assert ps[i] == ps[1..][i - 1];
        }
      }
      forall p | p in ps
        ensures p.posting !in t
      {
        if p != ps[0] {
          assert p in ps[1..];
        }
      }
    }
    if FreshIds(t, ps) {
      forall q | q in ps[1..]
        ensures q.posting !in t1
      {
        var j :| 0 <= j < |ps[1..]| && ps[1..][j] == q;
        assert ps[j + 1] == q;
      }
      forall i, j | 0 <= i < j < |ps[1..]|
        ensures ps[1..][i].posting != ps[1..][j].posting
      {
        assert ps[1..][i] == ps[i + 1] && ps[1..][j] == ps[j + 1];
      }
    }
  }

  /** The rows a successful `createPostingsForTransaction` adds are all
      stamped with its changeset; existing rows are untouched. */
  lemma CreatePostingsExtends(t: PostingTable, cs: ChangesetId, tid: TransactionId, ps: seq<PostingInput>)
    requires CreatePostings(t, cs, tid, ps).Ok?
    ensures Extends(t, CreatePostings(t, cs, tid, ps).value, cs)
    ensures TableValid(t) ==> TableValid(CreatePostings(t, cs, tid, ps).value)
  {
    var r := CreatePostings(t, cs, tid, ps).value;
    forall k | k in r && k !in t
      ensures r[k].chain == [Initial(0, r[k].chain[0].content, cs)]
    {
      var p :| p in ps && p.posting == k;
      assert r[k] == PostingRow(tid, p, cs);
    }
  }

  /** After creating, every new posting is current with its content at
      version 0, and the transaction's current postings gained exactly
      the new ids. */
  lemma CreatePostingsReadBack(t: PostingTable, cs: ChangesetId, tid: TransactionId, ps: seq<PostingInput>)
    requires CreatePostings(t, cs, tid, ps).Ok?
    ensures var r := CreatePostings(t, cs, tid, ps).value;
            && (forall p :: p in ps ==> CurrentIn(r, p.posting) == Some(Initial(0, ContentOf(p), cs)))
            && CurrentPostingIds(r, tid) == CurrentPostingIds(t, tid) + IdsOf(ps)
  {
    var r := CreatePostings(t, cs, tid, ps).value;
    forall k | k in CurrentPostingIds(t, tid) + IdsOf(ps)
      ensures k in CurrentPostingIds(r, tid)
    {
      if k in IdsOf(ps) {
        var p :| p in ps && p.posting == k;
        assert r[k] == PostingRow(tid, p, cs);
      }
    }
    forall k | k in CurrentPostingIds(r, tid)
      ensures k in CurrentPostingIds(t, tid) + IdsOf(ps)
    {
    }
  }

  //// Deleting and updating several postings

  /** The table after every posting of `ids` got a deleted version stamped
      with `cs`. */
  function DeletePostingsIn(t: PostingTable, ids: set<PostingId>, cs: ChangesetId): (r: PostingTable)
    ensures r.Keys == t.Keys
  {
    map k | k in t :: if k in ids then t[k].(chain := DeleteChain(t[k].chain, cs)) else t[k]
  }

  /** The source's loop: `deletePosting` for each id in the order the rows came. */
  function DeleteEach(t: PostingTable, cs: ChangesetId, ids: seq<PostingId>): PostingTable
    decreases |ids|
  {
    if |ids| == 0 then t else DeleteEach(DeletePosting(t, cs, ids[0]), cs, ids[1..])
  }

  /** The order in which the rows arrive does not matter: deleting them one
      by one, in any order without repeats, gives the bulk result. */
  lemma {:induction false} DeleteEachIsBulk(t: PostingTable, cs: ChangesetId, ids: seq<PostingId>)
    requires forall i, j :: 0 <= i < j < |ids| ==> ids[i] != ids[j]
    ensures DeleteEach(t, cs, ids) == DeletePostingsIn(t, (set k | k in ids), cs)
    decreases |ids|
  {
    if |ids| > 0 {
      var t1 := DeletePosting(t, cs, ids[0]);
      var rest := set k | k in ids[1..];
      forall i, j | 0 <= i < j < |ids[1..]|
        ensures ids[1..][i] != ids[1..][j]
      {
        assert ids[1..][i] == ids[i + 1] && ids[1..][j] == ids[j + 1];
      }
      DeleteEachIsBulk(t1, cs, ids[1..]);
      forall j | 0 <= j < |ids[1..]|
        ensures ids[1..][j] != ids[0]
      {
        assert ids[1..][j] == ids[j + 1];
      }
      assert (set k | k in ids) == {ids[0]} + rest by {
        forall k | k in ids
          ensures k == ids[0] || k in rest
        {
          var j :| 0 <= j < |ids| && ids[j] == k;
          if j > 0 {
            assert ids[1..][j - 1] == k;
          }
        }
      }
    }
  }

  /** Deleting keeps every chain valid and stamps only `cs`. */
  lemma DeletePostingsInExtends(t: PostingTable, ids: set<PostingId>, cs: ChangesetId)
    requires TableValid(t)
    ensures Extends(t, DeletePostingsIn(t, ids, cs), cs)
    ensures TableValid(DeletePostingsIn(t, ids, cs))
  {
    var r := DeletePostingsIn(t, ids, cs);
    forall k | k in t
      ensures Grows(t[k], r[k], cs) && ChainValid(r[k].chain)
    {
    }
  }

  /** The source's update loop: `updatePosting` for each posting in turn. */
  function UpdatePostings(t: PostingTable, cs: ChangesetId, ps: seq<PostingInput>): (r: PostingTable)
    ensures r.Keys == t.Keys
    ensures forall k :: k in t && k !in IdsOf(ps) ==> r[k] == t[k]
    ensures forall k :: k in t ==> r[k].fixed == t[k].fixed
    ensures DistinctIds(ps) ==> forall p :: p in ps && p.posting in t ==>
              r[p.posting] == t[p.posting].(chain := UpdateChain(t[p.posting].chain, ContentOf(p), cs))
    decreases |ps|
  {
    if |ps| == 0 then t
    else
      var t1 := UpdatePosting(t, cs, ps[0]);
      var r := UpdatePostings(t1, cs, ps[1..]);
      assert forall q :: q in ps ==> q == ps[0] || q in ps[1..];
      assert IdsOf(ps) == {ps[0].posting} + IdsOf(ps[1..]);
      if DistinctIds(ps) then
        DistinctTail(ps);
        forall q | q in ps[1..]
          ensures q.posting != ps[0].posting
        {
          var j :| 0 <= j < |ps[1..]| && ps[1..][j] == q;
          assert ps[j + 1] == q;
        }
        r
      else r
  }

  lemma DistinctTail(ps: seq<PostingInput>)
    requires DistinctIds(ps) && |ps| > 0
    ensures DistinctIds(ps[1..])
  {
    forall i, j | 0 <= i < j < |ps[1..]|
      ensures ps[1..][i].posting != ps[1..][j].posting
    {
      assert ps[1..][i] == ps[i + 1] && ps[1..][j] == ps[j + 1];
    }
  }

  /** Updating keeps every chain valid and stamps only `cs`. */
  lemma {:induction false} UpdatePostingsExtends(t: PostingTable, cs: ChangesetId, ps: seq<PostingInput>)
    requires TableValid(t)
    ensures Extends(t, UpdatePostings(t, cs, ps), cs)
    ensures TableValid(UpdatePostings(t, cs, ps))
    decreases |ps|
  {
    if |ps| == 0 {
      ExtendsReflexive(t, cs);
    } else {
      var t1 := UpdatePosting(t, cs, ps[0]);
      UpdateInExtends(t, ps[0].posting, ContentOf(ps[0]), cs);
      UpdatePostingsExtends(t1, cs, ps[1..]);
      ExtendsTransitive(t, t1, UpdatePostings(t1, cs, ps[1..]), cs);
    }
  }

  //// The transaction-level operations

  /** `deletePostingsForTransaction`: a deleted version for every current
      posting of the transaction. */
  function DeletePostingsForTransaction(t: PostingTable, cs: ChangesetId, tid: TransactionId): (r: PostingTable)
    ensures r.Keys == t.Keys
    ensures forall k :: k in t ==> r[k].fixed == t[k].fixed
    ensures forall k :: k in t && t[k].fixed != tid ==> r[k] == t[k]
    ensures forall k :: k in t && k !in CurrentPostingIds(t, tid) ==> r[k] == t[k]
  {
    DeletePostingsIn(t, CurrentPostingIds(t, tid), cs)
  }

  /** Exactly the transaction's current postings are soft-deleted: each gets
      one deleted version `prev + 1` carrying its values forward, stamped
      with `cs`, on top of its history; afterwards the transaction has no
      current posting, and every other row, including the transaction's
      postings that were already deleted, is exactly as before. */
  lemma DeletePostingsForTransactionEmpties(t: PostingTable, cs: ChangesetId, tid: TransactionId)
    requires TableValid(t)
    ensures var r := DeletePostingsForTransaction(t, cs, tid);
            && CurrentPostingIds(r, tid) == {}
            && (forall k :: k in t && k !in CurrentPostingIds(t, tid) ==> r[k] == t[k])
            && (forall k :: k in CurrentPostingIds(t, tid) ==>
                  && AppendedTo(t[k].chain, r[k].chain)
                  && MostRecent(r[k].chain)
                     == Some(Last(t[k].chain).(number := Last(t[k].chain).number + 1,
                                               isDeleted := true, changeset := cs)))
  {
  }

  //// The reconcile

  /** Whether a fetched row and a supplied posting count as the same
      posting: the comparison `_.difference` and `_.intersection` make. */
  type Same = (PostingEntity, PostingInput) -> bool

  /** Some supplied posting is the same as row `e`. */
  predicate InNew(e: PostingEntity, ps: seq<PostingInput>, same: Same) {
    exists p :: p in ps && same(e, p)
  }

  /** Some fetched row is the same as posting `p`. */
  predicate InOld(held: set<PostingEntity>, p: PostingInput, same: Same) {
    exists e :: e in held && same(e, p)
  }

  /** `_.difference(oldPostings, newPostings)`: the rows to delete. */
  function Gone(held: set<PostingEntity>, ps: seq<PostingInput>, same: Same): (r: set<PostingEntity>)
    ensures forall e :: e in r <==> e in held && !InNew(e, ps, same)
  {
    set e | e in held && !InNew(e, ps, same)
  }

  /** `_.difference(newPostings, oldPostings)`: the postings to create, in
      the order supplied. */
  function Created(held: set<PostingEntity>, ps: seq<PostingInput>, same: Same): (r: seq<PostingInput>)
    ensures forall p :: p in r <==> p in ps && !InOld(held, p, same)
    ensures DistinctIds(ps) ==> DistinctIds(r)
    decreases |ps|
  {
    if |ps| == 0 then []
    else
      var rest := Created(held, ps[1..], same);
      assert forall q :: q in ps ==> q == ps[0] || q in ps[1..];
      if DistinctIds(ps) then
        DistinctTail(ps);
        HeadNotInTail(ps, rest);
        if InOld(held, ps[0], same) then rest else [ps[0]] + rest
      else if InOld(held, ps[0], same) then rest else [ps[0]] + rest
  }

  /** `_.intersection(newPostings, oldPostings)`: the postings to update,
      in the order supplied. */
  function Kept(held: set<PostingEntity>, ps: seq<PostingInput>, same: Same): (r: seq<PostingInput>)
    ensures forall p :: p in r <==> p in ps && InOld(held, p, same)
    ensures DistinctIds(ps) ==> DistinctIds(r)
    decreases |ps|
  {
    if |ps| == 0 then []
    else
      var rest := Kept(held, ps[1..], same);
      assert forall q :: q in ps ==> q == ps[0] || q in ps[1..];
      if DistinctIds(ps) then
        DistinctTail(ps);
        HeadNotInTail(ps, rest);
        if InOld(held, ps[0], same) then [ps[0]] + rest else rest
      else if InOld(held, ps[0], same) then [ps[0]] + rest else rest
  }

  /** With distinct ids, a list drawn from the tail may follow the head. */
  lemma HeadNotInTail(ps: seq<PostingInput>, rest: seq<PostingInput>)
    requires DistinctIds(ps) && |ps| > 0
    requires DistinctIds(rest) && forall q :: q in rest ==> q in ps[1..]
    ensures DistinctIds([ps[0]] + rest)
  {
    var r := [ps[0]] + rest;
    forall i, j | 0 <= i < j < |r|
      ensures r[i].posting != r[j].posting
    {
      if i == 0 {
        assert r[j] == rest[j - 1] && rest[j - 1] in rest;
        var k :| 0 <= k < |ps[1..]| && ps[1..][k] == r[j];
        assert ps[k + 1] == r[j];
      } else {
        assert r[i] == rest[i - 1] && r[j] == rest[j - 1];
      }
    }
  }

  /** For any notion of sameness the three groups split the work: every
      supplied posting is created or updated and not both; every fetched
      row is deleted or is the same as an updated posting and not both; and
      the groups draw only on the fetched rows and the supplied postings. */
  lemma SplitIsPartition(held: set<PostingEntity>, ps: seq<PostingInput>, same: Same)
    ensures forall p :: p in ps ==> (p in Created(held, ps, same) <==> p !in Kept(held, ps, same))
    ensures forall p :: p in Created(held, ps, same) || p in Kept(held, ps, same) ==> p in ps
    ensures forall e :: e in held ==>
              (e in Gone(held, ps, same) <==> !exists p :: p in Kept(held, ps, same) && same(e, p))
    ensures Gone(held, ps, same) <= held
  {
    forall e | e in held && e !in Gone(held, ps, same)
      ensures exists p :: p in Kept(held, ps, same) && same(e, p)
    {
      var p :| p in ps && same(e, p);
      assert p in Kept(held, ps, same);
    }
  }

  /** `updatePostingsForTransaction` for a given notion of sameness: fetch
      the current rows, delete the gone ones, create the new ones, update
      the kept ones, all under the caller's changeset. */
  function ReconcileWith(t: PostingTable, cs: ChangesetId, tid: TransactionId, ps: seq<PostingInput>, same: Same): (r: Result<PostingTable, Error>)
    ensures r.Ok? <==> FreshIds(t, Created(GetPostingsByTransactionId(t, tid), ps, same))
    ensures r.Err? ==> r.error == DuplicateKey(Postings)
  {
    var held := GetPostingsByTransactionId(t, tid);
    var t1 := DeletePostingsIn(t, RowIds(Gone(held, ps, same)), cs);
    var t2 :- CreatePostings(t1, cs, tid, Created(held, ps, same));
    Ok(UpdatePostings(t2, cs, Kept(held, ps, same)))
  }

  /** SameValueZero on objects is identity, and a fetched row is a new
      object, never one the caller passed. */
  const ByReference: Same := (e: PostingEntity, p: PostingInput) => false

  /** The evidently intended comparison: the same posting id. */
  const ById: Same := (e: PostingEntity, p: PostingInput) => e.posting == p.posting

  /** `updatePostingsForTransaction` as written, comparing by reference. */
  function UpdatePostingsForTransaction(t: PostingTable, cs: ChangesetId, tid: TransactionId, ps: seq<PostingInput>): (r: Result<PostingTable, Error>)
    ensures r.Ok? <==> FreshIds(t, ps)
    ensures r.Err? ==> r.error == DuplicateKey(Postings)
    ensures r.Ok? ==>
      && t.Keys <= r.value.Keys
      && (forall k :: k in t ==> r.value[k].fixed == t[k].fixed)
      && (forall k :: k in t && t[k].fixed != tid ==> r.value[k] == t[k])
      && (forall k :: k in r.value && k !in t ==> r.value[k].fixed == tid)
  {
    ReferenceSplit(GetPostingsByTransactionId(t, tid), ps);
    if ReconcileWith(t, cs, tid, ps, ByReference).Ok? then
      ReconcileFrame(t, cs, tid, ps, ByReference);
      ReconcileWith(t, cs, tid, ps, ByReference)
    else ReconcileWith(t, cs, tid, ps, ByReference)
  }

  /** By reference nothing matches: every fetched row is deleted, every
      supplied posting is created, and none is updated. */
  lemma {:induction false} ReferenceSplit(held: set<PostingEntity>, ps: seq<PostingInput>)
    ensures Gone(held, ps, ByReference) == held
    ensures Created(held, ps, ByReference) == ps
    ensures Kept(held, ps, ByReference) == []
    decreases |ps|
  {
    if |ps| > 0 {
      ReferenceSplit(held, ps[1..]);
      assert !InOld(held, ps[0], ByReference);
      assert ps == [ps[0]] + ps[1..];
    }
  }

  /** Editing a posting keeps its id; as written this aborts the update with
      a duplicate key, because the kept id is inserted again. */
  lemma EditedPostingAbortsUpdate(t: PostingTable, cs: ChangesetId, tid: TransactionId, p: PostingInput)
    requires p.posting in CurrentPostingIds(t, tid)
    ensures UpdatePostingsForTransaction(t, cs, tid, [p]) == Err(DuplicateKey(Postings))
  {
    assert p in [p];
  }

  /** The reconcile matching rows and postings by id. */
  function UpdatePostingsById(t: PostingTable, cs: ChangesetId, tid: TransactionId, ps: seq<PostingInput>): (r: Result<PostingTable, Error>)
    ensures r.Ok? <==> FreshIds(t, Created(GetPostingsByTransactionId(t, tid), ps, ById))
    ensures r.Err? ==> r.error == DuplicateKey(Postings)
    ensures r.Ok? ==>
      && t.Keys <= r.value.Keys
      && (forall k :: k in t ==> r.value[k].fixed == t[k].fixed)
      && (forall k :: k in t && t[k].fixed != tid ==> r.value[k] == t[k])
      && (forall k :: k in r.value && k !in t ==> r.value[k].fixed == tid)
  {
    ByIdGroups(t, tid, ps);
    if ReconcileWith(t, cs, tid, ps, ById).Ok? then
      ReconcileFrame(t, cs, tid, ps, ById);
      ReconcileWith(t, cs, tid, ps, ById)
    else ReconcileWith(t, cs, tid, ps, ById)
  }

  /** By id, a posting is kept exactly when its id is a current posting of
      the transaction, and the rows deleted are the current ones whose id
      is no longer supplied. */
  lemma ByIdGroups(t: PostingTable, tid: TransactionId, ps: seq<PostingInput>)
    ensures var held := GetPostingsByTransactionId(t, tid);
            && (forall p :: InOld(held, p, ById) <==> p.posting in CurrentPostingIds(t, tid))
            && RowIds(Gone(held, ps, ById)) == CurrentPostingIds(t, tid) - IdsOf(ps)
  {
    var held := GetPostingsByTransactionId(t, tid);
    forall p: PostingInput | p.posting in CurrentPostingIds(t, tid)
      ensures InOld(held, p, ById)
    {
      var k := p.posting;
      assert ById(PostingEntity(k, tid, Current(t[k].chain).value), p);
    }
    forall k | k in CurrentPostingIds(t, tid) - IdsOf(ps)
      ensures k in RowIds(Gone(held, ps, ById))
    {
      var e := PostingEntity(k, tid, Current(t[k].chain).value);
      assert e in Gone(held, ps, ById);
    }
    forall k | k in RowIds(Gone(held, ps, ById))
      ensures k in CurrentPostingIds(t, tid) - IdsOf(ps)
    {
      var e :| e in Gone(held, ps, ById) && e.posting == k;
      forall p | p in ps
        ensures p.posting != k
      {
        assert !ById(e, p);
      }
    }
  }

  /** Editing a posting by id succeeds and appends a version to it. */
  lemma EditedPostingIsUpdated(t: PostingTable, cs: ChangesetId, tid: TransactionId, p: PostingInput)
    requires TableValid(t)
    requires p.posting in CurrentPostingIds(t, tid)
    ensures UpdatePostingsById(t, cs, tid, [p]).Ok?
    ensures CurrentIn(UpdatePostingsById(t, cs, tid, [p]).value, p.posting)
            == Some(Version(Last(t[p.posting].chain).number + 1, ContentOf(p), false, true, cs))
  {
    var held := GetPostingsByTransactionId(t, tid);
    ByIdGroups(t, tid, [p]);
    assert [p][0] == p && [p][1..] == [];
    assert Created(held, [p], ById) == [];
    assert p in [p];
    ByIdListed(t, cs, tid, [p], p);
  }

  /** After a by-id reconcile the transaction's current postings are
      exactly the new list, each with its new content, and a posting kept
      by id keeps its earlier versions. */
  lemma UpdatePostingsByIdReadBack(t: PostingTable, cs: ChangesetId, tid: TransactionId, ps: seq<PostingInput>)
    requires TableValid(t) && DistinctIds(ps)
    requires UpdatePostingsById(t, cs, tid, ps).Ok?
    ensures var r := UpdatePostingsById(t, cs, tid, ps).value;
            && CurrentPostingIds(r, tid) == IdsOf(ps)
            && (forall p :: p in ps ==> CurrentIn(r, p.posting).Some? && CurrentIn(r, p.posting).value.content == ContentOf(p))
            && (forall p :: p in ps && p.posting in CurrentPostingIds(t, tid) ==>
                  AppendedTo(t[p.posting].chain, r[p.posting].chain))
  {
    var r := UpdatePostingsById(t, cs, tid, ps).value;
    ByIdGroups(t, tid, ps);
    forall p | p in ps
      ensures p.posting in r && r[p.posting].fixed == tid
      ensures CurrentIn(r, p.posting).Some? && CurrentIn(r, p.posting).value.content == ContentOf(p)
      ensures p.posting in CurrentPostingIds(t, tid) ==> AppendedTo(t[p.posting].chain, r[p.posting].chain)
    {
      ByIdListed(t, cs, tid, ps, p);
    }
    forall k | k in CurrentPostingIds(r, tid)
      ensures k in IdsOf(ps)
    {
      if k !in IdsOf(ps) {
        ByIdUnlisted(t, cs, tid, ps, k);
      }
    }
  }

  /** A listed posting ends up current with its new content. */
  lemma ByIdListed(t: PostingTable, cs: ChangesetId, tid: TransactionId, ps: seq<PostingInput>, p: PostingInput)
    requires TableValid(t) && DistinctIds(ps) && p in ps
    requires UpdatePostingsById(t, cs, tid, ps).Ok?
    ensures var r := UpdatePostingsById(t, cs, tid, ps).value;
            && p.posting in r && r[p.posting].fixed == tid
            && CurrentIn(r, p.posting).Some? && CurrentIn(r, p.posting).value.content == ContentOf(p)
            && (p.posting in CurrentPostingIds(t, tid) ==>
                  && AppendedTo(t[p.posting].chain, r[p.posting].chain)
                  && CurrentIn(r, p.posting) == Some(Version(Last(t[p.posting].chain).number + 1, ContentOf(p), false, true, cs)))
  {
    var held := GetPostingsByTransactionId(t, tid);
    ByIdGroups(t, tid, ps);
    var t1 := DeletePostingsIn(t, RowIds(Gone(held, ps, ById)), cs);
    var t2 := CreatePostings(t1, cs, tid, Created(held, ps, ById)).value;
    if p.posting in CurrentPostingIds(t, tid) {
      assert p in Kept(held, ps, ById);
      KeptPostingUpdated(t, t2, cs, Kept(held, ps, ById), p);
    } else {
      assert p in Created(held, ps, ById);
      assert p.posting !in IdsOf(Kept(held, ps, ById));
      NewPostingCreated(t2, cs, tid, Kept(held, ps, ById), p);
    }
  }

  /** A posting updated in place: its new version is current and its
      history is kept. */
  lemma KeptPostingUpdated(t: PostingTable, t2: PostingTable, cs: ChangesetId, m: seq<PostingInput>, p: PostingInput)
    requires TableValid(t) && DistinctIds(m) && p in m
    requires p.posting in t && p.posting in t2 && t2[p.posting] == t[p.posting]
    ensures var r := UpdatePostings(t2, cs, m);
            && p.posting in r && r[p.posting].fixed == t[p.posting].fixed
            && CurrentIn(r, p.posting) == Some(Version(Last(t[p.posting].chain).number + 1, ContentOf(p), false, true, cs))
            && AppendedTo(t[p.posting].chain, r[p.posting].chain)
  {
    ReadAfterUpdate(t[p.posting].chain, ContentOf(p), cs);
  }

  /** A posting created by the reconcile and not updated after. */
  lemma NewPostingCreated(t2: PostingTable, cs: ChangesetId, tid: TransactionId, m: seq<PostingInput>, p: PostingInput)
    requires p.posting in t2 && t2[p.posting] == PostingRow(tid, p, cs)
    requires p.posting !in IdsOf(m)
    ensures var r := UpdatePostings(t2, cs, m);
            && p.posting in r && r[p.posting].fixed == tid
            && CurrentIn(r, p.posting) == Some(Initial(0, ContentOf(p), cs))
  {
  }

  /** An unlisted posting of the transaction is no longer current. */
  lemma ByIdUnlisted(t: PostingTable, cs: ChangesetId, tid: TransactionId, ps: seq<PostingInput>, k: PostingId)
    requires TableValid(t) && k !in IdsOf(ps)
    requires UpdatePostingsById(t, cs, tid, ps).Ok?
    ensures k !in CurrentPostingIds(UpdatePostingsById(t, cs, tid, ps).value, tid)
  {
    var held := GetPostingsByTransactionId(t, tid);
    ByIdGroups(t, tid, ps);
    var t1 := DeletePostingsIn(t, RowIds(Gone(held, ps, ById)), cs);
    var t2 := CreatePostings(t1, cs, tid, Created(held, ps, ById)).value;
    var r := UpdatePostings(t2, cs, Kept(held, ps, ById));
    assert k !in IdsOf(Kept(held, ps, ById));
    assert k !in IdsOf(Created(held, ps, ById));
    if k in t {
      assert r[k] == t1[k];
      if k in CurrentPostingIds(t, tid) {
        ReadAfterDelete(t[k].chain, cs);
      }
    }
  }

  //// History

  /** The reconcile, when it succeeds, keeps every chain valid and adds only
      versions stamped with the caller's changeset, whatever the sameness. */
  lemma ReconcileExtends(t: PostingTable, cs: ChangesetId, tid: TransactionId, ps: seq<PostingInput>, same: Same)
    requires TableValid(t)
    requires ReconcileWith(t, cs, tid, ps, same).Ok?
    ensures Extends(t, ReconcileWith(t, cs, tid, ps, same).value, cs)
    ensures TableValid(ReconcileWith(t, cs, tid, ps, same).value)
  {
    var held := GetPostingsByTransactionId(t, tid);
    var gone := RowIds(Gone(held, ps, same));
    var t1 := DeletePostingsIn(t, gone, cs);
    DeletePostingsInExtends(t, gone, cs);
    CreatePostingsExtends(t1, cs, tid, Created(held, ps, same));
    var t2 := CreatePostings(t1, cs, tid, Created(held, ps, same)).value;
    UpdatePostingsExtends(t2, cs, Kept(held, ps, same));
    ExtendsTransitive(t, t1, t2, cs);
    ExtendsTransitive(t, t2, UpdatePostings(t2, cs, Kept(held, ps, same)), cs);
  }

  //// Frame

  /** Whatever the sameness, as long as no kept posting names a row of
      another transaction, the reconcile touches only this transaction's
      rows: every other row is exactly as before, no row changes owner,
      and every new row belongs to the transaction. */
  lemma ReconcileFrame(t: PostingTable, cs: ChangesetId, tid: TransactionId, ps: seq<PostingInput>, same: Same)
    requires ReconcileWith(t, cs, tid, ps, same).Ok?
    requires forall p :: p in Kept(GetPostingsByTransactionId(t, tid), ps, same) && p.posting in t ==>
               t[p.posting].fixed == tid
    ensures var r := ReconcileWith(t, cs, tid, ps, same).value;
            && t.Keys <= r.Keys
            && (forall k :: k in t ==> r[k].fixed == t[k].fixed)
            && (forall k :: k in t && t[k].fixed != tid ==> r[k] == t[k])
            && (forall k :: k in r && k !in t ==> r[k].fixed == tid)
  {
  }

  /** When the reconcile as written does succeed (every id is new), the
      transaction's current postings are exactly the new list. */
  lemma UpdatePostingsForTransactionReadBack(t: PostingTable, cs: ChangesetId, tid: TransactionId, ps: seq<PostingInput>)
    requires TableValid(t)
    requires UpdatePostingsForTransaction(t, cs, tid, ps).Ok?
    ensures CurrentPostingIds(UpdatePostingsForTransaction(t, cs, tid, ps).value, tid) == IdsOf(ps)
  {
    var held := GetPostingsByTransactionId(t, tid);
    ReferenceSplit(held, ps);
    assert RowIds(held) == CurrentPostingIds(t, tid);
    var t1 := DeletePostingsIn(t, CurrentPostingIds(t, tid), cs);
    DeletePostingsForTransactionEmpties(t, cs, tid);
    CreatePostingsReadBack(t1, cs, tid, ps);
  }
}

=== FILE: store.dfy ===
/** The relational store behind the database client, as immutable tables:
    the plan table, the five versioned entity tables, the permission table,
    the roots table, the two changeset tables, and the `node_label_seq`
    sequence. The schema itself is not part of this model; the columns here
    are the ones the operations read and write. */
module Store {
  import opened Wrappers
  import opened Ids
  import opened Hints
  import opened Decimal
  import opened Paths
  import opened Versioned

  datatype Plan = Plan(name: string, cost: int)

  /** A permission row, keyed by (user, budget); upserted, not versioned. */
  datatype Permission = Permission(canRead: bool, canWrite: bool, canShare: bool, canDelete: bool)

  /** A roots row: the node that is the (domain, layer) root of a budget. */
  datatype RootKey = RootKey(budget: BudgetId, domain: Domain, layer: Layer)

  datatype UserChangeset = UserChangeset(id: ChangesetId, user: UserId, hint: UserHint)
  datatype BudgetChangeset = BudgetChangeset(id: ChangesetId, user: UserId, budget: BudgetId, hint: BudgetHint)

  datatype UserContent = UserContent(fullName: string, displayName: string, email: string, plan: PlanId)
  datatype BudgetContent = BudgetContent(name: string)

  /** The immutable columns of a node. `parent` is the `parent_id` column,
      which no insert ever writes. */
  datatype NodeFixed = NodeFixed(budget: BudgetId, path: string, nodeLabel: nat, parent: Option<NodeId>)
  datatype NodeContent = NodeContent(name: string, openingDate: Date, closingDate: Option<Date>)

  datatype TransactionContent = TransactionContent(date: Date, description: string)
  datatype PostingContent = PostingContent(node: NodeId, amount: int, description: string)

  type UserTable = Table<UserId, (), UserContent>
  type BudgetTable = Table<BudgetId, (), BudgetContent>
  type NodeTable = Table<NodeId, NodeFixed, NodeContent>
  /** A transaction's fixed column is its budget. */
  type TransactionTable = Table<TransactionId, BudgetId, TransactionContent>
  /** A posting's fixed column is its transaction. */
  type PostingTable = Table<PostingId, TransactionId, PostingContent>

  datatype State = State(
    plans: map<PlanId, Plan>,
    users: UserTable,
    budgets: BudgetTable,
    nodes: NodeTable,
    transactions: TransactionTable,
    postings: PostingTable,
    permissions: map<(UserId, BudgetId), Permission>,
    roots: map<RootKey, NodeId>,
    userChangesets: seq<UserChangeset>,
    budgetChangesets: seq<BudgetChangeset>,
    /** The last value `nextval('node_label_seq')` returned; 0 before the first call. */
    lastLabel: nat)

  function Empty(): State {
    State(map[], map[], map[], map[], map[], map[], map[], map[], [], [], 0)
  }

  function UserChangesetIds(s: State): set<ChangesetId> {
    set c | c in s.userChangesets :: c.id
  }

  function BudgetChangesetIds(s: State): set<ChangesetId> {
    set c | c in s.budgetChangesets :: c.id
  }

  //// Invariant of every committed state

  /** Every node label was drawn from the sequence, and no two nodes share one. */
  ghost predicate LabelsFresh(s: State) {
    && (forall n :: n in s.nodes ==> 1 <= s.nodes[n].fixed.nodeLabel <= s.lastLabel)
    && (forall a, b :: a in s.nodes && b in s.nodes && a != b ==>
          s.nodes[a].fixed.nodeLabel != s.nodes[b].fixed.nodeLabel)
  }

  /** Every node's path ends in its own label, so the path alone tells the
      node apart from all others. */
  ghost predicate PathsEndInLabels(s: State) {
    forall n :: n in s.nodes ==> LabelOf(s.nodes[n].fixed.path) == Text(s.nodes[n].fixed.nodeLabel)
  }

  /** A root node of budget `b`: its path is its own label and its chain is
      the single version 1 it was created with. */
  ghost predicate IsRootRow(n: Identity<NodeFixed, NodeContent>, b: BudgetId) {
    && n.fixed.budget == b
    && n.fixed.path == Text(n.fixed.nodeLabel)
    && |n.chain| == 1
    && n.chain[0].number == 1
    && !n.chain[0].isDeleted
    && n.chain[0].isMostRecent
  }

  /** Every budget has its four roots, and every roots row names an untouched
      root node of that budget. */
  ghost predicate RootsValid(s: State) {
    && (forall k :: k in s.roots ==>
          && k.budget in s.budgets
          && s.roots[k] in s.nodes
          && IsRootRow(s.nodes[s.roots[k]], k.budget))
    && (forall b, d, l :: b in s.budgets ==> RootKey(b, d, l) in s.roots)
  }

  /** Every version row was written by a recorded changeset of its kind. */
  ghost predicate Provenance(s: State) {
    && StampedFrom(s.users, UserChangesetIds(s))
    && StampedFrom(s.budgets, BudgetChangesetIds(s))
    && StampedFrom(s.nodes, BudgetChangesetIds(s))
    && StampedFrom(s.transactions, BudgetChangesetIds(s))
    && StampedFrom(s.postings, BudgetChangesetIds(s))
  }

  ghost predicate ChainsValid(s: State) {
    && TableValid(s.users)
    && TableValid(s.budgets)
    && TableValid(s.nodes)
    && TableValid(s.transactions)
    && TableValid(s.postings)
  }

  ghost predicate Valid(s: State) {
    && ChainsValid(s)
    && Provenance(s)
    && LabelsFresh(s)
    && PathsEndInLabels(s)
    && RootsValid(s)
  }

  lemma EmptyValid()
    ensures Valid(Empty())
  {
  }
}

=== FILE: transactions.dfy ===
/** Budget transactions: a versioned entity owned by a budget, carrying a
    list of postings. Every mutation checks write access (deleting needs
    write, not delete), records one budget changeset, and writes the
    transaction's postings under that same changeset. */
module Transactions {
  import opened Wrappers
  import opened Ids
  import opened Hints
  import opened Failures
  import opened Versioned
  import opened Store
  import opened Utils
  import opened Permissions
  import opened Postings
  import opened DbClient

  /** `ITransactionEntity`: the current row with the current postings. */
  datatype TransactionEntity = TransactionEntity(
    transaction: TransactionId,
    budget: BudgetId,
    version: Version<TransactionContent>,
    postings: set<PostingEntity>)

  //// Mutations

  /** `createTransaction`: write access, a CreateTransaction changeset, the
      identity row under the budget, version 0, then the postings. */
  function CreateTransaction(s: State, user: UserId, budget: BudgetId, tid: TransactionId,
                             content: TransactionContent, ps: seq<PostingInput>): (r: Result<State, Error>)
    ensures r.Ok? <==> Holds(s, user, budget, Write) && tid !in s.transactions && FreshIds(s.postings, ps)
    ensures r.Err? ==> r.error == (if !Holds(s, user, budget, Write) then PermissionDenied(user, budget, Write)
                                   else if tid in s.transactions then DuplicateKey(Transactions)
                                   else DuplicateKey(Postings))
    ensures r.Ok? ==>
      var cs := NextBudgetChangeset(s);
      && r.value.budgetChangesets == s.budgetChangesets + [BudgetChangeset(cs, user, budget, BudgetHint.CreateTransaction)]
      && r.value.transactions == s.transactions[tid := Identity(budget, [Version(0, content, false, true, cs)])]
      && r.value.postings == CreatePostings(s.postings, cs, tid, ps).value
      && r.value == s.(budgetChangesets := r.value.budgetChangesets, transactions := r.value.transactions,
                       postings := r.value.postings)
  {
    var permitted := AssertUserCanWriteToBudget(s, user, budget);
    :- permitted;
    var (s1, cs) := CreateBudgetChangeset(s, user, budget, BudgetHint.CreateTransaction);
    var transactions :- Insert(s1.transactions, tid, budget, content, 0, cs, Transactions);
    var postings :- CreatePostings(s1.postings, cs, tid, ps);
    Ok(s1.(transactions := transactions, postings := postings))
  }

  /** `updateTransaction` for a given notion of posting sameness: write
      access, the transaction lock, an UpdateTransaction changeset, version
      `prev + 1` with the new date and description, then the reconcile. */
  function UpdateTransactionWith(s: State, user: UserId, budget: BudgetId, tid: TransactionId,
                                 content: TransactionContent, ps: seq<PostingInput>, same: Same): (r: Result<State, Error>)
    ensures r.Ok? <==> && Holds(s, user, budget, Write) && tid in s.transactions
                       && FreshIds(s.postings, Created(GetPostingsByTransactionId(s.postings, tid), ps, same))
    ensures r.Err? ==> r.error == (if !Holds(s, user, budget, Write) then PermissionDenied(user, budget, Write)
                                   else if tid !in s.transactions then NotFound(Transactions)
                                   else DuplicateKey(Postings))
    ensures r.Ok? ==>
      var cs := NextBudgetChangeset(s);
      && r.value.budgetChangesets == s.budgetChangesets + [BudgetChangeset(cs, user, budget, BudgetHint.UpdateTransaction)]
      && r.value.transactions == UpdateIn(s.transactions, tid, content, cs)
      && r.value.postings == ReconcileWith(s.postings, cs, tid, ps, same).value
      && r.value == s.(budgetChangesets := r.value.budgetChangesets, transactions := r.value.transactions,
                       postings := r.value.postings)
  {
    var permitted := AssertUserCanWriteToBudget(s, user, budget);
    :- permitted;
    :- Lock(s.transactions, tid, Transactions);
    var (s1, cs) := CreateBudgetChangeset(s, user, budget, BudgetHint.UpdateTransaction);
    var postings :- ReconcileWith(s1.postings, cs, tid, ps, same);
    Ok(s1.(transactions := UpdateIn(s1.transactions, tid, content, cs), postings := postings))
  }

  /** `updateTransaction` as written: postings are compared by reference,
      so it succeeds only when every supplied posting id is new. */
  function UpdateTransaction(s: State, user: UserId, budget: BudgetId, tid: TransactionId,
                             content: TransactionContent, ps: seq<PostingInput>): (r: Result<State, Error>)
    ensures r.Ok? <==> Holds(s, user, budget, Write) && tid in s.transactions && FreshIds(s.postings, ps)
    ensures r.Err? ==> r.error == (if !Holds(s, user, budget, Write) then PermissionDenied(user, budget, Write)
                                   else if tid !in s.transactions then NotFound(Transactions)
                                   else DuplicateKey(Postings))
  {
    ReferenceSplit(GetPostingsByTransactionId(s.postings, tid), ps);
    UpdateTransactionWith(s, user, budget, tid, content, ps, ByReference)
  }

  /** `updateTransaction` with postings matched by id. */
  function UpdateTransactionById(s: State, user: UserId, budget: BudgetId, tid: TransactionId,
                                 content: TransactionContent, ps: seq<PostingInput>): (r: Result<State, Error>)
    ensures r.Ok? <==> && Holds(s, user, budget, Write) && tid in s.transactions
                       && FreshIds(s.postings, Created(GetPostingsByTransactionId(s.postings, tid), ps, ById))
  {
    UpdateTransactionWith(s, user, budget, tid, content, ps, ById)
  }

  /** `deleteTransaction`: write access (not delete), the transaction lock, a
      DeleteTransaction changeset, version `prev + 1` carrying date and
      description forward flagged deleted, then every current posting deleted. */
  function DeleteTransaction(s: State, user: UserId, budget: BudgetId, tid: TransactionId): (r: Result<State, Error>)
    ensures r.Ok? <==> Holds(s, user, budget, Write) && tid in s.transactions
    ensures r.Err? ==> r.error == (if !Holds(s, user, budget, Write) then PermissionDenied(user, budget, Write)
                                   else NotFound(Transactions))
    ensures r.Ok? ==>
      var cs := NextBudgetChangeset(s);
      && r.value.budgetChangesets == s.budgetChangesets + [BudgetChangeset(cs, user, budget, BudgetHint.DeleteTransaction)]
      && r.value.transactions == DeleteIn(s.transactions, tid, cs)
      && r.value.postings == DeletePostingsForTransaction(s.postings, cs, tid)
      && r.value == s.(budgetChangesets := r.value.budgetChangesets, transactions := r.value.transactions,
                       postings := r.value.postings)
  {
    var permitted := AssertUserCanWriteToBudget(s, user, budget);
    :- permitted;
    :- Lock(s.transactions, tid, Transactions);
    var (s1, cs) := CreateBudgetChangeset(s, user, budget, BudgetHint.DeleteTransaction);
    Ok(s1.(transactions := DeleteIn(s1.transactions, tid, cs),
           postings := DeletePostingsForTransaction(s1.postings, cs, tid)))
  }

  //// Reads

  /** `getTransactionById`: read access, then the current row with its
      current postings, or null. The transaction's budget is not compared
      with `budget`. */
  function GetTransactionById(s: State, user: UserId, budget: BudgetId, tid: TransactionId): (r: Result<Option<TransactionEntity>, Error>)
    ensures r.Ok? <==> Holds(s, user, budget, Read)
    ensures r.Err? ==> r.error == PermissionDenied(user, budget, Read)
    ensures r.Ok? ==> (r.value.None? <==> CurrentIn(s.transactions, tid).None?)
    ensures r.Ok? && r.value.Some? ==>
      && r.value.value.transaction == tid
      && r.value.value.budget == s.transactions[tid].fixed
      && r.value.value.version == CurrentIn(s.transactions, tid).value
      && !r.value.value.version.isDeleted
      && RowIds(r.value.value.postings) == CurrentPostingIds(s.postings, tid)
  {
    var permitted := AssertUserCanReadBudget(s, user, budget);
    :- permitted;
    FetchedRowIds(s.postings, tid);
    Ok(match CurrentIn(s.transactions, tid)
       case None => None
       case Some(v) => Some(TransactionEntity(tid, s.transactions[tid].fixed, v, GetPostingsByTransactionId(s.postings, tid))))
  }

  //// Properties

  /** The permission check comes first, so a denied call rolls back having
      written nothing, and rethrows the permission error. */
  lemma DeniedCallWritesNothing(s: State, user: UserId, budget: BudgetId, tid: TransactionId,
                                content: TransactionContent, ps: seq<PostingInput>)
    requires !Holds(s, user, budget, Write)
    ensures WithDatabaseTransaction(s, [(x: State) => CreateTransaction(x, user, budget, tid, content, ps)])
            == (s, Some(PermissionDenied(user, budget, Write)))
    ensures WithDatabaseTransaction(s, [(x: State) => UpdateTransaction(x, user, budget, tid, content, ps)])
            == (s, Some(PermissionDenied(user, budget, Write)))
    ensures WithDatabaseTransaction(s, [(x: State) => DeleteTransaction(x, user, budget, tid)])
            == (s, Some(PermissionDenied(user, budget, Write)))
  {
  }

  /** Deleting a transaction needs the write flag and not the delete flag. */
  lemma WriteSufficesToDelete(s: State, user: UserId, budget: BudgetId, tid: TransactionId)
    requires (user, budget) in s.permissions && s.permissions[(user, budget)].canWrite
    requires tid in s.transactions
    ensures DeleteTransaction(s, user, budget, tid).Ok?
  {
  }

  /** A new transaction reads back at version 0 with its content, and its
      current postings gained exactly the supplied ids. */
  lemma ReadAfterCreateTransaction(s: State, user: UserId, budget: BudgetId, tid: TransactionId,
                                   content: TransactionContent, ps: seq<PostingInput>, reader: UserId)
    requires CreateTransaction(s, user, budget, tid, content, ps).Ok?
    requires Holds(s, reader, budget, Read)
    ensures var s' := CreateTransaction(s, user, budget, tid, content, ps).value;
            var e := GetTransactionById(s', reader, budget, tid);
            && e.Ok? && e.value.Some?
            && e.value.value.budget == budget
            && e.value.value.version == Version(0, content, false, true, NextBudgetChangeset(s))
            && RowIds(e.value.value.postings) == CurrentPostingIds(s.postings, tid) + IdsOf(ps)
  {
    var s' := CreateTransaction(s, user, budget, tid, content, ps).value;
    var cs := NextBudgetChangeset(s);
    ReadAfterCreate(0, content, cs);
    assert CurrentIn(s'.transactions, tid) == Some(Version(0, content, false, true, cs));
    CreatePostingsReadBack(s.postings, cs, tid, ps);
    assert CurrentPostingIds(s'.postings, tid) == CurrentPostingIds(s.postings, tid) + IdsOf(ps);
  }

  /** After an update matched by id, the transaction reads back one version
      later with the new content, and its current postings are exactly the
      supplied ones. */
  lemma ReadAfterUpdateTransactionById(s: State, user: UserId, budget: BudgetId, tid: TransactionId,
                                       content: TransactionContent, ps: seq<PostingInput>, reader: UserId)
    requires ChainsValid(s) && DistinctIds(ps)
    requires UpdateTransactionById(s, user, budget, tid, content, ps).Ok?
    requires Holds(s, reader, budget, Read)
    ensures var s' := UpdateTransactionById(s, user, budget, tid, content, ps).value;
            var e := GetTransactionById(s', reader, budget, tid);
            && e.Ok? && e.value.Some?
            && e.value.value.version
               == Version(Last(s.transactions[tid].chain).number + 1, content, false, true, NextBudgetChangeset(s))
            && RowIds(e.value.value.postings) == IdsOf(ps)
  {
    var s' := UpdateTransactionById(s, user, budget, tid, content, ps).value;
    var cs := NextBudgetChangeset(s);
    ReadAfterUpdate(s.transactions[tid].chain, content, cs);
    assert CurrentIn(s'.transactions, tid)
           == Some(Version(Last(s.transactions[tid].chain).number + 1, content, false, true, cs));
    UpdatePostingsByIdReadBack(s.postings, cs, tid, ps);
    assert CurrentPostingIds(s'.postings, tid) == IdsOf(ps);
  }

  /** An update touches one transaction: every other transaction and every
      posting of another transaction is exactly as before, and each new
      posting row belongs to the updated transaction. */
  lemma UpdateTransactionFrame(s: State, user: UserId, budget: BudgetId, tid: TransactionId,
                               content: TransactionContent, ps: seq<PostingInput>)
    requires UpdateTransaction(s, user, budget, tid, content, ps).Ok?
    ensures var s' := UpdateTransaction(s, user, budget, tid, content, ps).value;
            && (forall k :: k in s.transactions && k != tid ==> s'.transactions[k] == s.transactions[k])
            && (forall k :: k in s.postings && s.postings[k].fixed != tid ==> s'.postings[k] == s.postings[k])
            && (forall k :: k in s'.postings && k !in s.postings ==> s'.postings[k].fixed == tid)
  {
  }

  /** The same frame for the update matched by id. */
  lemma UpdateTransactionByIdFrame(s: State, user: UserId, budget: BudgetId, tid: TransactionId,
                                   content: TransactionContent, ps: seq<PostingInput>)
    requires UpdateTransactionById(s, user, budget, tid, content, ps).Ok?
    ensures var s' := UpdateTransactionById(s, user, budget, tid, content, ps).value;
            && (forall k :: k in s.transactions && k != tid ==> s'.transactions[k] == s.transactions[k])
            && (forall k :: k in s.postings && s.postings[k].fixed != tid ==> s'.postings[k] == s.postings[k])
            && (forall k :: k in s'.postings && k !in s.postings ==> s'.postings[k].fixed == tid)
  {
  }

  /** After a delete the transaction reads as null and has no current posting. */
  lemma DeletedTransactionReadsNull(s: State, user: UserId, budget: BudgetId, tid: TransactionId, reader: UserId)
    requires ChainsValid(s)
    requires DeleteTransaction(s, user, budget, tid).Ok?
    requires Holds(s, reader, budget, Read)
    ensures var s' := DeleteTransaction(s, user, budget, tid).value;
            && GetTransactionById(s', reader, budget, tid) == Ok(None)
            && CurrentPostingIds(s'.postings, tid) == {}
  {
    ReadAfterDelete(s.transactions[tid].chain, NextBudgetChangeset(s));
    DeletePostingsForTransactionEmpties(s.postings, NextBudgetChangeset(s), tid);
  }

  /** As written, resubmitting a transaction with one of its postings edited
      (same id, new amount) aborts with a duplicate posting key. */
  lemma EditingAPostingAbortsUpdate(s: State, user: UserId, budget: BudgetId, tid: TransactionId,
                                    content: TransactionContent, p: PostingInput)
    requires Holds(s, user, budget, Write) && tid in s.transactions
    requires p.posting in CurrentPostingIds(s.postings, tid)
    ensures UpdateTransaction(s, user, budget, tid, content, [p]) == Err(DuplicateKey(Postings))
  {
    assert p in [p];
  }

  /** Matched by id, the same call succeeds and appends a version to the posting. */
  lemma EditingAPostingById(s: State, user: UserId, budget: BudgetId, tid: TransactionId,
                            content: TransactionContent, p: PostingInput)
    requires ChainsValid(s)
    requires Holds(s, user, budget, Write) && tid in s.transactions
    requires p.posting in CurrentPostingIds(s.postings, tid)
    ensures UpdateTransactionById(s, user, budget, tid, content, [p]).Ok?
    ensures CurrentIn(UpdateTransactionById(s, user, budget, tid, content, [p]).value.postings, p.posting)
            == Some(Version(Last(s.postings[p.posting].chain).number + 1, ContentOf(p), false, true, NextBudgetChangeset(s)))
  {
    EditedPostingIsUpdated(s.postings, NextBudgetChangeset(s), tid, p);
  }

  //// Invariant preservation

  /** A step that writes only transactions and postings, under one fresh
      budget changeset, keeps every invariant. */
  lemma TransactionStepKeepsValid(s: State, s': State, cs: ChangesetId)
    requires Valid(s)
    requires cs !in BudgetChangesetIds(s) && BudgetChangesetIds(s') == BudgetChangesetIds(s) + {cs}
    requires Extends(s.transactions, s'.transactions, cs) && TableValid(s'.transactions)
    requires Extends(s.postings, s'.postings, cs) && TableValid(s'.postings)
    requires s' == s.(budgetChangesets := s'.budgetChangesets, transactions := s'.transactions, postings := s'.postings)
    ensures Valid(s')
  {
    var ids, ids' := BudgetChangesetIds(s), BudgetChangesetIds(s');
    ExtendsReflexive(s.budgets, cs);
    ExtendsReflexive(s.nodes, cs);
    StampedFromExtends(s.budgets, s'.budgets, cs, ids, ids');
    StampedFromExtends(s.nodes, s'.nodes, cs, ids, ids');
    StampedFromExtends(s.transactions, s'.transactions, cs, ids, ids');
    StampedFromExtends(s.postings, s'.postings, cs, ids, ids');
  }

  lemma CreateTransactionPreservesValid(s: State, user: UserId, budget: BudgetId, tid: TransactionId,
                                        content: TransactionContent, ps: seq<PostingInput>)
    requires Valid(s)
    requires CreateTransaction(s, user, budget, tid, content, ps).Ok?
    ensures Valid(CreateTransaction(s, user, budget, tid, content, ps).value)
  {
    var s' := CreateTransaction(s, user, budget, tid, content, ps).value;
    var cs := NextBudgetChangeset(s);
    InsertExtends(s.transactions, tid, budget, content, 0, cs, Transactions);
    InsertKeepsTableValid(s.transactions, tid, budget, content, 0, cs, Transactions);
    CreatePostingsExtends(s.postings, cs, tid, ps);
    TransactionStepKeepsValid(s, s', cs);
  }

  lemma UpdateTransactionWithPreservesValid(s: State, user: UserId, budget: BudgetId, tid: TransactionId,
                                            content: TransactionContent, ps: seq<PostingInput>, same: Same)
    requires Valid(s)
    requires UpdateTransactionWith(s, user, budget, tid, content, ps, same).Ok?
    ensures Valid(UpdateTransactionWith(s, user, budget, tid, content, ps, same).value)
  {
    var s' := UpdateTransactionWith(s, user, budget, tid, content, ps, same).value;
    var cs := NextBudgetChangeset(s);
    UpdateInExtends(s.transactions, tid, content, cs);
    ReconcileExtends(s.postings, cs, tid, ps, same);
    TransactionStepKeepsValid(s, s', cs);
  }

  lemma DeleteTransactionPreservesValid(s: State, user: UserId, budget: BudgetId, tid: TransactionId)
    requires Valid(s)
    requires DeleteTransaction(s, user, budget, tid).Ok?
    ensures Valid(DeleteTransaction(s, user, budget, tid).value)
  {
    var s' := DeleteTransaction(s, user, budget, tid).value;
    var cs := NextBudgetChangeset(s);
    DeleteInExtends(s.transactions, tid, cs);
    DeletePostingsInExtends(s.postings, CurrentPostingIds(s.postings, tid), cs);
    TransactionStepKeepsValid(s, s', cs);
  }
}

=== FILE: users.dfy ===
/** User accounts: a versioned entity whose mutations record a user
    changeset. No user operation consults the permission table. */
module Users {
  import opened Wrappers
  import opened Ids
  import opened Hints
  import opened Failures
  import opened Versioned
  import opened Store
  import opened Utils

  /** `createUser`: the identity row, one CreateUser changeset, and version 0. */
  function CreateUser(s: State, user: UserId, content: UserContent): (r: Result<State, Error>)
    ensures r.Ok? <==> user !in s.users
    ensures r.Err? ==> r.error == DuplicateKey(Users)
    ensures r.Ok? ==>
      var cs := NextUserChangeset(s);
      && r.value.userChangesets == s.userChangesets + [UserChangeset(cs, user, UserHint.CreateUser)]
      && user in r.value.users
      && r.value.users[user].chain == [Version(0, content, false, true, cs)]
      && Extends(s.users, r.value.users, cs)
      && r.value == s.(users := r.value.users, userChangesets := r.value.userChangesets)
  {
    var (s1, cs) := CreateUserChangeset(s, user, UserHint.CreateUser);
    var users :- Insert(s1.users, user, (), content, 0, cs, Users);
    Ok(s1.(users := users))
  }

  /** `updateUser`: lock the user row, record an UpdateUser changeset, and
      append version `prev + 1` with the new content. Only this user's rows
      have their most-recent flag cleared. */
  function UpdateUser(s: State, user: UserId, content: UserContent): (r: Result<State, Error>)
    ensures r.Ok? <==> user in s.users
    ensures r.Err? ==> r.error == NotFound(Users)
    ensures r.Ok? ==>
      var cs := NextUserChangeset(s);
      && r.value.userChangesets == s.userChangesets + [UserChangeset(cs, user, UserHint.UpdateUser)]
      && r.value.users.Keys == s.users.Keys
      && (forall u :: u in s.users && u != user ==> r.value.users[u] == s.users[u])
      && (ChainValid(s.users[user].chain) ==>
            && AppendedTo(s.users[user].chain, r.value.users[user].chain)
            && CurrentIn(r.value.users, user)
               == Some(Version(Last(s.users[user].chain).number + 1, content, false, true, cs)))
      && r.value == s.(users := r.value.users, userChangesets := r.value.userChangesets)
  {
    var found := Lock(s.users, user, Users);
    :- found;
    var (s1, cs) := CreateUserChangeset(s, user, UserHint.UpdateUser);
    Ok(s1.(users := UpdateIn(s1.users, user, content, cs)))
  }

  /** `deleteUser`: like an update, but the new version carries all four
      content fields forward and is flagged deleted. */
  function DeleteUser(s: State, user: UserId): (r: Result<State, Error>)
    ensures r.Ok? <==> user in s.users
    ensures r.Err? ==> r.error == NotFound(Users)
    ensures r.Ok? ==>
      var cs := NextUserChangeset(s);
      && r.value.userChangesets == s.userChangesets + [UserChangeset(cs, user, UserHint.DeleteUser)]
      && r.value.users.Keys == s.users.Keys
      && (forall u :: u in s.users && u != user ==> r.value.users[u] == s.users[u])
      && (ChainValid(s.users[user].chain) ==>
            var prev := Last(s.users[user].chain);
            && AppendedTo(s.users[user].chain, r.value.users[user].chain)
            && MostRecent(r.value.users[user].chain) == Some(Version(prev.number + 1, prev.content, true, true, cs))
            && CurrentIn(r.value.users, user) == None)
      && r.value == s.(users := r.value.users, userChangesets := r.value.userChangesets)
  {
    var found := Lock(s.users, user, Users);
    :- found;
    var (s1, cs) := CreateUserChangeset(s, user, UserHint.DeleteUser);
    Ok(s1.(users := DeleteIn(s1.users, user, cs)))
  }

  /** No user operation reads the permission table: its outcome is the same
      whatever permissions exist. */
  lemma UserOperationsIgnorePermissions(s: State, p: map<(UserId, BudgetId), Permission>, user: UserId, content: UserContent)
    ensures CreateUser(s.(permissions := p), user, content)
            == if CreateUser(s, user, content).Ok?
               then Ok(CreateUser(s, user, content).value.(permissions := p))
               else CreateUser(s, user, content)
    ensures UpdateUser(s.(permissions := p), user, content)
            == if UpdateUser(s, user, content).Ok?
               then Ok(UpdateUser(s, user, content).value.(permissions := p))
               else UpdateUser(s, user, content)
    ensures DeleteUser(s.(permissions := p), user)
            == if DeleteUser(s, user).Ok?
               then Ok(DeleteUser(s, user).value.(permissions := p))
               else DeleteUser(s, user)
  {
  }

  lemma CreateUserPreservesValid(s: State, user: UserId, content: UserContent)
    requires Valid(s)
    requires CreateUser(s, user, content).Ok?
    ensures Valid(CreateUser(s, user, content).value)
  {
    var s' := CreateUser(s, user, content).value;
    StampedFromExtends(s.users, s'.users, NextUserChangeset(s), UserChangesetIds(s), UserChangesetIds(s'));
  }

  lemma UpdateUserPreservesValid(s: State, user: UserId, content: UserContent)
    requires Valid(s)
    requires UpdateUser(s, user, content).Ok?
    ensures Valid(UpdateUser(s, user, content).value)
  {
    var s' := UpdateUser(s, user, content).value;
    var cs := NextUserChangeset(s);
    UpdateInExtends(s.users, user, content, cs);
    StampedFromExtends(s.users, s'.users, cs, UserChangesetIds(s), UserChangesetIds(s'));
  }

  lemma DeleteUserPreservesValid(s: State, user: UserId)
    requires Valid(s)
    requires DeleteUser(s, user).Ok?
    ensures Valid(DeleteUser(s, user).value)
  {
    var s' := DeleteUser(s, user).value;
    var cs := NextUserChangeset(s);
    DeleteInExtends(s.users, user, cs);
    StampedFromExtends(s.users, s'.users, cs, UserChangesetIds(s), UserChangesetIds(s'));
  }
}

=== FILE: utils.dfy ===
/** The changeset ledger and the single-row helper. Each changeset insert
    draws an identifier no existing changeset has (the source draws a uuid)
    and appends exactly one immutable row. */
module Utils {
  import opened Wrappers
  import opened Ids
  import opened Hints
  import opened Failures
  import opened Store

  function Max(a: nat, b: nat): nat {
    if a < b then b else a
  }

  /** An identifier above the identifier of every row of `log`. */
  function FreshId<T>(log: seq<T>, id: T -> ChangesetId): (r: ChangesetId)
    ensures forall c :: c in log ==> id(c) < r
    decreases |log|
  {
    if |log| == 0 then 0
    else
      assert forall c :: c in log ==> c in log[..|log| - 1] || c == log[|log| - 1];
      Max(FreshId(log[..|log| - 1], id), id(log[|log| - 1]) + 1)
  }

  function NextUserChangeset(s: State): (r: ChangesetId)
    ensures r !in UserChangesetIds(s)
  {
    FreshId(s.userChangesets, (c: UserChangeset) => c.id)
  }

  function NextBudgetChangeset(s: State): (r: ChangesetId)
    ensures r !in BudgetChangesetIds(s)
  {
    FreshId(s.budgetChangesets, (c: BudgetChangeset) => c.id)
  }

  /** Inserts one user changeset row (no budget) and returns its identifier.
      Existing changesets and every other table are untouched. */
  function CreateUserChangeset(s: State, user: UserId, hint: UserHint): (r: (State, ChangesetId))
    ensures r.1 !in UserChangesetIds(s)
    ensures r.0.userChangesets == s.userChangesets + [UserChangeset(r.1, user, hint)]
    ensures r.0 == s.(userChangesets := r.0.userChangesets)
    ensures UserChangesetIds(r.0) == UserChangesetIds(s) + {r.1}
  {
    var id := NextUserChangeset(s);
    (s.(userChangesets := s.userChangesets + [UserChangeset(id, user, hint)]), id)
  }

  /** Inserts one budget changeset row and returns its identifier. Existing
      changesets and every other table are untouched. */
  function CreateBudgetChangeset(s: State, user: UserId, budget: BudgetId, hint: BudgetHint): (r: (State, ChangesetId))
    ensures r.1 !in BudgetChangesetIds(s)
    ensures r.0.budgetChangesets == s.budgetChangesets + [BudgetChangeset(r.1, user, budget, hint)]
    ensures r.0 == s.(budgetChangesets := r.0.budgetChangesets)
    ensures BudgetChangesetIds(r.0) == BudgetChangesetIds(s) + {r.1}
  {
    var id := NextBudgetChangeset(s);
    (s.(budgetChangesets := s.budgetChangesets + [BudgetChangeset(id, user, budget, hint)]), id)
  }

  /** `singleRow`: the only row of a result, or an error naming the count. */
  function SingleRow<T>(rows: seq<T>): (r: Result<T, Error>)
    ensures r.Ok? <==> |rows| == 1
    ensures r.Ok? ==> r.value == rows[0]
    ensures r.Err? ==> r.error == UnexpectedRowCount(|rows|)
  {
    if |rows| == 1 then Ok(rows[0]) else Err(UnexpectedRowCount(|rows|))
  }

  /** `(rowCount > 1) ? rows[0] : null`: the first row, but only when there
      are at least two. */
  function FirstRowIfSeveral<T>(rows: seq<T>): (r: Option<T>)
    ensures r.Some? <==> |rows| > 1
    ensures r.Some? ==> r.value == rows[0]
  {
    if |rows| > 1 then Some(rows[0]) else None
  }

  /** The first row when there is any. */
  function FirstRowIfAny<T>(rows: seq<T>): (r: Option<T>)
    ensures r.Some? <==> |rows| > 0
    ensures r.Some? ==> r.value == rows[0]
  {
    if |rows| > 0 then Some(rows[0]) else None
  }

  /** Recording changesets one after another never reuses an identifier and
      never rewrites an earlier row. */
  lemma ChangesetsAppendOnly(s: State, u1: UserId, b1: BudgetId, h1: BudgetHint, u2: UserId, b2: BudgetId, h2: BudgetHint)
    ensures var (s1, id1) := CreateBudgetChangeset(s, u1, b1, h1);
            var (s2, id2) := CreateBudgetChangeset(s1, u2, b2, h2);
            && id1 != id2
            && s2.budgetChangesets[..|s.budgetChangesets|] == s.budgetChangesets
            && s2.budgetChangesets[|s.budgetChangesets|] == BudgetChangeset(id1, u1, b1, h1)
  {
  }
}

=== FILE: versioned.dfy ===
/** The versioned entity store shared by users, budgets, nodes, transactions and
    postings. Each entity is an identity row (fixed columns) plus a chain of
    version rows; a mutation never edits or removes a version, it clears the
    `is_most_recent` flag of the current one and appends its successor. */
module Versioned {
  import opened Wrappers
  import opened Ids
  import opened Failures

  datatype Version<C> = Version(
    number: nat,
    content: C,
    isDeleted: bool,
    isMostRecent: bool,
    changeset: ChangesetId)

  /** An identity row with its version rows, oldest first. */
  datatype Identity<I, C> = Identity(fixed: I, chain: seq<Version<C>>)

  /** An identity table joined with its version table. */
  type Table<K, I, C> = map<K, Identity<I, C>>

  /** Version numbers go up by one with no gap, and exactly the last version is most recent. */
  predicate ChainValid<C>(c: seq<Version<C>>) {
    && |c| > 0
    && (forall i :: 0 < i < |c| ==> c[i].number == c[i - 1].number + 1)
    && (forall i :: 0 <= i < |c| ==> (c[i].isMostRecent <==> i == |c| - 1))
  }

  ghost predicate TableValid<K, I, C>(t: Table<K, I, C>) {
    forall k :: k in t ==> ChainValid(t[k].chain)
  }

  function Last<C>(c: seq<Version<C>>): Version<C>
    requires |c| > 0
  {
    c[|c| - 1]
  }

  /** The version the flag-clearing `UPDATE ... WHERE is_most_recent = true
      RETURNING *` hands back as `prev`: the latest flagged version, if any. */
  function MostRecent<C>(c: seq<Version<C>>): (r: Option<Version<C>>)
    ensures r.Some? ==> r.value in c && r.value.isMostRecent
    ensures r.None? <==> forall i :: 0 <= i < |c| ==> !c[i].isMostRecent
    decreases |c|
  {
    if |c| == 0 then None
    else if Last(c).isMostRecent then Some(Last(c))
    else MostRecent(c[..|c| - 1])
  }

  /** The `current_*` views: the most recent version, unless it is deleted.
      The view definitions are not part of this model; this is the reading
      under which a deleted budget reads back as null. */
  function Current<C>(c: seq<Version<C>>): (r: Option<Version<C>>)
    ensures r.Some? ==> r.value in c && r.value.isMostRecent && !r.value.isDeleted
  {
    match MostRecent(c)
    case None => None
    case Some(v) => if v.isDeleted then None else Some(v)
  }

  /** The first version an insert writes: most recent and not deleted. */
  function Initial<C>(first: nat, content: C, cs: ChangesetId): Version<C> {
    Version(first, content, false, true, cs)
  }

  /** Every version with its most-recent flag cleared. */
  function ClearMostRecent<C>(c: seq<Version<C>>): (r: seq<Version<C>>)
    ensures |r| == |c|
    ensures forall i :: 0 <= i < |c| ==> r[i] == c[i].(isMostRecent := false)
  {
    seq(|c|, i requires 0 <= i < |c| => c[i].(isMostRecent := false))
  }

  /** `WITH prev AS (UPDATE ... RETURNING *) INSERT ...`: clear the flag and
      append version `prev + 1`. With no flagged version, `prev` is empty and
      the insert writes nothing. */
  function Append<C>(c: seq<Version<C>>, content: C, deleted: bool, cs: ChangesetId): seq<Version<C>>
  {
    match MostRecent(c)
    case None => c
    case Some(prev) => ClearMostRecent(c) + [Version(prev.number + 1, content, deleted, true, cs)]
  }

  /** The history-preservation part of an append: the old versions survive
      with only their flag cleared, and one version is added on top. */
  ghost predicate AppendedTo<C>(c: seq<Version<C>>, r: seq<Version<C>>) {
    && |r| == |c| + 1
    && (forall i :: 0 <= i < |c| ==> r[i] == c[i].(isMostRecent := false))
  }

  /** An update: the new content at version `prev + 1`, not deleted. */
  function UpdateChain<C>(c: seq<Version<C>>, content: C, cs: ChangesetId): (r: seq<Version<C>>)
    ensures ChainValid(c) ==> ChainValid(r) && AppendedTo(c, r)
    ensures ChainValid(c) ==> Last(r) == Version(Last(c).number + 1, content, false, true, cs)
  {
    Append(c, content, false, cs)
  }

  /** A delete: the previous content carried forward at version `prev + 1`,
      flagged deleted. */
  function DeleteChain<C>(c: seq<Version<C>>, cs: ChangesetId): (r: seq<Version<C>>)
    ensures ChainValid(c) ==> ChainValid(r) && AppendedTo(c, r)
    ensures ChainValid(c) ==> Last(r) == Version(Last(c).number + 1, Last(c).content, true, true, cs)
  {
    match MostRecent(c)
    case None => c
    case Some(prev) => Append(c, prev.content, true, cs)
  }

  //// Chain lemmas

  /** The version at position `i` is numbered `i` past the first. */
  lemma {:induction false} NumberAt<C>(c: seq<Version<C>>, i: nat)
    requires ChainValid(c)
    requires i < |c|
    ensures c[i].number == c[0].number + i
  {
    if i > 0 {
      NumberAt(c, i - 1);
    }
  }

  /** A valid chain holds exactly one most-recent version, its last. */
  lemma ExactlyOneMostRecent<C>(c: seq<Version<C>>)
    requires ChainValid(c)
    ensures (set i | 0 <= i < |c| && c[i].isMostRecent) == {|c| - 1}
    ensures MostRecent(c) == Some(Last(c))
  {
  }

  /** Version numbers of a chain that has had `|c| - 1` mutations are exactly
      `first .. first + |c| - 1`. */
  lemma {:induction false} NumbersWithoutGaps<C>(c: seq<Version<C>>)
    requires ChainValid(c)
    ensures forall i :: 0 <= i < |c| ==> c[i].number == c[0].number + i
    ensures Last(c).number == c[0].number + |c| - 1
  {
    forall i | 0 <= i < |c|
      ensures c[i].number == c[0].number + i
    {
      NumberAt(c, i);
    }
  }

  /** Reading back a freshly created chain yields its content, not deleted. */
  lemma ReadAfterCreate<C>(first: nat, content: C, cs: ChangesetId)
    ensures ChainValid([Initial(first, content, cs)])
    ensures Current([Initial(first, content, cs)]) == Some(Version(first, content, false, true, cs))
  {
  }

  /** Reading back after an update yields the new content one version later. */
  lemma ReadAfterUpdate<C>(c: seq<Version<C>>, content: C, cs: ChangesetId)
    requires ChainValid(c)
    ensures Current(UpdateChain(c, content, cs)) == Some(Version(Last(c).number + 1, content, false, true, cs))
  {
    ExactlyOneMostRecent(UpdateChain(c, content, cs));
  }

  /** After a delete the view is empty, while the most recent row carries the
      pre-delete content, flagged deleted, one version later. */
  lemma ReadAfterDelete<C>(c: seq<Version<C>>, cs: ChangesetId)
    requires ChainValid(c)
    ensures Current(DeleteChain(c, cs)) == None
    ensures MostRecent(DeleteChain(c, cs)) == Some(Version(Last(c).number + 1, Last(c).content, true, true, cs))
  {
    ExactlyOneMostRecent(DeleteChain(c, cs));
  }

  //// Tables

  /** Inserts the identity row and its first version; a key that is already
      present violates the primary key. */
  function Insert<K, I, C>(t: Table<K, I, C>, k: K, fixed: I, content: C, first: nat,
                           cs: ChangesetId, name: TableName): (r: Result<Table<K, I, C>, Error>)
    ensures r.Ok? <==> k !in t
    ensures r.Err? ==> r.error == DuplicateKey(name)
    ensures r.Ok? ==> r.value == t[k := Identity(fixed, [Initial(first, content, cs)])]
  {
    if k in t then Err(DuplicateKey(name))
    else Ok(t[k := Identity(fixed, [Initial(first, content, cs)])])
  }

  /** `SELECT * FROM <identities> WHERE id = k FOR UPDATE`: fails when the
      identity row is absent. Only this existence test is modelled. */
  function Lock<K, I, C>(t: Table<K, I, C>, k: K, name: TableName): (o: Outcome<Error>)
    ensures o.Pass? <==> k in t
    ensures o.Fail? ==> o.error == NotFound(name)
  {
    Need(k in t, NotFound(name))
  }

  function UpdateIn<K, I, C>(t: Table<K, I, C>, k: K, content: C, cs: ChangesetId): (r: Table<K, I, C>)
    ensures r.Keys == t.Keys
    ensures forall k' :: k' in t && k' != k ==> r[k'] == t[k']
    ensures k in t ==> r[k] == t[k].(chain := UpdateChain(t[k].chain, content, cs))
  {
    if k in t then t[k := t[k].(chain := UpdateChain(t[k].chain, content, cs))] else t
  }

  function DeleteIn<K, I, C>(t: Table<K, I, C>, k: K, cs: ChangesetId): (r: Table<K, I, C>)
    ensures r.Keys == t.Keys
    ensures forall k' :: k' in t && k' != k ==> r[k'] == t[k']
    ensures k in t ==> r[k] == t[k].(chain := DeleteChain(t[k].chain, cs))
  {
    if k in t then t[k := t[k].(chain := DeleteChain(t[k].chain, cs))] else t
  }

  /** The current-view row of `k`, if `k` has one. */
  function CurrentIn<K, I, C>(t: Table<K, I, C>, k: K): Option<Version<C>> {
    if k in t then Current(t[k].chain) else None
  }

  //// History and provenance

  /** `b` is `a` after appends stamped with `cs`: the fixed columns are the
      same, every old version survives (its flag possibly cleared), and every
      added version carries `cs`. */
  ghost predicate Grows<I, C>(a: Identity<I, C>, b: Identity<I, C>, cs: ChangesetId) {
    && a.fixed == b.fixed
    && |a.chain| <= |b.chain|
    && (forall i :: 0 <= i < |a.chain| ==>
          b.chain[i] == a.chain[i] || b.chain[i] == a.chain[i].(isMostRecent := false))
    && (forall i :: |a.chain| <= i < |b.chain| ==> b.chain[i].changeset == cs)
  }

  /** The whole table grew only by history stamped with `cs`: no identity
      disappeared, and every version that is new, in an old or a new
      identity, carries `cs`. */
  ghost predicate Extends<K, I, C>(t: Table<K, I, C>, t': Table<K, I, C>, cs: ChangesetId) {
    && t.Keys <= t'.Keys
    && (forall k :: k in t ==> Grows(t[k], t'[k], cs))
    && (forall k :: k in t' && k !in t ==> forall i :: 0 <= i < |t'[k].chain| ==> t'[k].chain[i].changeset == cs)
  }

  /** Every version row names a changeset of `ids`. */
  ghost predicate StampedFrom<K, I, C>(t: Table<K, I, C>, ids: set<ChangesetId>) {
    forall k :: k in t ==> forall i :: 0 <= i < |t[k].chain| ==> t[k].chain[i].changeset in ids
  }

  lemma ExtendsReflexive<K, I, C>(t: Table<K, I, C>, cs: ChangesetId)
    ensures Extends(t, t, cs)
  {
  }

  /** Two steps of one call, stamped with the same changeset, compose. */
  lemma ExtendsTransitive<K, I, C>(t1: Table<K, I, C>, t2: Table<K, I, C>, t3: Table<K, I, C>, cs: ChangesetId)
    requires Extends(t1, t2, cs) && Extends(t2, t3, cs)
    ensures Extends(t1, t3, cs)
  {
    forall k | k in t1
      ensures Grows(t1[k], t3[k], cs)
    {
      var a, b, c := t1[k].chain, t2[k].chain, t3[k].chain;
      forall i | 0 <= i < |a|
        ensures c[i] == a[i] || c[i] == a[i].(isMostRecent := false)
      {
        assert b[i] == a[i] || b[i] == a[i].(isMostRecent := false);
        assert c[i] == b[i] || c[i] == b[i].(isMostRecent := false);
      }
    }
  }

  lemma InsertExtends<K, I, C>(t: Table<K, I, C>, k: K, fixed: I, content: C, first: nat,
                               cs: ChangesetId, name: TableName)
    requires k !in t
    ensures Extends(t, Insert(t, k, fixed, content, first, cs, name).value, cs)
  {
  }

  /** A freshly inserted identity has a valid one-version chain. */
  lemma InsertKeepsTableValid<K, I, C>(t: Table<K, I, C>, k: K, fixed: I, content: C, first: nat,
                                       cs: ChangesetId, name: TableName)
    requires TableValid(t) && k !in t
    ensures TableValid(Insert(t, k, fixed, content, first, cs, name).value)
  {
    assert ChainValid([Initial(first, content, cs)]);
  }

  lemma UpdateInExtends<K, I, C>(t: Table<K, I, C>, k: K, content: C, cs: ChangesetId)
    requires TableValid(t)
    ensures Extends(t, UpdateIn(t, k, content, cs), cs)
    ensures TableValid(UpdateIn(t, k, content, cs))
  {
    var r := UpdateIn(t, k, content, cs);
    if k in t {
      assert Grows(t[k], r[k], cs);
    }
  }

  lemma DeleteInExtends<K, I, C>(t: Table<K, I, C>, k: K, cs: ChangesetId)
    requires TableValid(t)
    ensures Extends(t, DeleteIn(t, k, cs), cs)
    ensures TableValid(DeleteIn(t, k, cs))
  {
    var r := DeleteIn(t, k, cs);
    if k in t {
      assert Grows(t[k], r[k], cs);
    }
  }

  /** Provenance survives a step whose changeset is known. */
  lemma StampedFromExtends<K, I, C>(t: Table<K, I, C>, t': Table<K, I, C>, cs: ChangesetId,
                                    ids: set<ChangesetId>, ids': set<ChangesetId>)
    requires StampedFrom(t, ids) && Extends(t, t', cs)
    requires ids <= ids' && cs in ids'
    ensures StampedFrom(t', ids')
  {
    forall k | k in t'
      ensures forall i :: 0 <= i < |t'[k].chain| ==> t'[k].chain[i].changeset in ids'
    {
      if k in t {
        assert Grows(t[k], t'[k], cs);
        forall i | 0 <= i < |t'[k].chain|
          ensures t'[k].chain[i].changeset in ids'
        {
          if i < |t[k].chain| {
            assert t[k].chain[i].changeset in ids;
          }
        }
      }
    }
  }
}

=== FILE: wrappers.dfy ===
/** Failure-compatible wrappers used by every store operation. An operation
    that fails returns `Err` and no successor state: the enclosing database
    transaction is rolled back, so the caller keeps the state it started from. */
module Wrappers {

  datatype Option<+T> = None | Some(value: T)

  datatype Result<+T, +E> = Ok(value: T) | Err(error: E) {

    predicate IsFailure() {
      Err?
    }

    function PropagateFailure<U>(): Result<U, E>
      requires Err?
    {
      Err(error)
    }

    function Extract(): T
      requires Ok?
    {
      value
    }
  }

  /** A check that either passes or fails with an error; usable with `:-`. */
  datatype Outcome<+E> = Pass | Fail(error: E) {

    predicate IsFailure() {
      Fail?
    }

    function PropagateFailure<U>(): Result<U, E>
      requires Fail?
    {
      Err(error)
    }
  }

  function Need<E>(condition: bool, error: E): (o: Outcome<E>)
  {
    if condition then Pass else Fail(error)
  }
}
